=== FILE: README.md ===
# A Dafny model of five PyTorch cores

This project models, as pure functions over immutable values, five pieces of
PyTorch and proves what each one promises:

- **Kineto profiler post-processing and session lifecycle.** The
  `torch/csrc/autograd/profiler_kineto.cpp` part covers four things:
  - how a finished record becomes an exported event plus its ordered
    annotations (`EventFieldsVisitor`, `materializeOpEvents`);
  - the Python stack merge (`addPythonEvents`), which replays enter/exit
    frames against operator start times, names each operator's caller and
    numbers module calls per name;
  - the forward/backward link table (`getForwardThreadKey`,
    `generateForwardBackwardLink`);
  - the session state machine: correlation ids, the on-demand global slot,
    enable/disable, the record-function callbacks and the CUDA timer's `-1`
    sentinel.

  Modules: `ProfilerEvents`, `PythonStackMerge`, `ForwardBackwardLink`,
  `ProfilerSession`.
- **Shape and stride arithmetic of advanced indexing**
  (`aten/src/ATen/native/TensorAdvancedIndexing.cpp`). It covers:
  - the reduce-name table;
  - `restride_src` and `reshape_indexer`;
  - dimension counting in the `AdvancedIndex` constructor;
  - the index_copy / index_add / index_reduce meta checks;
  - `check_indexarray_range` and the index_select result shape;
  - the index arithmetic of `nonzero` on the CPU: prefix sums, the
    mixed-radix start index and the odometer step;
  - the 4-way unrolled nonzero count.

  Modules: `AdvancedIndexing`, `Nonzero`.
- **Decisions and formatting in the cuSOLVER glue**
  (`aten/src/ATen/native/cuda/linalg/BatchLinearAlgebraLib.cpp`). It
  covers:
  - `to_cublas`;
  - the convergence check and the non-converging-batch message;
  - SVD driver selection and its fallback;
  - eigh routine selection;
  - the batched-inverse heuristic.

  Module: `BatchLinalg`.
- **Alias and generation bookkeeping of functionalization**
  (`aten/src/ATen/FunctionalTensorWrapper.cpp`). It covers:
  - the wrapper key set;
  - the view constructor, `commit_update`, `is_up_to_date`,
    `mutate_view_meta`, `replace_`, `maybe_replace_storage` and
    `sync_`/`regenerate_from_base`;
  - the list overloads of `isFunctionalTensor`;
  - wrapping and unwrapping.

  Module: `FunctionalWrapper`.
- **The DataPipe function and hook registries**
  (`torch/utils/data/datapipes/datapipe.py`). It covers:
  - `register_function` and `register_datapipe_as_function`;
  - `__getattr__`;
  - the dataframe-tracing rule;
  - the one-shot hook setters, `__reduce_ex__` and `__getstate__`;
  - `DataChunk.as_str`.

  Module: `DataPipes`.

`Wrappers` holds the shared `Option`, `Result` and `Outcome` types.
`Strings` holds decimal rendering and joining. `Sorting` holds a stable
insertion sort.

How the source's constructs are represented:

- **Errors.** An exception becomes an `Err` carrying its kind:
  - `TORCH_CHECK` raises `RuntimeError`;
  - `TORCH_CHECK_INDEX` raises `IndexError`;
  - an always-on `TORCH_INTERNAL_ASSERT` raises `InternalAssert`;
  - a map's `at()` raises `OutOfRange`;
  - a bare Python `Exception` raises `Exception`;
  - a member access through a null pointer becomes `NullDereference`.
- **State.** Process-wide mutable state is one explicit value threaded
  through the operations:
  - the profiler's thread-local slot, global slot and callback registry;
  - the functional wrappers and their storages (an arena, where a handle is
    an index);
  - a DataPipe class's `functions` and hooks.
- **Unseen code.** Formatting helpers and foreign calls whose code is not in
  the modelled files are passed in as function values.

## Model

| member | source | states |
|---|---|---|
| ProfilerEvents.NsToUsMonotone | torch/csrc/autograd/profiler_kineto.cpp:311-312 | Converting nanoseconds to microseconds truncates toward zero, as C++ integer division does, and keeps the order of timestamps. |
| ProfilerEvents.JitAnnotations | torch/csrc/autograd/profiler_kineto.cpp:196-216 | The JIT stack and module annotations are present exactly when the post-processed texts are non-empty. |
| ProfilerEvents.HandleJit | torch/csrc/autograd/profiler_kineto.cpp:196-216 | handleJIT overrides the event's stack or module hierarchy only with a non-empty text and touches no other field. |
| ProfilerEvents.VisitTorchOp | torch/csrc/autograd/profiler_kineto.cpp:120-160 | An operator record's visitor: <br>• copies the end thread, scope, debug handle, async flag and CUDA events; <br>• sets shapes and dtypes each only when its list is non-empty; <br>• sets flops to the computed value exactly when extra args exist; <br>• sets the sequence number and forward thread exactly when the sequence number is non-negative; <br>• sets the JIT stack and module hierarchy as handleJIT does; <br>• leaves every other field as it was. <br>Its annotations are the operator's annotations. |
| ProfilerEvents.TorchOpAnnotationKeys | torch/csrc/autograd/profiler_kineto.cpp:128-159 | "Input Dims" is present iff shapes are non-empty. "Input type" is present iff dtypes are non-empty. "Fwd thread id" and "Sequence number" are present iff the sequence number is non-negative, and then they are the last two annotations, in that order. |
| ProfilerEvents.InputAnnotations | torch/csrc/autograd/profiler_kineto.cpp:128-138 | The input annotations carry the dims key iff shapes exist and the type key iff dtypes exist. |
| ProfilerEvents.ForwardAnnotations | torch/csrc/autograd/profiler_kineto.cpp:151-159 | The forward-thread and sequence-number keys are present iff the sequence number is non-negative. |
| ProfilerEvents.VisitBackend | torch/csrc/autograd/profiler_kineto.cpp:162-174 | For a backend record, the end thread id is the start thread id, and scope, debug handle and backend are copied. The JIT fields are set as handleJIT does, and nothing else changes. The annotations are the JIT annotations followed by one "Backend" annotation, the name in double quotes. That last annotation exists iff the backend name is non-empty. |
| ProfilerEvents.VisitAllocation | torch/csrc/autograd/profiler_kineto.cpp:176-193 | An allocation sets only the device index and byte count of the event. |
| ProfilerEvents.AllocationAnnotations | torch/csrc/autograd/profiler_kineto.cpp:176-193 | Allocation annotations are exactly Device Type, Device Id, Addr and Bytes, in that order. Then come "Total Allocated" iff it is non-negative and "Total Reserved" iff it is non-negative, in that order. |
| ProfilerEvents.Export | torch/csrc/autograd/profiler_kineto.cpp:311-333 | An exported event carries the record's name, correlation id and start thread. Its start is start_ns/1000 and its duration is end_us - start_us, non-negative when the record ends after it starts. The CPU activity carries the same times and the visitor's annotations. |
| ProfilerEvents.FinishedRecords | torch/csrc/autograd/profiler_kineto.cpp:310 | Only finished records are exported. |
| ProfilerEvents.ExpiredParentRecords | torch/csrc/autograd/profiler_kineto.cpp:306-308 | Only records whose parent expired become event-tree roots. |
| ProfilerEvents.MaterializeOpEvents | torch/csrc/autograd/profiler_kineto.cpp:301-336 | There is one event and one activity per finished record. The event tree is the expired-parent records, in order. |
| ProfilerEvents.MaterializedExports | torch/csrc/autograd/profiler_kineto.cpp:305-334 | The i-th event and activity are exactly the export of the i-th finished record. |
| ProfilerEvents.MaterializedDurationsNonNegative | torch/csrc/autograd/profiler_kineto.cpp:311-317 | When every record ends no earlier than it starts, every exported duration is present and non-negative. |
| ProfilerEvents.FinishedRecordsAreRecords | torch/csrc/autograd/profiler_kineto.cpp:305-310 | Every exported record comes from the record queue. |
| ProfilerEvents.AddTraceEvents | torch/csrc/autograd/profiler_kineto.cpp:548-577 | addTraceEvents adds at most one event per trace entry and skips null entries. It never adds an activity of a type that was already processed (CPU op, CPU instant event, user annotation, Python function). |
| ProfilerEvents.AddTraceEventsExports | torch/csrc/autograd/profiler_kineto.cpp:548-577 | addTraceEvents is complete and ordered. It yields exactly one event per non-null entry of a type not already processed. The i-th such entry becomes the event at the position counting those before it, with its device, resource, times, type and linked correlation id. |
| ForwardBackwardLink.ForwardThreadKey | torch/csrc/autograd/profiler_kineto.cpp:225-227 | The key's top 16 bits are the thread id's low 16 bits and its low 48 bits are the sequence number's low 48 bits. |
| ForwardBackwardLink.KeyInjective | torch/csrc/autograd/profiler_kineto.cpp:225-227 | Two keys are equal iff the thread ids agree in their low 16 bits and the sequence numbers agree in their low 48 bits. |
| ForwardBackwardLink.WideThreadIdsCollide | torch/csrc/autograd/profiler_kineto.cpp:225-227 | Thread ids that differ only above bit 16 share a key. |
| ForwardBackwardLink.LinkStep | torch/csrc/autograd/profiler_kineto.cpp:513-544 | For an event with a forward thread id > 0 (a backward event): <br>• the table is not changed; <br>• it is linked with the next flow id iff its key is stored. <br>For a forward event (start thread id != 0): <br>• it replaces the stored one iff the key is new or its start time is >= the stored one's; <br>• nothing else changes. |
| ForwardBackwardLink.LinkAll | torch/csrc/autograd/profiler_kineto.cpp:507-545 | The table built over the first n events holds indices of those events only. |
| ForwardBackwardLink.TableHoldsLatestForward | torch/csrc/autograd/profiler_kineto.cpp:525-544 | Every stored entry is a forward event under its own key. Every forward event seen is represented by a stored event under its key that starts no earlier. |
| ForwardBackwardLink.LinksJoinMatchingEvents | torch/csrc/autograd/profiler_kineto.cpp:513-524 | Links get consecutive ids, starting from an assumed first id of 1. Each joins an earlier forward event to a later backward event with the same key. |
| ForwardBackwardLink.BackwardLinkedIffForwardSeen | torch/csrc/autograd/profiler_kineto.cpp:513-524 | A backward event adds a link iff some earlier forward event has its key. |
| ProfilerSession.NextCorrelationId | torch/csrc/autograd/profiler_kineto.cpp:50-53 | next_correlation_id returns the counter and advances it by one modulo 2^64. |
| ProfilerSession.IssueIds | torch/csrc/autograd/profiler_kineto.cpp:50-53 | n successive calls hand out n ids. |
| ProfilerSession.IssuedIdsCount | torch/csrc/autograd/profiler_kineto.cpp:50-53 | Without wrap-around, the k-th id issued from counter c is c + k. |
| ProfilerSession.CorrelationIdsIncrease | torch/csrc/autograd/profiler_kineto.cpp:50-53 | Ids start at 1 and strictly increase, so no id repeats before wrap-around. |
| ProfilerSession.CorrelationIdsWrap | torch/csrc/autograd/profiler_kineto.cpp:50-53 | After 2^64 - 1 the counter wraps to 0. |
| ProfilerSession.GlobalInit | torch/csrc/autograd/profiler_kineto.cpp:598-605 | init installs a state only into an empty slot. An occupied slot is kept unchanged. |
| ProfilerSession.GlobalPop | torch/csrc/autograd/profiler_kineto.cpp:611-618 | pop fails with an internal assert on an empty slot. Otherwise it returns the state and leaves the slot empty. |
| ProfilerSession.InitTwiceKeepsFirst | torch/csrc/autograd/profiler_kineto.cpp:598-618 | A second init keeps the first state, and pop then returns that first state. |
| ProfilerSession.PushProfilingCallbacks | torch/csrc/autograd/profiler_kineto.cpp:680-695 | Registration needs a state in the chosen slot. It registers a fresh handle and records it in that state only. |
| ProfilerSession.OnFunctionEnter | torch/csrc/autograd/profiler_kineto.cpp:634-646 | Without a state, nothing happens. Otherwise: <br>• one id is taken and pushed onto the user stack for user-scope functions, and onto the correlation stack for all others; <br>• begin_op queues an open operator record carrying that id; <br>• the context returned points at that record. |
| ProfilerSession.EnterExitBalanced | torch/csrc/autograd/profiler_kineto.cpp:634-677 | An enter followed by its exit restores both correlation stacks and leaves the counter advanced by one. The queue gains exactly the operator's record, finished, with the id, both times and the end thread. |
| ProfilerSession.OnFunctionExit | torch/csrc/autograd/profiler_kineto.cpp:650-677 | Without a state nothing happens. A missing observer context is an internal assert. Otherwise the record the context points to gets its end time and end thread and is finished, and the innermost id of the matching stack is popped. Nothing else changes. |
| ProfilerSession.EnableProfiler | torch/csrc/autograd/profiler_kineto.cpp:762-800 | enableProfiler: <br>• fails if a state is already set; <br>• NVTX installs its state; <br>• other non-Kineto states fail without a change; <br>• an empty activity set fails; <br>• the correlation counter is untouched. |
| ProfilerSession.EnableKineto | torch/csrc/autograd/profiler_kineto.cpp:779-792 | A Kineto enable installs a fresh thread-local state and starts tracing. Python tracing starts iff with_stack and CPU are on. Callbacks are registered iff CPU is among the activities. |
| ProfilerSession.EnableOndemand | torch/csrc/autograd/profiler_kineto.cpp:794-799 | An on-demand enable installs the global state, or keeps an existing one. It succeeds iff CPU is among the activities. |
| ProfilerSession.EnableTwiceFails | torch/csrc/autograd/profiler_kineto.cpp:766 | Enabling again on the same thread fails with "already enabled". |
| ProfilerSession.OndemandWithoutCpuLeavesGlobalState | torch/csrc/autograd/profiler_kineto.cpp:794-797 | An on-demand enable without CPU raises after the global state was installed, and that state stays installed. |
| ProfilerSession.EnableWithPostProcessAsWritten | torch/csrc/autograd/profiler_kineto.cpp:745-760 | The post-processing enable refuses NVTX and an existing global state. |
| ProfilerSession.PostProcessOndemandDereferencesNull | torch/csrc/autograd/profiler_kineto.cpp:757-759 | As written, an on-demand enable leaves no thread-local state, and the callback is stored through a null pointer. |
| ProfilerSession.EnableWithPostProcess | torch/csrc/autograd/profiler_kineto.cpp:745-760 | The corrected post-processing enable: <br>• refuses NVTX, on-demand and an existing global state, without a change; <br>• on success stores the callback in the new thread-local state; <br>• never dereferences null. |
| ProfilerSession.PostProcessAgreesOffOndemand | torch/csrc/autograd/profiler_kineto.cpp:745-760 | Away from on-demand states, the corrected and as-written versions agree. |
| ProfilerSession.ReportBackendEvent | torch/csrc/autograd/profiler_kineto.cpp:699-729 | Reporting asserts that there is no global state. Without a thread-local state it does nothing. Otherwise it queues exactly one backend record for the event and changes nothing else. |
| ProfilerSession.ReportMemoryUsage | torch/csrc/autograd/profiler_kineto.cpp:255-271 | An allocation record is queued iff memory profiling is on and the profiler is enabled. Earlier records and other fields are kept. |
| ProfilerSession.FinalizeTrace | torch/csrc/autograd/profiler_kineto.cpp:281-299 | finalizeTrace: <br>• exports the i-th finished record as the i-th event; an event without a stack gets its Python caller's name chain when Python is traced; <br>• follows these with addTraceEvents' device events, except in the on-demand flow; <br>• has the expired-parent records as its event tree; <br>• can fail only through the Python merge's internal asserts. <br>This is the corrected finalize: its Python merge is `AddPythonEvents`. The finalize as written is `FinalizeTraceAsWritten`. |
| ProfilerSession.FinalizeTraceAsWritten | torch/csrc/autograd/profiler_kineto.cpp:281-299 | finalizeTrace as written fails exactly when addPythonEvents as written does, with its error, which includes the `std::out_of_range` at 467. Wherever it succeeds, it equals the corrected finalize. |
| ProfilerSession.FinalizeAsWrittenThrowsOnLateModuleCall | torch/csrc/autograd/profiler_kineto.cpp:409-467 | A traced module call that starts after every recorded operator makes finalizeTrace as written fail. |
| ProfilerSession.MergedAreExported | torch/csrc/autograd/profiler_kineto.cpp:301-336 | After the Python merge, the i-th event is still the export of the i-th finished record, with only the stack filled in. |
| ProfilerSession.FinalizeExportsLast | torch/csrc/autograd/profiler_kineto.cpp:301-336 | A finished record at the end of the queue is exported right after the finished records before it. |
| ProfilerSession.ReportedMemoryIsExported | torch/csrc/autograd/profiler_kineto.cpp:255-271 | A reported allocation reaches finalizeTrace's events, with its size, device index and time. Its CPU activity carries the allocation annotations. |
| ProfilerSession.ReportedBackendIsExported | torch/csrc/autograd/profiler_kineto.cpp:699-729 | A reported backend event reaches finalizeTrace's events, with its name, interval, backend, scope and debug handle. |
| ProfilerSession.EnteredOpIsExported | torch/csrc/autograd/profiler_kineto.cpp:634-677 | An operator entered and left on the thread-local state is exported with its correlation id, start, duration and end thread. |
| ProfilerSession.CloseRecord | torch/csrc/autograd/profiler_kineto.cpp:659-660 | Closing a record writes its end time and, for an operator, its end thread, and finishes it. Nothing else changes. |
| ProfilerSession.TakeState | torch/csrc/autograd/profiler_kineto.cpp:803-807 | disableProfiler takes the global state if there is one and the thread-local state otherwise, and empties that slot. |
| ProfilerSession.DisableWith | torch/csrc/autograd/profiler_kineto.cpp:802-854 | After disabling, the global slot is empty. The thread-local slot is emptied unless the global state was taken. The flag picks the corrected or the as-written disable. With no state, the result is the not-running error, or, as written, the null dereference. The as-written disable finalizes with `FinalizeTraceAsWritten`. A state that cannot be disabled gives the not-running error. Otherwise (`DisabledAs`): <br>• the session's callback is removed; <br>• the result fails iff the state is not NVTX and finalizeTrace fails, with finalizeTrace's error; <br>• on-demand and NVTX states change nothing else and give an empty result; <br>• a Kineto state stops Python tracing when it traced Python; <br>• tracing stops only when finalizeTrace succeeds, and nothing else in the world changes. |
| ProfilerSession.DisableProfilerAsWritten | torch/csrc/autograd/profiler_kineto.cpp:802-854 | As written, disabling with no state reads the config through a null pointer. For a running state other than NVTX, it fails exactly when finalizeTrace as written does, with that error. |
| ProfilerSession.DisableAsWrittenThrowsOnLateModuleCall | torch/csrc/autograd/profiler_kineto.cpp:834-851 | Disabling, as written, a Kineto session that traces Python fails when a module call starts after every operator. |
| ProfilerSession.DisableProfiler | torch/csrc/autograd/profiler_kineto.cpp:802-854 | The corrected disable fails with "not running", without a change, when there is no state. It never dereferences null. |
| ProfilerSession.DisableEmptiesSlot | torch/csrc/autograd/profiler_kineto.cpp:803-807 | Disabling empties exactly the slot it took from. |
| ProfilerSession.DisableEmptyResults | torch/csrc/autograd/profiler_kineto.cpp:822-832 | On-demand and NVTX sessions disable to an empty result. |
| ProfilerSession.DisableRunning | torch/csrc/autograd/profiler_kineto.cpp:818-853 | Disabling a running session leaves both slots as they were after the take. The callback is removed. On-demand and NVTX states change nothing else and give an empty result. A Kineto state stops the Python tracer when it traced Python, and stops tracing only when finalizeTrace succeeds. It fails iff finalization fails, with finalizeTrace's error. An NVTX state never fails. |
| ProfilerSession.DisableKinetoFull | torch/csrc/autograd/profiler_kineto.cpp:834-851 | A Kineto session disables to a full result iff finalizeTrace succeeds. The result carries the session's start time, finalizeTrace's events and its event tree, and tracing stops. When finalizeTrace fails, tracing is unchanged. |
| ProfilerSession.DisableUnregisters | torch/csrc/autograd/profiler_kineto.cpp:818-820 | Disabling removes exactly the session's callback handle, if it has one. |
| ProfilerSession.DisableAgreesWithState | torch/csrc/autograd/profiler_kineto.cpp:802-854 | When a state exists, the corrected and as-written disables agree wherever their finalizations agree, in particular whenever finalizeTrace as written succeeds. |
| ProfilerSession.EnableDisableRoundTrip | torch/csrc/autograd/profiler_kineto.cpp:762-854 | Enabling Kineto and then disabling leaves both slots empty and the callback registry as it was. It returns a full result with the enable's start time. |
| ProfilerSession.CudaElapsedUs | torch/csrc/autograd/profiler_kineto.cpp:856-867 | The elapsed time is -1 when either CUDA event is missing or the timer fails. Otherwise it is the timer's value. |
| PythonStackMerge.NameChainIsReversedAncestry | torch/csrc/autograd/profiler_kineto.cpp:92-97 | _push_reverse_order yields the caller's ancestor names from the root down to the caller. |
| PythonStackMerge.NameChainEnds | torch/csrc/autograd/profiler_kineto.cpp:92-97 | The chain of a frame starts at a root frame's name and ends with the frame's own name. |
| PythonStackMerge.ReplayEntries | torch/csrc/autograd/profiler_kineto.cpp:421-424 | Each frame contributes an enter entry and then an exit entry. |
| PythonStackMerge.SortedReplay | torch/csrc/autograd/profiler_kineto.cpp:75-90 | The replay is a permutation of the entries, ordered by call/return index only and not by timestamp. |
| PythonStackMerge.RecordModuleId | torch/csrc/autograd/profiler_kineto.cpp:409-418 | A new module identity gets its name's counter as a decimal, and that counter moves on. Known identities keep their first id. Nothing else changes. |
| PythonStackMerge.SameNameDistinctIds | torch/csrc/autograd/profiler_kineto.cpp:409-418 | Two new module calls with one name and different identities get different ids. |
| PythonStackMerge.AdvanceTo | torch/csrc/autograd/profiler_kineto.cpp:431-447 | The replay consumes exactly the entries up to time t, in order. Known module ids are kept. New ones come only from modules entered by t. Failures are internal asserts. |
| PythonStackMerge.ExitMustMatchTop | torch/csrc/autograd/profiler_kineto.cpp:440-441 | An exit that is not the top of the stack is an internal-assert failure. |
| PythonStackMerge.OpenEnter | torch/csrc/autograd/profiler_kineto.cpp:436-438 | Replaying an enter of a frame not yet exited opens it innermost. |
| PythonStackMerge.OpenExit | torch/csrc/autograd/profiler_kineto.cpp:439-442 | Replaying an exit closes exactly that frame among the open ones. |
| PythonStackMerge.OpenFromDistinct | torch/csrc/autograd/profiler_kineto.cpp:436-442 | No frame is open twice when no replay entry repeats. |
| PythonStackMerge.TracksEnter | torch/csrc/autograd/profiler_kineto.cpp:436-438 | An enter keeps the replay's stack equal to the frames open after the entries consumed. |
| PythonStackMerge.TracksExit | torch/csrc/autograd/profiler_kineto.cpp:439-442 | An exit of the innermost open frame keeps the replay's stack equal to the frames open after the entries consumed. |
| PythonStackMerge.ExitClosesTop | torch/csrc/autograd/profiler_kineto.cpp:439-442 | Closing the innermost open frame pops it off the reference stack, and that frame was entered earlier. |
| PythonStackMerge.AdvanceToTracks | torch/csrc/autograd/profiler_kineto.cpp:431-447 | However far the replay advances, its stack is the frames entered and not yet exited, outermost first. |
| PythonStackMerge.SortedReplayDistinct | torch/csrc/autograd/profiler_kineto.cpp:394-410 | The sorted replay holds each frame's enter and exit exactly once. |
| PythonStackMerge.ReplayTimesFindsCallers | torch/csrc/autograd/profiler_kineto.cpp:431-447 | Replaying sorted start times maps each time to the top of the frames open where the replay stops for it. |
| PythonStackMerge.ReplayTimes | torch/csrc/autograd/profiler_kineto.cpp:431-447 | Every operator start time gets a valid caller frame, or none. The first caller found for a time is kept. New module ids come only from modules entered by some operator's start. |
| PythonStackMerge.FindCallers | torch/csrc/autograd/profiler_kineto.cpp:394-447 | After sorting the start times and replaying, every operator's start time maps to the frame on top of the stack when the replay stops for it (`CallerAt`). |
| PythonStackMerge.ReplayedModulesStartBeforeAnOp | torch/csrc/autograd/profiler_kineto.cpp:431-447 | The replay assigns module ids only to modules entered by the latest operator start. |
| PythonStackMerge.PyActivityShape | torch/csrc/autograd/profiler_kineto.cpp:453-472 | A pushed Python frame is a Python-function activity with its times and id. A module call carries its module id as the fourth annotation. |
| PythonStackMerge.PushWhile | torch/csrc/autograd/profiler_kineto.cpp:480-483 | Frames are pushed in order while they end by the bound, one activity per frame, and all of them without a bound. |
| PythonStackMerge.PushWhileStep | torch/csrc/autograd/profiler_kineto.cpp:453-472 | One push emits the frame's activity ahead of the rest. |
| PythonStackMerge.PushWhileActivities | torch/csrc/autograd/profiler_kineto.cpp:453-483 | The pushed activities are exactly the frames' activities, in frame order. |
| PythonStackMerge.PushWhileNeedsIds | torch/csrc/autograd/profiler_kineto.cpp:467 | As written, a push succeeds iff every pushed module call already has an id, because map.at throws otherwise. |
| PythonStackMerge.PushWhileExtends | torch/csrc/autograd/profiler_kineto.cpp:453-483 | Pushing frames never changes a module id that is already known. |
| PythonStackMerge.PushWhileAgrees | torch/csrc/autograd/profiler_kineto.cpp:480-483 | When every pushed module call already has an id, recording ids on push changes nothing. |
| PythonStackMerge.Annotate | torch/csrc/autograd/profiler_kineto.cpp:485-496 | The caller's frame index is appended as an annotation. An event with a stack keeps it. Any other event gets the caller's root-to-caller name chain. |
| PythonStackMerge.PushAlong | torch/csrc/autograd/profiler_kineto.cpp:475-502 | Walking the operators pushes every frame exactly once, one activity each. |
| PythonStackMerge.PushAlongActivities | torch/csrc/autograd/profiler_kineto.cpp:475-502 | The frames are appended in frame order as their activities. |
| PythonStackMerge.PushAlongNeedsIds | torch/csrc/autograd/profiler_kineto.cpp:467 | As written, the walk succeeds iff every module call already has an id. |
| PythonStackMerge.PushAlongExtends | torch/csrc/autograd/profiler_kineto.cpp:475-502 | The walk never changes a known module id. |
| PythonStackMerge.PushAlongAgrees | torch/csrc/autograd/profiler_kineto.cpp:475-502 | When the as-written walk succeeds, recording ids on push gives the same frames and ids. |
| PythonStackMerge.AnnotateAll | torch/csrc/autograd/profiler_kineto.cpp:475-497 | Each operator is annotated with the caller recorded for its start time. |
| PythonStackMerge.MergePythonEvents | torch/csrc/autograd/profiler_kineto.cpp:374-505 | addPythonEvents: <br>• is a no-op without Python tracing or without frames; <br>• fails on frames from several threads; <br>• otherwise yields the annotated operators followed by the pushed frames. |
| PythonStackMerge.MergeLayout | torch/csrc/autograd/profiler_kineto.cpp:475-504 | After the merge: <br>• events keep their count; <br>• events with a stack are unchanged; <br>• every other event gets its operator's caller's name chain; <br>• every CPU activity gains its caller's python_caller_id; <br>• the activities are the operators followed by one activity per frame, in frame order. |
| PythonStackMerge.MergeStacks | torch/csrc/autograd/profiler_kineto.cpp:491-496 | Every operator event without a stack gets the name chain of the caller on top of the replayed stack at its start time. |
| PythonStackMerge.MergeCallerIds | torch/csrc/autograd/profiler_kineto.cpp:485-487 | Every CPU activity keeps its annotations and gains its operator's caller's python_caller_id after them. |
| PythonStackMerge.MergePyActivities | torch/csrc/autograd/profiler_kineto.cpp:475-504 | After the operators come the activities of all frames, in frame order. |
| PythonStackMerge.AddPythonEventsAsWritten | torch/csrc/autograd/profiler_kineto.cpp:374-505 | As written, the merge succeeds iff every module call's identity was met during the replay. |
| PythonStackMerge.AsWrittenThrowsOnLateModuleCall | torch/csrc/autograd/profiler_kineto.cpp:409-418 | As written, a module call that starts after every operator makes the merge throw. |
| PythonStackMerge.AsWrittenLateModuleCallExample | torch/csrc/autograd/profiler_kineto.cpp:467 | A concrete input that makes the as-written merge throw: one operator at 10-20 and one module call at 30-40. |
| PythonStackMerge.AddPythonEvents | torch/csrc/autograd/profiler_kineto.cpp:374-505 | The corrected merge: <br>• records a module id on push as well; <br>• succeeds iff the replay does; <br>• keeps the no-op and error cases; <br>• yields the layout and the caller attribution stated by MergeLayout. |
| PythonStackMerge.AsWrittenAgreesWhenItSucceeds | torch/csrc/autograd/profiler_kineto.cpp:374-505 | Whenever the as-written merge succeeds, the corrected merge gives the same result. |
| PythonStackMerge.CorrectedHandlesLateModuleCall | torch/csrc/autograd/profiler_kineto.cpp:453-472 | The corrected merge succeeds whenever the replay does, and every module call carries a module id. |
| AdvancedIndexing.GetOperatorEnum | aten/src/ATen/native/TensorAdvancedIndexing.cpp:79-103 | An unknown name is a RuntimeError. The old options yield only add or multiply. |
| AdvancedIndexing.OperatorEnumMatchesNames | aten/src/ATen/native/TensorAdvancedIndexing.cpp:79-103 | A name is accepted iff it is in the table for the options in use, and it maps to that table entry. |
| AdvancedIndexing.ReduceNameRoundTrip | aten/src/ATen/native/TensorAdvancedIndexing.cpp:79-103 | Parsing an operation's table name gives back the operation. |
| AdvancedIndexing.RestrideSrc | aten/src/ATen/native/TensorAdvancedIndexing.cpp:385-395 | The result's shape and strides are equally long: the first b entries, then the replacement shape with zero strides, then the entries after b + k. |
| AdvancedIndexing.RestrideCount | aten/src/ATen/native/TensorAdvancedIndexing.cpp:385-395 | The new numel times the indexed sizes' product equals the old numel times the replacement's numel. |
| AdvancedIndexing.ReshapeIndexer | aten/src/ATen/native/TensorAdvancedIndexing.cpp:399-406 | The index shape is padded with ones: dims_before of them, the original shape, then dims_after of them. |
| AdvancedIndexing.ReshapeKeepsCount | aten/src/ATen/native/TensorAdvancedIndexing.cpp:399-406 | Padding keeps the element count. |
| AdvancedIndexing.Indexers | aten/src/ATen/native/TensorAdvancedIndexing.cpp:442-446 | There is one padded indexer per defined index, in dimension order. |
| AdvancedIndexing.FirstDefined | aten/src/ATen/native/TensorAdvancedIndexing.cpp:413-426 | dims_before is the number of undefined indices before the first defined one. |
| AdvancedIndexing.DefinedDimsExact | aten/src/ATen/native/TensorAdvancedIndexing.cpp:413-426 | The indexed dimensions are exactly the defined positions, in increasing order. |
| AdvancedIndexing.FirstDefinedSnoc | aten/src/ATen/native/TensorAdvancedIndexing.cpp:413-426 | One more dimension changes dims_before only while no index has been met. |
| AdvancedIndexing.CountDims | aten/src/ATen/native/TensorAdvancedIndexing.cpp:413-426 | The counting loop gives dims_before, dims_indexed and dims_after, which sum to the index count. It also gives the indexed sizes, the strides scaled by the element size, and the last defined index's shape as the replacement. |
| AdvancedIndexing.NewAdvancedIndex | aten/src/ATen/native/TensorAdvancedIndexing.cpp:408-446 | The constructor fails with the zero-size IndexError iff some indexed size is 0 and the replacement has no 0. Otherwise it assembles the restrided source and padded indexers. |
| AdvancedIndexing.GatherHasZero | aten/src/ATen/native/TensorAdvancedIndexing.cpp:433-436 | The gathered indexed sizes contain 0 iff some indexed dimension has size 0. |
| AdvancedIndexing.Assemble | aten/src/ATen/native/TensorAdvancedIndexing.cpp:440-446 | The restrided source keeps the element-count balance, and each indexer keeps its index's element count. |
| AdvancedIndexing.BeforeIndexedFits | aten/src/ATen/native/TensorAdvancedIndexing.cpp:413-426 | dims_before + dims_indexed never exceeds the number of indices. |
| AdvancedIndexing.MaybeWrapDim | aten/src/ATen/native/TensorAdvancedIndexing.cpp:208 | A dimension is accepted iff it is in [-n, n), where n is max(ndim, 1). A negative dimension is shifted by n. Anything else is an IndexError. |
| AdvancedIndexing.IndexCopyMeta | aten/src/ATen/native/TensorAdvancedIndexing.cpp:206-263 | index_copy's meta returns the wrapped dimension. |
| AdvancedIndexing.IndexCopyAcceptsValid | aten/src/ATen/native/TensorAdvancedIndexing.cpp:225-260 | index_copy accepts iff the dim wraps and all of the following hold: <br>• the index has fewer than 2 dims; <br>• a scalar source has exactly one index; <br>• dims match unless one side is a scalar; <br>• dtypes, devices and slice shapes agree; <br>• the index count equals source.size(dim). |
| AdvancedIndexing.IndexCopyValidComplete | aten/src/ATen/native/TensorAdvancedIndexing.cpp:225-260 | Every index_copy call that meets all the checks is accepted. |
| AdvancedIndexing.IndexCopyValidSound | aten/src/ATen/native/TensorAdvancedIndexing.cpp:225-260 | Every accepted index_copy call meets all the checks. |
| AdvancedIndexing.IndexCopyIndexErrors | aten/src/ATen/native/TensorAdvancedIndexing.cpp:225-229 | An index with 2 or more dims, or a scalar source with a count other than one, raises IndexError. |
| AdvancedIndexing.IndexFuncMeta | aten/src/ATen/native/TensorAdvancedIndexing.cpp:266-306 | The index_add/index_reduce checks pass iff the index is a vector of Long or Int, the dtypes agree, the dim fits the source, and the index count matches. A count mismatch with a 0-dim source is an IndexError, raised while the message is built. The output shape is self's. |
| AdvancedIndexing.IndexAddMeta | aten/src/ATen/native/TensorAdvancedIndexing.cpp:308-313 | index_add wraps the dimension and then applies the shared checks. |
| AdvancedIndexing.IndexReduceMeta | aten/src/ATen/native/TensorAdvancedIndexing.cpp:315-328 | index_reduce accepts only prod, mean, amax and amin, and then behaves like index_add. |
| AdvancedIndexing.CheckIndexArrayRange | aten/src/ATen/native/TensorAdvancedIndexing.cpp:1045-1058 | The check passes iff every index lies in [0, axis_dim). Otherwise it reports the first index outside that range. |
| AdvancedIndexing.IndexSelectShape | aten/src/ATen/native/TensorAdvancedIndexing.cpp:1116-1137 | A quantized self whose scheme is not per-tensor affine is refused first. Otherwise index_select checks the dim, the index rank and dtype, and the result dtype. The result shape is self's with the indexed dimension set to the number of indices. |
| Nonzero.ValBounds | aten/src/ATen/native/TensorAdvancedIndexing.cpp:2037-2043 | A valid mixed-radix index denotes a position inside the tensor. |
| Nonzero.ValInjective | aten/src/ATen/native/TensorAdvancedIndexing.cpp:2000-2006 | Distinct valid indices denote distinct positions. |
| Nonzero.StartIndex | aten/src/ATen/native/TensorAdvancedIndexing.cpp:1997-2006 | A thread's start index is the mixed-radix decomposition of begin, with a zero sentinel digit. |
| Nonzero.DecomposeFrom | aten/src/ATen/native/TensorAdvancedIndexing.cpp:2000-2006 | The decomposition loop keeps digits + remaining * weight == begin, and stops when the remainder is 0 or the digits run out. |
| Nonzero.DecomposeDone | aten/src/ATen/native/TensorAdvancedIndexing.cpp:2002 | For begin < numel, the remainder is 0 at the end. |
| Nonzero.Advance | aten/src/ATen/native/TensorAdvancedIndexing.cpp:2037-2043 | The odometer step increases the denoted position by exactly one and keeps every digit in range. |
| Nonzero.CountConcat | aten/src/ATen/native/TensorAdvancedIndexing.cpp:1964-1969 | Counts over adjacent ranges add up. |
| Nonzero.CountNonzeroUnrolled | aten/src/ATen/native/TensorAdvancedIndexing.cpp:1869-1896 | The 4-way unrolled count equals a plain scan's count. |
| Nonzero.PrefixSums | aten/src/ATen/native/TensorAdvancedIndexing.cpp:1972-1977 | The in-place cumulative sum makes entry i the sum of the first i counts. The last entry is the total. |
| Nonzero.PrefixSumCountsBefore | aten/src/ATen/native/TensorAdvancedIndexing.cpp:1964-1977 | Thread t's prefix sum is the number of nonzeros before its range, so the last entry is the total number of nonzeros. |
| Nonzero.WriteRows | aten/src/ATen/native/TensorAdvancedIndexing.cpp:2021-2043 | A thread writes one row per nonzero in its range. Each row is the valid index of a nonzero element, and the rows are in increasing position order. |
| BatchLinalg.FromCublas | aten/src/ATen/native/cuda/linalg/BatchLinearAlgebraLib.cpp:31-38 | Every cuBLAS operation has a transpose type that to_cublas maps to it. |
| BatchLinalg.ToCublasBijective | aten/src/ATen/native/cuda/linalg/BatchLinearAlgebraLib.cpp:31-38 | to_cublas is one-to-one and inverted by FromCublas: N, T and C correspond to the three transpose types. |
| BatchLinalg.NonConvergingBatchesExact | aten/src/ATen/native/cuda/linalg/BatchLinearAlgebraLib.cpp:845-861 | The collected indices are exactly those batches whose info equals the non-converging value, in ascending order. The list is empty iff there is no such batch. |
| BatchLinalg.CheckGesvdjConvergence | aten/src/ATen/native/cuda/linalg/BatchLinearAlgebraLib.cpp:841-862 | The loop returns exactly that reference list. |
| BatchLinalg.ShortListWritten | aten/src/ATen/native/cuda/linalg/BatchLinearAlgebraLib.cpp:872-877 | With at most 5 batches the text is "batches a, b, c". |
| BatchLinalg.LongListWritten | aten/src/ATen/native/cuda/linalg/BatchLinearAlgebraLib.cpp:878-883 | With more than 5 batches the text is the first five, each followed by ", ", then "and other N batches" with N = size - 5. |
| BatchLinalg.FormatNonConvergingBatches | aten/src/ATen/native/cuda/linalg/BatchLinearAlgebraLib.cpp:868-886 | The stream writes exactly the reference text for any non-empty list. |
| BatchLinalg.WriteShortList | aten/src/ATen/native/cuda/linalg/BatchLinearAlgebraLib.cpp:873-877 | The short branch writes each batch but the last followed by ", ", then the last. |
| BatchLinalg.WriteLongList | aten/src/ATen/native/cuda/linalg/BatchLinearAlgebraLib.cpp:878-883 | The long branch writes five batches, each followed by ", ", then the count of the others. |
| BatchLinalg.BatchListTextDependsOnHead | aten/src/ATen/native/cuda/linalg/BatchLinearAlgebraLib.cpp:868-886 | A long list's text depends only on its first five batches and its length. |
| BatchLinalg.ShortBatchListLength | aten/src/ATen/native/cuda/linalg/BatchLinearAlgebraLib.cpp:872-877 | A short list's text is the prefix, the numbers, and one ", " between each pair. |
| BatchLinalg.SelectSvdRoutine | aten/src/ATen/native/cuda/linalg/BatchLinearAlgebraLib.cpp:906-923 | The driver defaults to gesvdj, and an unknown driver is a RuntimeError. gesvdjBatched is chosen iff m and n are at most 32, there is more than one batch, and full_matrices is set or m == n. |
| BatchLinalg.DefaultDriverIsJacobi | aten/src/ATen/native/cuda/linalg/BatchLinearAlgebraLib.cpp:906 | Without a driver, a Jacobi routine is chosen. |
| BatchLinalg.SvdCusolver | aten/src/ATen/native/cuda/linalg/BatchLinearAlgebraLib.cpp:889-949 | svd_cusolver fails iff the driver is unknown, and runs the selected routine. |
| BatchLinalg.SvdFallbackRule | aten/src/ATen/native/cuda/linalg/BatchLinearAlgebraLib.cpp:926-946 | Convergence is checked iff the driver is not gesvd, using threshold k + 1. The non-convergence warning is emitted iff some batch did not converge and the once-only warning has not fired before; afterwards it has fired. The gesvd fallback runs iff no driver was given, and only on the non-converging batches. |
| BatchLinalg.DefaultDriverRecomputesExactlyNonConverged | aten/src/ATen/native/cuda/linalg/BatchLinearAlgebraLib.cpp:926-946 | With the default driver, batch i is recomputed iff its info is min(m, n) + 1. |
| BatchLinalg.SvdWarnsOnce | aten/src/ATen/native/cuda/linalg/BatchLinearAlgebraLib.cpp:926-946 | After a call that warned, a later call never warns again, and its fallback is unchanged. |
| BatchLinalg.SelectEighRoutine | aten/src/ATen/native/cuda/linalg/BatchLinearAlgebraLib.cpp:1671-1683 | eigh picks its routine in this order: <br>• syevjBatched iff the flag is set, there is more than one batch and n <= 32; <br>• otherwise syevj exactly for float32 with 32 <= n <= 512; <br>• otherwise syevd. |
| BatchLinalg.EighLargeOrDoubleAvoidsSyevj | aten/src/ATen/native/cuda/linalg/BatchLinearAlgebraLib.cpp:1676-1682 | Matrices larger than 512 use syevd, and non-float32 inputs never use syevj. |
| BatchLinalg.SelectInverseRoutine | aten/src/ATen/native/cuda/linalg/BatchLinearAlgebraLib.cpp:455-535 | A single matrix (dim <= 2) uses the single getrf/getrs path. A batch uses the batched cuBLAS routine iff there are more than 8 batches and n < 512, and the per-matrix loop otherwise. |
| BatchLinalg.LeadingDim | aten/src/ATen/native/cuda/linalg/BatchLinearAlgebraLib.cpp:458 | lda is max(1, n). |
| FunctionalWrapper.WrapperKeySet | aten/src/ATen/FunctionalTensorWrapper.cpp:25-29 | The wrapper's keys are Functionalize plus the value's keys, minus the functorch transform keys. |
| FunctionalWrapper.WrapperKeySetIdempotent | aten/src/ATen/FunctionalTensorWrapper.cpp:25-29 | Applying the key-set rule twice changes nothing. |
| FunctionalWrapper.NewWrapper | aten/src/ATen/FunctionalTensorWrapper.cpp:32-41 | Wrapping creates a fresh storage holding the value at generation 0. The new wrapper holds that storage alone, has no view metas and is at generation 0. |
| FunctionalWrapper.UseCountAppend | aten/src/ATen/FunctionalTensorWrapper.cpp:121 | A view that shares a storage adds one to that storage's use count. |
| FunctionalWrapper.CreateView | aten/src/ATen/FunctionalTensorWrapper.cpp:463-475 | The view constructor: <br>• asserts that the view is unwrapped and the base is functional; <br>• the new wrapper has the base's view metas plus the meta, re-indexed when out_idx != 0; <br>• the new wrapper shares the base's storage. |
| FunctionalWrapper.HandlesAreFunctional | aten/src/ATen/FunctionalTensorWrapper.cpp:412-414 | A wrapper whose key set follows the rule counts as a functional tensor. |
| FunctionalWrapper.CommitUpdate | aten/src/ATen/FunctionalTensorWrapper.cpp:128-135 | commit_update queues the update, bumps the storage generation, and sets the wrapper to it, so the wrapper is up to date. Nothing else changes. |
| FunctionalWrapper.CommitStalesAliases | aten/src/ATen/FunctionalTensorWrapper.cpp:128-140 | A commit makes every other up-to-date alias of the storage stale. Wrappers on other storages are unaffected. |
| FunctionalWrapper.MutateViewMeta | aten/src/ATen/FunctionalTensorWrapper.cpp:143-150 | mutate_view_meta appends exactly the meta, keeps the earlier metas, and applies the meta's forward function to the value. |
| FunctionalWrapper.Replay | aten/src/ATen/FunctionalTensorWrapper.cpp:245-247 | Replaying view metas keeps an unwrapped tensor's keys and dtype. |
| FunctionalWrapper.ReplaySnoc | aten/src/ATen/FunctionalTensorWrapper.cpp:245-247 | Replaying one more meta applies its forward function last. |
| FunctionalWrapper.Replace | aten/src/ATen/FunctionalTensorWrapper.cpp:177-188 | replace_ asserts that the new value is unwrapped. Otherwise it stores the value, converted to the wrapper's dtype and layout, and changes nothing else. |
| FunctionalWrapper.ReplaceMatchesWrapper | aten/src/ATen/FunctionalTensorWrapper.cpp:177-188 | A plain new value is stored with the wrapper's dtype and layout and its own keys. It is stored unchanged iff it already has both, and converted otherwise. |
| FunctionalWrapper.MaybeReplaceStorage | aten/src/ATen/FunctionalTensorWrapper.cpp:190-228 | maybe_replace_storage fails iff the storage is shared or the wrapper has view metas. On success the wrapper gets a fresh storage of the value, generation 0 and no metas, and is up to date. |
| FunctionalWrapper.ViewedBaseCannotResize | aten/src/ATen/FunctionalTensorWrapper.cpp:215 | While a view of the base is alive, the base cannot replace its storage. |
| FunctionalWrapper.RegenerateFromBase | aten/src/ATen/FunctionalTensorWrapper.cpp:239-251 | Regenerating sets the wrapper's generation to the storage's. |
| FunctionalWrapper.Sync | aten/src/ATen/FunctionalTensorWrapper.cpp:231-237 | sync_ is a no-op when up to date. Otherwise it fails only when the base is functional, and it leaves the wrapper up to date. |
| FunctionalWrapper.SyncRegenerates | aten/src/ATen/FunctionalTensorWrapper.cpp:231-251 | A stale sync drains the storage's queue and replays the view metas on the updated base. |
| FunctionalWrapper.SyncIdempotent | aten/src/ATen/FunctionalTensorWrapper.cpp:231-237 | Syncing twice is syncing once. |
| FunctionalWrapper.ApplyUpdates | aten/src/ATen/FunctionalTensorWrapper.cpp:253-257 | Applying updates empties the queue and keeps the generation. |
| FunctionalWrapper.SyncTensor | aten/src/ATen/FunctionalTensorWrapper.cpp:350-366 | The free sync leaves the world unchanged for a non-functional tensor or an up-to-date wrapper. For a functional wrapper handle, it is that wrapper's `sync_`. A successful sync keeps the world valid and the wrapper count. |
| FunctionalWrapper.UniformFlag | aten/src/ATen/FunctionalTensorWrapper.cpp:424-435 | An empty list is not functional. A mixed list is an internal assert. Otherwise the list's common answer is returned. |
| FunctionalWrapper.IsFunctionalList | aten/src/ATen/FunctionalTensorWrapper.cpp:424-461 | A tensor list fails iff it mixes functional and non-functional tensors. Otherwise it answers like its first element. |
| FunctionalWrapper.FunctionalFlags | aten/src/ATen/FunctionalTensorWrapper.cpp:424-461 | Each element's answer is isFunctionalTensor on that element. |
| FunctionalWrapper.OptionalFlags | aten/src/ATen/FunctionalTensorWrapper.cpp:416-422 | An absent optional tensor is not functional. |
| FunctionalWrapper.ToFunctional | aten/src/ATen/FunctionalTensorWrapper.cpp:266-273 | Wrapping keeps earlier wrappers, and it returns a wrapped number unchanged. |
| FunctionalWrapper.FromToFunctional | aten/src/ATen/FunctionalTensorWrapper.cpp:266-318 | Unwrapping a wrapped tensor gives back the original. Any other plain tensor becomes a functional tensor. |
| FunctionalWrapper.FromFunctionalList | aten/src/ATen/FunctionalTensorWrapper.cpp:320-348 | The list unwrap unwraps each element in place. |
| FunctionalWrapper.ToFunctionalList | aten/src/ATen/FunctionalTensorWrapper.cpp:280-309 | The list wrap gives one valid tensor per element and keeps earlier wrappers. |
| FunctionalWrapper.FromToFunctionalList | aten/src/ATen/FunctionalTensorWrapper.cpp:296-348 | The list overloads round-trip element by element. |
| DataPipes.RegisterFunction | torch/utils/data/datapipes/datapipe.py:117-119 | register_function adds or silently replaces an entry and touches nothing else. |
| DataPipes.RegisterDatapipeAsFunction | torch/utils/data/datapipes/datapipe.py:122-136 | The registration: <br>• fails iff the name is taken, with a bare Exception carrying the "already taken" message; <br>• otherwise adds exactly that name, bound to the class and the tracing flag, and leaves existing entries and the other class untouched. |
| DataPipes.RegisterTwiceFails | torch/utils/data/datapipes/datapipe.py:122-124 | A second registration of a name fails. |
| DataPipes.AttributeMessageUnterminated | torch/utils/data/datapipes/datapipe.py:115 | As written, the AttributeError message does not end with a quote. |
| DataPipes.AttributeMessage | torch/utils/data/datapipes/datapipe.py:115 | The corrected message is the written one with the closing quote. |
| DataPipes.GetAttr | torch/utils/data/datapipes/datapipe.py:110-115 | The corrected __getattr__ returns the registered function bound to the pipe iff the name is registered, and raises AttributeError with the terminated message otherwise. |
| DataPipes.GetAttrAsWritten | torch/utils/data/datapipes/datapipe.py:110-115 | __getattr__ as written: the same lookup, raising AttributeError with the unterminated message. |
| DataPipes.GetAttrCorrectsOnlyTheMessage | torch/utils/data/datapipes/datapipe.py:110-115 | The written and corrected __getattr__ agree on every lookup that succeeds. They differ only in the closing quote of the message. |
| DataPipes.RegisteredNameResolves | torch/utils/data/datapipes/datapipe.py:110-136 | After registration, looking the name up finds that class. |
| DataPipes.CallDatapipeFunction | torch/utils/data/datapipes/datapipe.py:126-133 | The result is the pipe the class builds on the source, or that pipe traced as a dataframe. It is traced iff the functional form has a tracing flag and all of the following hold: <br>• the result is an IterDataPipe; <br>• the flag is set or the source is a DFIterDataPipe; <br>• the name is not untraceable. |
| DataPipes.DataFrameTracingPropagates | torch/utils/data/datapipes/datapipe.py:126-133 | A traceable Iter form applied to a dataframe pipe is traced as a dataframe, whatever the registration flag, and so yields a dataframe pipe. |
| DataPipes.NeverTracedForms | torch/utils/data/datapipes/datapipe.py:126-133 | Untraceable names, MapDataPipe forms and non-Iter results are never traced. |
| DataPipes.SetGetstateHook | torch/utils/data/datapipes/datapipe.py:157-160 | Setting the getstate hook fails with a bare Exception iff both the old and the new hook are set. Otherwise it replaces exactly the hook. |
| DataPipes.SetReduceExHook | torch/utils/data/datapipes/datapipe.py:163-166 | The same rule holds for the reduce_ex hook. |
| DataPipes.ResetThenSetSucceeds | torch/utils/data/datapipes/datapipe.py:157-166 | Resetting a hook to None and then setting it always succeeds. |
| DataPipes.ReduceEx | torch/utils/data/datapipes/datapipe.py:148-154 | __reduce_ex__ returns the default reduction iff there is no hook or the hook raises NotImplementedError. A hook that returns gives its value. Any other raise propagates as the hook's own error. |
| DataPipes.GetState | torch/utils/data/datapipes/datapipe.py:138-146 | __getstate__ returns the instance dict without a hook and the hook's value when the hook returns. Every raise of the hook propagates as the hook's own error. |
| DataPipes.NotImplementedOnlyFallsBackInReduceEx | torch/utils/data/datapipes/datapipe.py:138-154 | NotImplementedError falls back in __reduce_ex__ but not in __getstate__. |
| DataPipes.AsStr | torch/utils/data/datapipes/datapipe.py:346-348 | as_str is the indent, then "[", the items and "]". |
| DataPipes.AsStrLength | torch/utils/data/datapipes/datapipe.py:346-348 | The length is the indent, two brackets, the items, and 2 per separator. |
| DataPipes.AsStrSnoc | torch/utils/data/datapipes/datapipe.py:346-348 | The output is indent + "[" + ", ".join(items) + "]". One more item inserts ", " and the item before the bracket. |

## Left out

- I/O and external libraries are outside the model:
  - the Kineto library (`startTrace`, `stopTrace`, trace transfer);
  - the Python tracer's start/stop/clear;
  - thread-local debug-info push and pop;
  - NVTX callbacks;
  - mutexes and atomics;
  - the clock.

  The clock and the tracer's output are inputs. The Kineto trace is a sequence of optional activities.
- `prepareProfiler` and the `ProfilerResult` constructor are not modelled. They call into Kineto or only move fields.
- `finalizeCPUTrace`'s size assertion is not modelled, because the merge keeps events and activities in step by construction. Its forward/backward link loop is disabled in the source, but the link table is modelled on its own.
- The CUDA fallback event recording in `onFunctionExit` and the CUDA timer itself are not modelled. The timer is a function parameter that may fail.
- `shapesToStr`, `dtypesToStr`, `stacksToStr`, `computeFlops`, the JIT stack lookups and `deviceTypeFromActivity` are passed in as function values (`Externals`), because they are not part of this model.
- `std::sort` is modelled by a stable insertion sort. Entries with equal keys may come out in another order in the source. Call and return indices are distinct, so the replay order does not depend on this.
- `maybe_wrap_dim` (c10) is not part of this model. `MaybeWrapDim` follows its documented rule.
- All cuBLAS and cuSOLVER calls are outside the model, including workspace and pivot allocation, device pointer arrays, tensor kernels, dispatch stubs, TensorIterator, memory-overlap checks, and the floating-point initial values of index_reduce.
- `nonzero` on the CPU is modelled as its index arithmetic on a row-major sequence. The model has a single stride and no strided output pointer. `resize_output` is not modelled.
- `FunctionalStorageImpl` is modelled as a base tensor, a generation counter and a queue of updates. `apply_updates` applies the queue abstractly. A view meta's forward function is an uninterpreted `Viewed` node.
- Tensor metadata refreshes in the wrapper (sizes, strides, numel, contiguity) are not modelled.
- Debug-only assertions (`TORCH_INTERNAL_ASSERT_DEBUG_ONLY`) are not checked, as in a release build. Where the code after one is defined anyway, the model follows it. `CheckGesvdjConvergence` skips a negative info like any other that does not match. Where an argument is typed as a wrapper id (`CommitUpdate`, `Replace`), the type carries the assertion. Where the source would cast a tensor that is not a wrapper to one, the behaviour is undefined, and the model picks an outcome. The lines below list those outcomes, one per member.
- FunctionalWrapper.ToFunctional: wrapping a tensor that is already functional (FunctionalTensorWrapper.cpp:271) makes a new wrapper around it.
- FunctionalWrapper.FromFunctional: a tensor that is not functional (FunctionalTensorWrapper.cpp:316) comes back unchanged.
- FunctionalWrapper.CreateView: a base that carries the Functionalize key but is not a wrapper gives `InternalAssert(NotAWrapperMessage)`. The message is the model's own.
- FunctionalWrapper.SyncTensor: a plain tensor that carries the Functionalize key is left alone.
- AdvancedIndexing.IndexCopyMeta: the device-mismatch message keeps only its text up to the device names. The model's device is a bare number, and c10's device printer is not part of this model. All other index_copy, index_add, index_reduce and index_select messages are rendered in full. Scalar types use c10's names, and size lists use the `[a, b]` notation.
- Pickling and dill in `datapipe.py`, `__repr__`/`__str__` hooks, `reset` and the serialization wrappers are not modelled.
- Items of `DataChunk.as_str` are given as their `str()` texts.
- ProfilerSession.EnableWithPostProcessAsWritten: its contract states only the two refusals. The null dereference is stated by `ProfilerSession.PostProcessOndemandDereferencesNull`.
- FunctionalWrapper.RegenerateFromBase: its contract states only the generation. The regenerated value is stated by `FunctionalWrapper.SyncRegenerates`.
- FunctionalWrapper.ToFunctional: its contract states only the wrapped-number and arena cases. The round trip is stated by `FunctionalWrapper.FromToFunctional`.
- ProfilerEvents.AddTraceEvents: its own contract states the filter. The exported fields and the completeness are stated by `ProfilerEvents.AddTraceEventsExports`.
- PythonStackMerge.ReplayTimes: its own contract states only that each caller is a valid frame or none. Which frame it is, is stated by `PythonStackMerge.ReplayTimesFindsCallers`, and the open stack by `PythonStackMerge.AdvanceToTracks`.
- PythonStackMerge.AddPythonEvents, ProfilerSession.FinalizeTrace and the disables require every parent of a traced Python event to be an earlier event of the list (`WellFormed`). That is taken as a guarantee of the Python tracer, which is not part of this model. If it failed, `py_event_indices_.at(parent)` would raise `std::out_of_range`, and that path is not modelled.
- FunctionalWrapper.ViewedBaseCannotResize: wrappers are never freed in the model, so a storage's use count never falls. In the source, once the views die, the use count drops and the base may resize again. That later state is not modelled.
- ProfilerSession.DisableProfilerAsWritten: c10's `ThreadLocalDebugInfo::_pop` is not part of this model. It is taken to return null for an empty slot. If it raises instead, disabling with no state fails before `config()` is read, and the null dereference cannot be reached.
- ForwardBackwardLink.LinkAll: the link-id counter is not declared in the modelled file. Its first value is taken to be 1.
- The record queue (`collection.cpp`) is not part of this model. Its contents are modelled as follows:
  - `Session.records` is the queue in the order records are taken;
  - draining keeps that order, and its sort and tree building are not modelled;
  - `Stamp` supplies the approximate time, the thread id and whether the record is a tree root;
  - the shells of queued records are assumptions: an operator is a CPU op; an allocation is an instant "[memory]" event; a backend event is a user annotation whose µs times are scaled to ns and whose JIT stack and module hierarchy are empty; reported events have correlation id 0;
  - a record is finished once it is closed or, for reported events, once it is queued.
- ProfilerSession.NotKinetoMessage: the state check has no message of its own, so the model uses c10's text for a failed check with the condition stringified. c10 is not part of this model, and any further sentence it appends is not modelled.
- DataPipes.DataFrameTracingPropagates: `trace_as_dataframe` is not part of this model. Its result is taken to be a DFIterDataPipe, so `IsDataFramePipe` holds of every traced pipe. The lemma's dataframe conclusion rests on that. Its tracing conclusion does not.
- BatchLinalg.SelectEighRoutine: the float32 test and the flag are booleans, not dtypes and a global.

## Findings

| source | as written | input that shows it | evidently intended | confidence | as-written member | corrected member |
|---|---|---|---|---|---|---|
| torch/csrc/autograd/profiler_kineto.cpp:409-467 | Module ids are recorded only while replaying up to the last operator start. A module call that starts later is pushed with `module_id_map_.at(...)`, which throws `std::out_of_range`. | One operator "aten::add" at 10-20 µs, and one module call "nn.Module: Identity" at 30-40 µs, id 7, on thread 0 | Every pushed module call carries a module id | medium, not executed | PythonStackMerge.AsWrittenLateModuleCallExample | PythonStackMerge.CorrectedHandlesLateModuleCall |
| torch/csrc/autograd/profiler_kineto.cpp:802-816 | `state_ptr->config()` is read before the null check on `state_ptr` | disableProfiler with no global and no thread-local state | Fail with "Can't disable Kineto profiler when it's not running" | medium, not executed; rests on `_pop` returning null for an empty slot | ProfilerSession.DisableProfilerAsWritten | ProfilerSession.DisableProfiler |
| torch/csrc/autograd/profiler_kineto.cpp:745-760 | After an on-demand enable, which installs only the global state, the callback is stored through `getTLS()`, which is null | enableProfilerWithEventPostProcess with state KINETO_ONDEMAND, activities {CPU}, and no existing state | Refuse on-demand, as the assert message at line 755 says | medium, not executed | ProfilerSession.PostProcessOndemandDereferencesNull | ProfilerSession.EnableWithPostProcess |
| torch/utils/data/datapipes/datapipe.py:115 | The AttributeError text leaves the attribute name without its closing quote | Looking up "foo" on a pipe of class "P" gives `'P' object has no attribute 'foo` | `'P' object has no attribute 'foo'` | high, not executed | DataPipes.GetAttrAsWritten | DataPipes.GetAttr |

=== FILE: advanced_indexing.dfy ===
/** The shape and stride arithmetic of advanced indexing: the reduce-name
    table of scatter/gather, the splice of shape and stride lists that
    restrides the source, the padding of index shapes, the dimension
    counting of the AdvancedIndex constructor, the shape checks of the
    index_copy / index_add / index_reduce meta functions, the index range
    check, and the result shape of index_select. A tensor is described by
    its sizes, strides, dtype and device only. */
module AdvancedIndexing {
  import opened Wrappers
  import opened Strings
  import opened Nonzero

  // ---------------------------------------------------------------------
  // Reduce names

  datatype ScatterGatherOp = ReduceAdd | ReduceMultiply | ReduceMean | ReduceMaximum | ReduceMinimum

  /** get_operator_enum. */
  function GetOperatorEnum(reduce: string, useNewOptions: bool): (r: Result<ScatterGatherOp>)
    ensures r.Err? ==> r.error.RuntimeError?
    ensures r.Ok? && !useNewOptions ==> r.value == ReduceAdd || r.value == ReduceMultiply
  {
    if useNewOptions then
      if reduce == "sum" then Ok(ReduceAdd)
      else if reduce == "prod" then Ok(ReduceMultiply)
      else if reduce == "mean" then Ok(ReduceMean)
      else if reduce == "amax" then Ok(ReduceMaximum)
      else if reduce == "amin" then Ok(ReduceMinimum)
      else Err(RuntimeError("reduce argument must be either sum, prod, mean, amax or amin."))
    else
      if reduce == "add" then Ok(ReduceAdd)
      else if reduce == "multiply" then Ok(ReduceMultiply)
      else Err(RuntimeError("reduce argument must be either add or multiply."))
  }

  /** The name each option set uses for an operation, if it has one. */
  function ReduceName(op: ScatterGatherOp, useNewOptions: bool): Option<string> {
    match op
    case ReduceAdd => Some(if useNewOptions then "sum" else "add")
    case ReduceMultiply => Some(if useNewOptions then "prod" else "multiply")
    case ReduceMean => if useNewOptions then Some("mean") else None
    case ReduceMaximum => if useNewOptions then Some("amax") else None
    case ReduceMinimum => if useNewOptions then Some("amin") else None
  }

  /** get_operator_enum accepts exactly the table's names and maps each to
      its operation. */
  lemma OperatorEnumMatchesNames(reduce: string, useNewOptions: bool)
    ensures GetOperatorEnum(reduce, useNewOptions).Ok?
            <==> exists op :: ReduceName(op, useNewOptions) == Some(reduce)
    ensures GetOperatorEnum(reduce, useNewOptions).Ok? ==>
              ReduceName(GetOperatorEnum(reduce, useNewOptions).value, useNewOptions) == Some(reduce)
  {
    var r := GetOperatorEnum(reduce, useNewOptions);
    if r.Ok? {
      assert ReduceName(r.value, useNewOptions) == Some(reduce);
    }
  }

  /** Every named operation parses back to itself. */
  lemma ReduceNameRoundTrip(op: ScatterGatherOp, useNewOptions: bool)
    requires ReduceName(op, useNewOptions).Some?
    ensures GetOperatorEnum(ReduceName(op, useNewOptions).value, useNewOptions) == Ok(op)
  {
  }

  // ---------------------------------------------------------------------
  // Shape lists

  function Repeat(n: nat, v: int): (r: seq<int>)
    ensures |r| == n && forall i :: 0 <= i < n ==> r[i] == v
  {
    seq(n, _ => v)
  }

  /** vector::erase of the range [lo, hi). */
  function EraseRange(s: seq<int>, lo: nat, hi: nat): seq<int>
    requires lo <= hi <= |s|
  {
    s[..lo] + s[hi..]
  }

  /** vector::insert of t before position i. */
  function InsertAt(s: seq<int>, i: nat, t: seq<int>): seq<int>
    requires i <= |s|
  {
    s[..i] + t + s[i..]
  }

  lemma {:induction false} ProdConcat(a: seq<int>, b: seq<int>)
    ensures Prod(a + b) == Prod(a) * Prod(b)
  {
    if |a| > 0 {
      ProdConcat(a[1..], b);
      assert (a + b)[1..] == a[1..] + b;
      assert a[0] * (Prod(a[1..]) * Prod(b)) == (a[0] * Prod(a[1..])) * Prod(b);
    } else {
      assert a + b == b;
    }
  }

  lemma {:induction false} ProdOnes(n: nat)
    ensures Prod(Repeat(n, 1)) == 1
  {
    if n > 0 {
      ProdOnes(n - 1);
      assert Repeat(n, 1)[1..] == Repeat(n - 1, 1);
    }
  }

  /** restride_src: the indexed dimensions [before, before + indexed) are
      replaced by the replacement shape, with stride 0. */
  function RestrideSrc(shape: seq<int>, strides: seq<int>, before: nat, indexed: nat, replacement: seq<int>)
    : (r: (seq<int>, seq<int>))
    requires |shape| == |strides| && before + indexed <= |shape|
    ensures |r.0| == |r.1| == |shape| - indexed + |replacement|
    ensures forall i :: 0 <= i < before ==> r.0[i] == shape[i] && r.1[i] == strides[i]
    ensures forall i :: 0 <= i < |replacement| ==> r.0[before + i] == replacement[i] && r.1[before + i] == 0
    ensures forall i :: before + indexed <= i < |shape| ==>
              r.0[i - indexed + |replacement|] == shape[i] && r.1[i - indexed + |replacement|] == strides[i]
  {
    var end := before + indexed;
    var shape' := EraseRange(shape, before, end);
    var strides' := EraseRange(strides, before, end);
    (InsertAt(shape', before, replacement), InsertAt(strides', before, Repeat(|replacement|, 0)))
  }

  /** The restrided source has the indexed block's element count replaced
      by the replacement's. */
  lemma RestrideCount(shape: seq<int>, strides: seq<int>, before: nat, indexed: nat, replacement: seq<int>)
    requires |shape| == |strides| && before + indexed <= |shape|
    ensures Prod(RestrideSrc(shape, strides, before, indexed, replacement).0) * Prod(shape[before..before + indexed])
            == Prod(shape) * Prod(replacement)
  {
    var r := RestrideSrc(shape, strides, before, indexed, replacement).0;
    var a, m, z := shape[..before], shape[before..before + indexed], shape[before + indexed..];
    assert r == a + replacement + z;
    assert shape == a + m + z;
    ProdConcat(a + replacement, z);
    ProdConcat(a, replacement);
    ProdConcat(a + m, z);
    ProdConcat(a, m);
    Rearrange(Prod(a), Prod(replacement), Prod(m), Prod(z));
  }

  lemma Rearrange(pa: int, pr: int, pm: int, pz: int)
    ensures (pa * pr) * pz * pm == (pa * pm) * pz * pr
  {
  }

  /** reshape_indexer: the index shape padded with ones so it broadcasts
      against the result. */
  function ReshapeIndexer(orig: seq<int>, before: nat, after: nat): (r: seq<int>)
    ensures |r| == before + |orig| + after
    ensures forall i :: 0 <= i < before ==> r[i] == 1
    ensures forall i :: 0 <= i < |orig| ==> r[before + i] == orig[i]
    ensures forall i :: before + |orig| <= i < |r| ==> r[i] == 1
  {
    var shape := Repeat(before, 1);
    var shape := shape + orig;
    shape + Repeat(after, 1)
  }

  /** The padding keeps the index's element count. */
  lemma ReshapeKeepsCount(orig: seq<int>, before: nat, after: nat)
    ensures Prod(ReshapeIndexer(orig, before, after)) == Prod(orig)
  {
    assert ReshapeIndexer(orig, before, after) == Repeat(before, 1) + orig + Repeat(after, 1);
    ProdConcat(Repeat(before, 1) + orig, Repeat(after, 1));
    ProdConcat(Repeat(before, 1), orig);
    ProdOnes(before);
    ProdOnes(after);
  }

  // ---------------------------------------------------------------------
  // AdvancedIndex

  /** An index tensor of the list: None when undefined, else its sizes. */
  type IndexList = seq<Option<seq<int>>>

  /** The position of the first defined index, |indices| if none. */
  function FirstDefined(indices: IndexList): (p: nat)
    ensures p <= |indices| && (p < |indices| ==> indices[p].Some?)
    ensures forall j :: 0 <= j < p ==> indices[j].None?
  {
    if |indices| == 0 then 0
    else if indices[0].Some? then 0
    else 1 + FirstDefined(indices[1..])
  }

  /** The positions of the defined indices, in order. */
  function DefinedDims(indices: IndexList): (ds: seq<nat>)
    ensures forall j :: 0 <= j < |ds| ==> ds[j] < |indices| && indices[ds[j]].Some?
  {
    if |indices| == 0 then []
    else
      var prefix := DefinedDims(indices[..|indices| - 1]);
      if indices[|indices| - 1].Some? then prefix + [|indices| - 1] else prefix
  }

  /** DefinedDims lists every defined position, once, in increasing order. */
  lemma {:induction false} DefinedDimsExact(indices: IndexList)
    ensures var ds := DefinedDims(indices);
            && (forall j, k :: 0 <= j < k < |ds| ==> ds[j] < ds[k])
            && (forall d :: 0 <= d < |indices| && indices[d].Some? ==> d in ds)
  {
    if |indices| > 0 {
      var n := |indices| - 1;
      DefinedDimsExact(indices[..n]);
      var prefix := DefinedDims(indices[..n]);
      assert forall d :: 0 <= d < n ==> indices[..n][d] == indices[d];
    }
  }

  lemma DefinedDimsSnoc(indices: IndexList, dim: nat)
    requires dim < |indices|
    ensures DefinedDims(indices[..dim + 1])
            == DefinedDims(indices[..dim]) + (if indices[dim].Some? then [dim] else [])
  {
    assert indices[..dim + 1][..dim] == indices[..dim];
  }

  /** The entries of xs at positions ds, each times scale. */
  function Gather(ds: seq<nat>, xs: seq<int>, scale: int): (r: seq<int>)
    requires forall j :: 0 <= j < |ds| ==> ds[j] < |xs|
    ensures |r| == |ds| && forall j :: 0 <= j < |ds| ==> r[j] == xs[ds[j]] * scale
  {
    seq(|ds|, j requires 0 <= j < |ds| => xs[ds[j]] * scale)
  }

  lemma GatherSnoc(ds: seq<nat>, d: nat, xs: seq<int>, scale: int)
    requires forall j :: 0 <= j < |ds| ==> ds[j] < |xs|
    requires d < |xs|
    ensures Gather(ds + [d], xs, scale) == Gather(ds, xs, scale) + [xs[d] * scale]
  {
  }

  datatype DimCount = DimCount(
    before: nat, after: nat, indexed: nat, replacement: seq<int>,
    indexedSizes: seq<int>, indexedStrides: seq<int>)

  /** The counting loop of the AdvancedIndex constructor. Callers pass at
      most one index per dimension of the source. */
  method CountDims(indices: IndexList, sizes: seq<int>, strides: seq<int>, elementSize: int)
    returns (c: DimCount)
    requires |indices| <= |sizes| == |strides|
    ensures c.before == FirstDefined(indices)
    ensures c.indexed == |DefinedDims(indices)|
    ensures c.before + c.indexed + c.after == |indices|
    ensures c.indexedSizes == Gather(DefinedDims(indices), sizes, 1)
    ensures c.indexedStrides == Gather(DefinedDims(indices), strides, elementSize)
    ensures c.indexed == 0 ==> c.replacement == []
    ensures c.indexed > 0 ==> c.replacement == indices[DefinedDims(indices)[c.indexed - 1]].value
  {
    c := DimCount(0, 0, 0, [], [], []);
    var dim := 0;
    while dim < |indices|
      invariant 0 <= dim <= |indices|
      invariant Counted(indices, sizes, strides, elementSize, dim, c)
    {
      c := CountStep(indices, sizes, strides, elementSize, dim, c);
      dim := dim + 1;
    }
    assert indices[..dim] == indices;
  }

  /** The counts after the first `dim` entries of the index list. */
  predicate Counted(indices: IndexList, sizes: seq<int>, strides: seq<int>, elementSize: int, dim: nat,
                    c: DimCount)
    requires dim <= |indices| <= |sizes| == |strides|
  {
    var ds := DefinedDims(indices[..dim]);
    && c.before == FirstDefined(indices[..dim])
    && c.indexed == |ds|
    && c.before + c.indexed + c.after == dim
    && (c.indexed == 0 ==> c.after == 0)
    && c.indexedSizes == Gather(ds, sizes, 1)
    && c.indexedStrides == Gather(ds, strides, elementSize)
    && (c.indexed == 0 ==> c.replacement == [])
    && (c.indexed > 0 ==> c.replacement == indices[ds[c.indexed - 1]].value)
  }

  /** One pass of the counting loop: an undefined index counts before or
      after the indexed block, a defined one joins it. */
  method CountStep(indices: IndexList, sizes: seq<int>, strides: seq<int>, elementSize: int, dim: nat,
                   c: DimCount) returns (c': DimCount)
    requires dim < |indices| <= |sizes| == |strides|
    requires Counted(indices, sizes, strides, elementSize, dim, c)
    ensures Counted(indices, sizes, strides, elementSize, dim + 1, c')
  {
    ghost var ds := DefinedDims(indices[..dim]);
    ghost var ds' := DefinedDims(indices[..dim + 1]);
    FirstDefinedSnoc(indices, dim);
    DefinedDimsSnoc(indices, dim);
    if indices[dim].None? {
      assert ds' == ds;
      if c.indexed == 0 {
        c' := c.(before := c.before + 1);
      } else {
        c' := c.(after := c.after + 1);
      }
    } else {
      assert ds' == ds + [dim];
      GatherSnoc(ds, dim, sizes, 1);
      GatherSnoc(ds, dim, strides, elementSize);
      c' := c.(indexed := c.indexed + 1, replacement := indices[dim].value,
               indexedSizes := c.indexedSizes + [sizes[dim] * 1],
               indexedStrides := c.indexedStrides + [strides[dim] * elementSize]);
      assert ds'[c'.indexed - 1] == dim;
    }
  }

  /** How FirstDefined grows with the list. */
  lemma {:induction false} FirstDefinedSnoc(indices: IndexList, dim: nat)
    requires dim < |indices|
    ensures FirstDefined(indices[..dim + 1]) ==
              if FirstDefined(indices[..dim]) < dim then FirstDefined(indices[..dim])
              else if indices[dim].Some? then dim else dim + 1
  {
    var p := FirstDefined(indices[..dim]);
    var q := FirstDefined(indices[..dim + 1]);
    assert forall j :: 0 <= j < dim ==> indices[..dim + 1][j] == indices[..dim][j];
    if p < dim {
      FirstDefinedIsFirst(indices[..dim + 1], p);
    } else if indices[dim].Some? {
      FirstDefinedIsFirst(indices[..dim + 1], dim);
    } else {
      FirstDefinedIsFirst(indices[..dim + 1], dim + 1);
    }
  }

  /** FirstDefined is characterised by its two properties. */
  lemma {:induction false} FirstDefinedIsFirst(indices: IndexList, p: nat)
    requires p <= |indices| && (p < |indices| ==> indices[p].Some?)
    requires forall j :: 0 <= j < p ==> indices[j].None?
    ensures FirstDefined(indices) == p
  {
    if |indices| > 0 && p > 0 {
      FirstDefinedIsFirst(indices[1..], p - 1);
    }
  }

  /** The constructor's shapes: the restrided source and one padded shape
      per defined index. */
  datatype AdvancedIndex = AdvancedIndex(
    before: nat, after: nat, srcSizes: seq<int>, srcStrides: seq<int>,
    indexedSizes: seq<int>, indexedStrides: seq<int>, indexerShapes: seq<seq<int>>)

  /** The defined indices' shapes, padded, in order. */
  function Indexers(indices: IndexList, before: nat, after: nat): (r: seq<seq<int>>)
    ensures |r| == |DefinedDims(indices)|
    ensures forall j :: 0 <= j < |r| ==> r[j] == ReshapeIndexer(indices[DefinedDims(indices)[j]].value, before, after)
  {
    var ds := DefinedDims(indices);
    seq(|ds|, j requires 0 <= j < |ds| => ReshapeIndexer(indices[ds[j]].value, before, after))
  }

  const ZeroSizeMessage := "index is out of bounds for dimension with size 0"

  /** The AdvancedIndex constructor: an indexed dimension of size 0 with a
      replacement shape that has no 0 means some index is out of bounds. */
  method NewAdvancedIndex(indices: IndexList, sizes: seq<int>, strides: seq<int>, elementSize: int)
    returns (r: Result<AdvancedIndex>)
    requires |indices| <= |sizes| == |strides|
    ensures r.Err? <==> HasZeroIndexed(indices, sizes) && 0 !in Replacement(indices)
    ensures r.Err? ==> r.error == IndexError(ZeroSizeMessage)
    ensures r.Ok? ==> r.value.before == FirstDefined(indices)
                      && r.value.before + |DefinedDims(indices)| + r.value.after == |indices|
    ensures r.Ok? ==> r.value == Assemble(indices, sizes, strides, r.value.before, r.value.after, Replacement(indices),
                                          r.value.indexedSizes, r.value.indexedStrides)
  {
    var c := CountDims(indices, sizes, strides, elementSize);
    GatherHasZero(DefinedDims(indices), sizes);
    if 0 in c.indexedSizes && 0 !in c.replacement {
      return Err(IndexError(ZeroSizeMessage));
    }
    var a := Assemble(indices, sizes, strides, c.before, c.after, c.replacement, c.indexedSizes, c.indexedStrides);
    r := Ok(a);
  }

  /** The replacement shape: that of the last defined index, or none. */
  function Replacement(indices: IndexList): seq<int> {
    var ds := DefinedDims(indices);
    if |ds| == 0 then [] else indices[ds[|ds| - 1]].value
  }

  /** Some indexed dimension has size 0. */
  predicate HasZeroIndexed(indices: IndexList, sizes: seq<int>)
    requires |indices| <= |sizes|
  {
    var ds := DefinedDims(indices);
    exists j :: 0 <= j < |ds| && sizes[ds[j]] == 0
  }

  /** An indexed size list has a 0 exactly when some indexed dimension has
      size 0. */
  lemma GatherHasZero(ds: seq<nat>, sizes: seq<int>)
    requires forall j :: 0 <= j < |ds| ==> ds[j] < |sizes|
    ensures 0 in Gather(ds, sizes, 1) <==> exists j :: 0 <= j < |ds| && sizes[ds[j]] == 0
  {
    var g := Gather(ds, sizes, 1);
    if 0 in g {
      var k :| 0 <= k < |g| && g[k] == 0;
      assert sizes[ds[k]] == 0;
    }
  }

  /** The shapes of a constructed AdvancedIndex, from the counted
      dimensions. */
  function Assemble(indices: IndexList, sizes: seq<int>, strides: seq<int>, before: nat, after: nat,
                    replacement: seq<int>, indexedSizes: seq<int>, indexedStrides: seq<int>): (a: AdvancedIndex)
    requires |indices| <= |sizes| == |strides|
    requires before == FirstDefined(indices) && before + |DefinedDims(indices)| + after == |indices|
    ensures a.before == before && a.after == after
    ensures a.indexedSizes == indexedSizes && a.indexedStrides == indexedStrides
    ensures before + |DefinedDims(indices)| <= |sizes|
    ensures |a.srcSizes| == |a.srcStrides| == |sizes| - |DefinedDims(indices)| + |replacement|
    ensures Prod(a.srcSizes) * Prod(sizes[before..before + |DefinedDims(indices)|]) == Prod(sizes) * Prod(replacement)
    ensures |a.indexerShapes| == |DefinedDims(indices)|
    ensures forall j :: 0 <= j < |a.indexerShapes| ==>
              Prod(a.indexerShapes[j]) == Prod(indices[DefinedDims(indices)[j]].value)
  {
    var ds := DefinedDims(indices);
    BeforeIndexedFits(indices);
    var src := RestrideSrc(sizes, strides, before, |ds|, replacement);
    RestrideCount(sizes, strides, before, |ds|, replacement);
    var shapes := Indexers(indices, before, after);
    assert forall j :: 0 <= j < |shapes| ==> Prod(shapes[j]) == Prod(indices[ds[j]].value) by {
      forall j | 0 <= j < |shapes|
        ensures Prod(shapes[j]) == Prod(indices[ds[j]].value)
      {
        ReshapeKeepsCount(indices[ds[j]].value, before, after);
      }
    }
    AdvancedIndex(before, after, src.0, src.1, indexedSizes, indexedStrides, shapes)
  }

  /** The leading undefined and the defined indices fit in the list. */
  lemma BeforeIndexedFits(indices: IndexList)
    ensures FirstDefined(indices) + |DefinedDims(indices)| <= |indices|
  {
    var ds := DefinedDims(indices);
    var p := FirstDefined(indices);
    DefinedDimsExact(indices);
    // every defined position is at or after p, and they are distinct
    assert forall j :: 0 <= j < |ds| ==> p <= ds[j] < |indices|;
    DistinctAbove(ds, p, |indices|);
  }

  /** Strictly increasing positions in [lo, hi) number at most hi - lo. */
  lemma {:induction false} DistinctAbove(ds: seq<nat>, lo: nat, hi: nat)
    requires lo <= hi
    requires forall j :: 0 <= j < |ds| ==> lo <= ds[j] < hi
    requires forall j, k :: 0 <= j < k < |ds| ==> ds[j] < ds[k]
    ensures lo + |ds| <= hi
  {
    if |ds| > 0 {
      forall j | 0 <= j < |ds| - 1
        ensures ds[0] + 1 <= ds[1..][j] < hi
      {
        assert ds[1..][j] == ds[j + 1];
      }
      DistinctAbove(ds[1..], ds[0] + 1, hi);
    }
  }

  // ---------------------------------------------------------------------
  // Meta functions

  datatype ScalarType = Long | Int | Float | Double | Half | BFloat16 | Bool | Byte

  /** c10's name of a scalar type, as messages print it. */
  function ScalarTypeName(t: ScalarType): string {
    match t
    case Long => "Long"
    case Int => "Int"
    case Float => "Float"
    case Double => "Double"
    case Half => "Half"
    case BFloat16 => "BFloat16"
    case Bool => "Bool"
    case Byte => "Byte"
  }

  /** An int list as c10 prints it: bracketed, comma-separated. */
  function SizesText(xs: seq<int>): string {
    "[" + Join(IntsToStrings(xs), ", ") + "]"
  }

  /** The quantization schemes of c10; a tensor that is not quantized has none. */
  datatype QScheme =
    | PerTensorAffine | PerChannelAffine | PerTensorSymmetric | PerChannelSymmetric
    | PerChannelAffineFloatQParams

  datatype TensorMeta = TensorMeta(sizes: seq<int>, dtype: ScalarType, device: int)

  function Dim(t: TensorMeta): nat {
    |t.sizes|
  }

  function Numel(t: TensorMeta): int {
    Prod(t.sizes)
  }

  /** maybe_wrap_dim with scalars wrapped as one-dimensional: dim must lie
      in [-n, n) for n = max(ndim, 1); a negative dim counts from the end. */
  function MaybeWrapDim(dim: int, ndim: nat): (r: Result<nat>)
    ensures var n := if ndim == 0 then 1 else ndim;
            && (r.Ok? <==> -n <= dim < n)
            && (r.Ok? ==> r.value < n && (r.value == dim || r.value == dim + n))
            && (r.Err? ==> r.error.IndexError?)
  {
    var n := if ndim == 0 then 1 else ndim;
    if dim < -n || dim > n - 1 then
      Result<nat>.Err(IndexError("Dimension out of range (expected to be in range of [" + IntToString(-n) + ", "
                     + IntToString(n - 1) + "], but got " + IntToString(dim) + ")"))
    else if dim < 0 then Ok(dim + n)
    else Ok(dim)
  }

  /** The sizes with dimension d removed; a scalar's empty list stays. */
  function SliceSizes(s: seq<int>, d: nat): seq<int>
    requires |s| == 0 || d < |s|
  {
    if |s| > 0 then EraseRange(s, d, d + 1) else s
  }

  /** What the index_copy meta function demands, given the wrapped dim. */
  predicate IndexCopyValid(self: TensorMeta, dim: nat, index: TensorMeta, source: TensorMeta)
    requires dim < Dim(self) || (Dim(self) == 0 && dim == 0)
  {
    && Dim(index) < 2
    && (Dim(source) == 0 ==> Numel(index) == 1)
    && (Dim(source) == Dim(self) || Dim(source) == 0 || Dim(self) == 0)
    && index.dtype == Long && self.dtype == source.dtype
    && self.device == source.device && self.device == index.device
    && SliceSizes(self.sizes, dim) == SliceSizes(source.sizes, dim)
    && (Dim(source) == 0 || Numel(index) == source.sizes[dim])
  }

  /** The messages index_copy reports with the offending numbers. */
  function IndexDimMessage(got: int): string {
    "index_copy_(): Index should have dimension 1 or 0 (got " + IntToString(got) + ")"
  }

  function ScalarSourceMessage(got: int): string {
    "index_copy_(): When source is scalar, index should have one element (got " + IntToString(got) + ")"
  }

  function IndexCountMessage(numIndices: int, sourceSize: int): string {
    "index_copy_(): Number of indices (" + IntToString(numIndices)
    + ") should be equal to source.size(dim) (" + IntToString(sourceSize) + ")"
  }

  function DimMismatchMessage(sourceDim: int, selfDim: int): string {
    "index_copy_(): When source and destination are not scalars, their dimensionality must match. "
    + "Source dimensionality (" + IntToString(sourceDim) + "), destination dimensionality ("
    + IntToString(selfDim) + ")"
  }

  function LongIndexMessage(got: ScalarType): string {
    "index_copy_(): Expected a long tensor for index, but got " + ScalarTypeName(got)
  }

  function DtypeMessage(self: ScalarType, source: ScalarType): string {
    "index_copy_(): self and source expected to have the same dtype, but got (self) "
    + ScalarTypeName(self) + " and (source) " + ScalarTypeName(source)
  }

  /** The device message up to the device names, which the model does not render. */
  const DeviceMessage := "index_copy_(): self, index and source expected to be in the same device, but got (self) "

  function SliceMessage(selfSliced: seq<int>, sourceSliced: seq<int>, dim: int): string {
    "index_copy_(): Source/destination tensor must have same slice shapes. "
    + "Destination slice shape: " + SizesText(selfSliced) + " at dimension " + IntToString(dim)
    + " and source slice shape: " + SizesText(sourceSliced) + " at dimension 0."
  }

  /** The index_copy meta function: the wrapped dim, or the first check
      that fails. */
  function IndexCopyMeta(self: TensorMeta, dim: int, index: TensorMeta, source: TensorMeta): (r: Result<nat>)
    ensures r.Ok? ==> (r.value < Dim(self) || (Dim(self) == 0 && r.value == 0))
                      && MaybeWrapDim(dim, Dim(self)) == Ok(r.value)
  {
    var d :- MaybeWrapDim(dim, Dim(self));
    var numIndices := Numel(index);
    if Dim(index) >= 2 then Err(IndexError(IndexDimMessage(Dim(index))))
    else if Dim(source) == 0 && numIndices != 1 then Err(IndexError(ScalarSourceMessage(numIndices)))
    else if Dim(source) != Dim(self) && Dim(source) != 0 && Dim(self) != 0 then
      Err(IndexError(DimMismatchMessage(Dim(source), Dim(self))))
    else if index.dtype != Long then Err(RuntimeError(LongIndexMessage(index.dtype)))
    else if self.dtype != source.dtype then Err(RuntimeError(DtypeMessage(self.dtype, source.dtype)))
    else if self.device != source.device || self.device != index.device then
      Err(RuntimeError(DeviceMessage))
    else
      if SliceSizes(self.sizes, d) != SliceSizes(source.sizes, d) then
        Err(RuntimeError(SliceMessage(SliceSizes(self.sizes, d), SliceSizes(source.sizes, d), d)))
      else if !(Dim(source) == 0 || numIndices == source.sizes[d]) then
        Err(IndexError(IndexCountMessage(numIndices, source.sizes[d])))
      else Ok(d)
  }

  /** index_copy accepts exactly the valid arguments. */
  lemma IndexCopyAcceptsValid(self: TensorMeta, dim: int, index: TensorMeta, source: TensorMeta)
    ensures var r := IndexCopyMeta(self, dim, index, source);
            var w := MaybeWrapDim(dim, Dim(self));
            r.Ok? <==> w.Ok? && IndexCopyValid(self, w.value, index, source)
  {
    if IndexCopyMeta(self, dim, index, source).Ok? {
      IndexCopyValidSound(self, dim, index, source);
    }
    if MaybeWrapDim(dim, Dim(self)).Ok? && IndexCopyValid(self, MaybeWrapDim(dim, Dim(self)).value, index, source) {
      IndexCopyValidComplete(self, dim, index, source);
    }
  }

  lemma IndexCopyValidComplete(self: TensorMeta, dim: int, index: TensorMeta, source: TensorMeta)
    requires MaybeWrapDim(dim, Dim(self)).Ok?
    requires IndexCopyValid(self, MaybeWrapDim(dim, Dim(self)).value, index, source)
    ensures IndexCopyMeta(self, dim, index, source).Ok?
  {
  }

  lemma IndexCopyValidSound(self: TensorMeta, dim: int, index: TensorMeta, source: TensorMeta)
    requires IndexCopyMeta(self, dim, index, source).Ok?
    ensures MaybeWrapDim(dim, Dim(self)).Ok?
    ensures IndexCopyValid(self, MaybeWrapDim(dim, Dim(self)).value, index, source)
  {
  }

  /** The first two checks raise index errors. */
  lemma IndexCopyIndexErrors(self: TensorMeta, dim: int, index: TensorMeta, source: TensorMeta)
    requires MaybeWrapDim(dim, Dim(self)).Ok?
    ensures var r := IndexCopyMeta(self, dim, index, source);
            && (Dim(index) >= 2 ==> r.Err? && r.error.IndexError?)
            && (Dim(source) == 0 && Numel(index) != 1 ==> r.Err? && r.error.IndexError?)
  {
  }

  /** The checks index_add and index_reduce share, for the wrapped dim: the
      output has self's sizes. */
  function IndexFuncMeta(self: TensorMeta, dim: nat, index: TensorMeta, source: TensorMeta, func: string)
    : (r: Result<seq<int>>)
    ensures r.Ok? <==>
              && Dim(index) <= 1 && (index.dtype == Long || index.dtype == Int)
              && self.dtype == source.dtype && (dim == 0 || dim < Dim(source))
              && Numel(index) == (if Dim(source) == 0 then 1 else source.sizes[dim])
    ensures r.Ok? ==> r.value == self.sizes
    ensures r.Err? && r.error.IndexError? <==>
              || Dim(index) > 1
              || (&& (index.dtype == Long || index.dtype == Int) && self.dtype == source.dtype
                  && dim == 0 && Dim(source) == 0 && Numel(index) != 1)
  {
    if Dim(index) > 1 then
      Err(IndexError(func + "_(): Index is supposed to be a vector, but got dim: " + IntToString(Dim(index))
                     + " with type: " + ScalarTypeName(index.dtype) + " and size: " + SizesText(index.sizes)))
    else if !(index.dtype == Long || index.dtype == Int) then
      Err(RuntimeError(func + "_(): Expected dtype int32/int64 for index but got: " + ScalarTypeName(index.dtype)))
    else if self.dtype != source.dtype then
      Err(RuntimeError(func + "_(): self (" + ScalarTypeName(self.dtype) + ") and source ("
                       + ScalarTypeName(source.dtype) + ") must have the same scalar type"))
    else if !(dim == 0 || dim < Dim(source)) then
      Err(RuntimeError(func + "_(): Indexing dim " + IntToString(dim) + " is out of bounds of the source tensor with dim "
                       + IntToString(Dim(source))))
    else if Numel(index) != (if Dim(source) == 0 then 1 else source.sizes[dim]) then
      // The failing check's message calls source.size(dim), which on a
      // scalar source raises before the check's own error.
      if Dim(source) == 0 then Err(IndexError(NoDimensionsMessage(dim)))
      else Err(RuntimeError(func + "_(): Number of indices (" + IntToString(Numel(index))
                            + ") should be equal to source.size(dim): (" + IntToString(source.sizes[dim])
                            + "), for dim: " + IntToString(dim)))
    else Ok(self.sizes)
  }

  /** c10's size(dim) on a tensor without dimensions (maybe_wrap_dim with
      wrap_scalar off). c10 is not part of this model; the text follows its
      documented message. */
  function NoDimensionsMessage(dim: int): string {
    "dimension specified as " + IntToString(dim) + " but tensor has no dimensions"
  }

  /** index_add's meta function. */
  function IndexAddMeta(self: TensorMeta, dim: int, index: TensorMeta, source: TensorMeta): (r: Result<nat>)
    ensures r.Ok? <==> MaybeWrapDim(dim, Dim(self)).Ok?
                       && IndexFuncMeta(self, MaybeWrapDim(dim, Dim(self)).value, index, source, "index_add").Ok?
  {
    var d :- MaybeWrapDim(dim, Dim(self));
    var _ :- IndexFuncMeta(self, d, index, source, "index_add");
    Ok(d)
  }

  /** index_reduce's meta function: the reduce name is checked first. */
  function IndexReduceMeta(self: TensorMeta, dim: int, index: TensorMeta, source: TensorMeta, reduce: string)
    : (r: Result<nat>)
    ensures !(reduce in ["prod", "mean", "amax", "amin"]) ==> r.Err? && r.error.RuntimeError?
    ensures reduce in ["prod", "mean", "amax", "amin"] ==>
              (r.Ok? <==> IndexAddMeta(self, dim, index, source).Ok?)
              && (r.Ok? ==> r == IndexAddMeta(self, dim, index, source))
  {
    if !(reduce == "prod" || reduce == "mean" || reduce == "amax" || reduce == "amin") then
      Err(RuntimeError("index_reduce(): Expected reduce to be one of prod, mean, amax or amin but got " + reduce + "."))
    else
      var d :- MaybeWrapDim(dim, Dim(self));
      var _ :- IndexFuncMeta(self, d, index, source, "index_reduce");
      Ok(d)
  }

  /** The range check of index_select: every index lies in [0, axisDim);
      otherwise the first that does not is reported. */
  method CheckIndexArrayRange(indices: seq<int>, axisDim: int) returns (o: Outcome)
    ensures o == Pass <==> forall i :: 0 <= i < |indices| ==> 0 <= indices[i] < axisDim
    ensures o.Fail? ==> exists i :: 0 <= i < |indices| && !(0 <= indices[i] < axisDim)
                                   && (forall j :: 0 <= j < i ==> 0 <= indices[j] < axisDim)
                                   && o.error == RuntimeError(RangeMessage(indices[i], axisDim))
  {
    var i := 0;
    while i < |indices|
      invariant 0 <= i <= |indices|
      invariant forall j :: 0 <= j < i ==> 0 <= indices[j] < axisDim
    {
      var idx := indices[i];
      if !(0 <= idx && idx < axisDim) {
        return Fail(RuntimeError(RangeMessage(idx, axisDim)));
      }
      i := i + 1;
    }
    return Pass;
  }

  function RangeMessage(idx: int, axisDim: int): string {
    "INDICES element is out of DATA bounds, id=" + IntToString(idx) + " axis_dim=" + IntToString(axisDim)
  }

  const PerTensorOnlyMessage := "Only per_tensor quantized quantized tensors are supported by index_select."

  /** index_select's checks and result shape: self's sizes with the indexed
      dimension's size replaced by the number of indices. `selfQScheme` is
      self's quantization scheme, None when self is not quantized. */
  function IndexSelectShape(self: TensorMeta, selfQScheme: Option<QScheme>, dim: int, index: TensorMeta,
                            result: TensorMeta): (r: Result<seq<int>>)
    ensures selfQScheme.Some? && selfQScheme.value != PerTensorAffine ==> r == Err(RuntimeError(PerTensorOnlyMessage))
    ensures r.Ok? <==> (selfQScheme.Some? ==> selfQScheme.value == PerTensorAffine)
                       && MaybeWrapDim(dim, Dim(self)).Ok? && Dim(index) <= 1 && (index.dtype == Long || index.dtype == Int)
                       && self.dtype == result.dtype
    ensures r.Ok? ==> |r.value| == Dim(self)
    ensures r.Ok? && Dim(self) > 0 ==>
              var d := MaybeWrapDim(dim, Dim(self)).value;
              r.value[d] == Numel(index) && forall i :: 0 <= i < Dim(self) && i != d ==> r.value[i] == self.sizes[i]
  {
    if selfQScheme.Some? && selfQScheme.value != PerTensorAffine then Err(RuntimeError(PerTensorOnlyMessage))
    else
      var d :- MaybeWrapDim(dim, Dim(self));
      if Dim(index) > 1 then Err(IndexError("index_select(): Index is supposed to be a vector"))
      else if !(index.dtype == Long || index.dtype == Int) then
        Err(RuntimeError("index_select(): Expected dtype int32 or int64 for index"))
      else if self.dtype != result.dtype then Err(RuntimeError("index_select(): self and result must have the same scalar type"))
      else if !(d == 0 || d < Dim(self)) then
        Err(RuntimeError("index_select(): Indexing dim " + IntToString(d) + " is out of bounds of tensor"))
      else if Dim(self) > 0 then Ok(self.sizes[d := Numel(index)])
      else Ok(self.sizes)
  }
}

=== FILE: batch_linalg.dfy ===
/** The host-side decisions of the cuSOLVER/cuBLAS batched linear algebra
    wrappers: the transpose enum conversion, the convergence check after a
    Jacobi SVD, the text naming non-converging batches, and the choice of
    routine in svd, eigh and the batched inverse. The routines themselves
    are foreign calls on device memory; what they leave in `info` is an
    input here. */
module BatchLinalg {
  import opened Wrappers
  import opened Strings

  // ---------------------------------------------------------------------
  // Transpose types

  datatype TransposeType = NoTranspose | Transpose | ConjTranspose

  datatype CublasOperation = OpN | OpT | OpC

  /** to_cublas. Every enumerator is handled, so its trailing internal
      assertion is unreachable. */
  function ToCublas(trans: TransposeType): (op: CublasOperation)
  {
    match trans
    case NoTranspose => OpN
    case Transpose => OpT
    case ConjTranspose => OpC
  }

  /** The transpose type a cuBLAS operation stands for. */
  function FromCublas(op: CublasOperation): (trans: TransposeType)
    ensures ToCublas(trans) == op
  {
    match op
    case OpN => NoTranspose
    case OpT => Transpose
    case OpC => ConjTranspose
  }

  /** to_cublas is a bijection: FromCublas undoes it, so distinct transpose
      types get distinct operations. */
  lemma ToCublasBijective(t: TransposeType, u: TransposeType)
    ensures FromCublas(ToCublas(t)) == t
    ensures ToCublas(t) == ToCublas(u) ==> t == u
  {
  }

  // ---------------------------------------------------------------------
  // Convergence of gesvdj / gesvdjBatched / gesvdaStridedBatched

  predicate StrictlyIncreasing(xs: seq<nat>) {
    forall i, j :: 0 <= i < j < |xs| ==> xs[i] < xs[j]
  }

  /** The batches whose info equals `nonConvergingInfo`, in ascending order. */
  function NonConvergingBatches(infos: seq<int>, nonConvergingInfo: int): seq<nat> {
    NonConvergingAmong(infos, |infos|, nonConvergingInfo)
  }

  /** The same, among the first `count` batches. */
  function NonConvergingAmong(infos: seq<int>, count: nat, nonConvergingInfo: int): seq<nat>
    requires count <= |infos|
  {
    if count == 0 then []
    else
      var init := NonConvergingAmong(infos, count - 1, nonConvergingInfo);
      if infos[count - 1] == nonConvergingInfo then init + [count - 1] else init
  }

  /** Among the first `count` batches, the list holds exactly the matching
      ones, in ascending order, and ends with the last when it matches. */
  lemma {:induction false} NonConvergingAmongExact(infos: seq<int>, count: nat, nonConvergingInfo: int)
    requires count <= |infos|
    ensures var r := NonConvergingAmong(infos, count, nonConvergingInfo);
            && (forall j :: 0 <= j < |r| ==> r[j] < count && infos[r[j]] == nonConvergingInfo)
            && (forall i :: 0 <= i < count && infos[i] == nonConvergingInfo ==> i in r)
            && StrictlyIncreasing(r)
            && (count > 0 && infos[count - 1] == nonConvergingInfo ==> r[|r| - 1] == count - 1)
    decreases count
  {
    if count > 0 {
      NonConvergingAmongExact(infos, count - 1, nonConvergingInfo);
    }
  }

  /** The non-converging batches are exactly those whose info matches, in
      ascending order; there are none exactly when no info matches. */
  lemma NonConvergingBatchesExact(infos: seq<int>, nonConvergingInfo: int)
    ensures var r := NonConvergingBatches(infos, nonConvergingInfo);
            && (forall j :: 0 <= j < |r| ==> r[j] < |infos| && infos[r[j]] == nonConvergingInfo)
            && (forall i :: 0 <= i < |infos| && infos[i] == nonConvergingInfo ==> i in r)
            && StrictlyIncreasing(r)
            && (r == [] <==> forall i :: 0 <= i < |infos| ==> infos[i] != nonConvergingInfo)
  {
    var r := NonConvergingBatches(infos, nonConvergingInfo);
    NonConvergingAmongExact(infos, |infos|, nonConvergingInfo);
    if r != [] {
      assert infos[r[0]] == nonConvergingInfo;
    }
  }

  /** _check_gesvdj_convergence: scans the infos copied to the host once,
      collecting every batch that reports `nonConvergingInfo`. */
  method CheckGesvdjConvergence(infos: seq<int>, nonConvergingInfo: int) returns (res: seq<nat>)
    ensures res == NonConvergingBatches(infos, nonConvergingInfo)
    ensures res == [] <==> forall i :: 0 <= i < |infos| ==> infos[i] != nonConvergingInfo
  {
    res := [];
    var i := 0;
    while i < |infos|
      invariant 0 <= i <= |infos|
      invariant res == NonConvergingAmong(infos, i, nonConvergingInfo)
    {
      if infos[i] == nonConvergingInfo {
        res := res + [i];
      }
      i := i + 1;
    }
    NonConvergingBatchesExact(infos, nonConvergingInfo);
  }

  // ---------------------------------------------------------------------
  // Naming the non-converging batches

  /** Lists longer than this are cut short. */
  const TooLong := 5

  const BatchesWord := "batches "
  const Separator := ", "
  const OthersWord := "and other "
  const BatchesSuffix := " batches"

  /** The batch list text: "batches 2, 3, 5" for at most five batches, and
      otherwise the first five each followed by ", " and then
      "and other N batches". */
  function BatchListText(batches: seq<int>): (s: string)
    requires |batches| > 0
  {
    if |batches| <= TooLong then BatchesWord + Join(IntsToStrings(batches), Separator)
    else BatchesWord + Join(IntsToStrings(batches[..TooLong]), Separator) + Separator
         + OthersText(|batches| - TooLong)
  }

  /** The closing "and other N batches". */
  function OthersText(count: int): string {
    OthersWord + IntToString(count) + BatchesSuffix
  }

  /** Writes `items[i] << ", "` for the first `count` items after `prefix`. */
  method WriteSeparated(prefix: string, items: seq<string>, count: nat) returns (s: string)
    requires count <= |items|
    ensures s == prefix + Terminated(items[..count], Separator)
  {
    s := prefix;
    var i := 0;
    while i < count
      invariant 0 <= i <= count
      invariant s == prefix + Terminated(items[..i], Separator)
    {
      assert items[..i + 1][..i] == items[..i];
      s := s + items[i] + Separator;
      i := i + 1;
    }
  }

  /** A short list is written as every item but the last followed by ", ",
      then the last. */
  lemma ShortListWritten(batches: seq<int>)
    requires 0 < |batches| <= TooLong
    ensures var items := IntsToStrings(batches);
            BatchListText(batches) == (BatchesWord + Terminated(items[..|items| - 1], Separator)) + items[|items| - 1]
  {
    var items := IntsToStrings(batches);
    var n := |items|;
    AppendAssoc(BatchesWord, Terminated(items[..n - 1], Separator), items[n - 1]);
    TerminatedJoin(items, Separator);
  }

  /** A long list is written as its first five items each followed by ", ",
      then the count of the rest. */
  lemma LongListWritten(batches: seq<int>)
    requires |batches| > TooLong
    ensures BatchListText(batches)
            == (BatchesWord + Terminated(IntsToStrings(batches[..TooLong]), Separator)) + OthersText(|batches| - TooLong)
  {
    var head := IntsToStrings(batches[..TooLong]);
    TerminatedAll(head, Separator);
    AppendAssoc(BatchesWord, Join(head, Separator), Separator);
  }

  /** _format_non_converging_batches, writing to a stream as the source does.
      The list must not be empty: the short branch loops up to
      `size() - 1` and then reads `back()`. */
  method FormatNonConvergingBatches(batches: seq<int>) returns (s: string)
    requires |batches| > 0
    ensures s == BatchListText(batches)
  {
    if |batches| <= TooLong {
      s := WriteShortList(batches);
    } else {
      s := WriteLongList(batches);
    }
  }

  /** The short branch: every batch but the last followed by ", ", then the
      last. */
  method WriteShortList(batches: seq<int>) returns (s: string)
    requires 0 < |batches| <= TooLong
    ensures s == BatchListText(batches)
  {
    var items := IntsToStrings(batches);
    var n := |items|;
    s := WriteSeparated(BatchesWord, items, n - 1);
    s := s + items[n - 1];
    ShortListWritten(batches);
  }

  /** The long branch: the first five batches each followed by ", ", then
      the count of the rest. */
  method WriteLongList(batches: seq<int>) returns (s: string)
    requires |batches| > TooLong
    ensures s == BatchListText(batches)
  {
    var head := IntsToStrings(batches[..TooLong]);
    s := WriteSeparated(BatchesWord, head, TooLong);
    assert head[..TooLong] == head;
    s := s + OthersText(|batches| - TooLong);
    LongListWritten(batches);
  }

  /** The text names every batch of a short list, and the first five and
      the count of the rest of a long one: two lists that agree there get
      the same text. */
  lemma BatchListTextDependsOnHead(a: seq<int>, b: seq<int>)
    requires |a| > 0 && |b| > 0
    ensures |a| <= TooLong && a == b ==> BatchListText(a) == BatchListText(b)
    ensures |a| > TooLong && |a| == |b| && a[..TooLong] == b[..TooLong] ==> BatchListText(a) == BatchListText(b)
  {
    if |a| > TooLong && |a| == |b| && a[..TooLong] == b[..TooLong] {
      var head := Join(IntsToStrings(a[..TooLong]), Separator);
      assert BatchListText(a) == BatchesWord + head + Separator + OthersText(|a| - TooLong);
      assert BatchListText(b) == BatchesWord + head + Separator + OthersText(|a| - TooLong);
    }
  }

  /** The short form has exactly one ", " between neighbours. */
  lemma ShortBatchListLength(batches: seq<int>)
    requires 0 < |batches| <= TooLong
    ensures |BatchListText(batches)| == |BatchesWord| + TotalLength(IntsToStrings(batches)) + 2 * (|batches| - 1)
  {
    JoinLength(IntsToStrings(batches), Separator);
  }

  // ---------------------------------------------------------------------
  // svd_cusolver

  datatype SvdRoutine = Gesvd | Gesvdj | GesvdjBatched | GesvdaStridedBatched

  const DefaultSvdDriver := "gesvdj"
  const CheckSvdDoc := "Check doc at https://pytorch.org/docs/stable/generated/torch.linalg.svd.html"

  /** The driver name in effect: the one given, or gesvdj. */
  function DriverName(driver: Option<string>): string {
    if driver.Some? then driver.value else DefaultSvdDriver
  }

  function UnknownDriverMessage(name: string): string {
    "torch.linalg.svd: unknown svd driver " + name + " in svd_cusolver computation. " + CheckSvdDoc
  }

  /** The routine svd_cusolver runs first. gesvdj on small batched inputs
      that are square or want full matrices uses the batched kernel. */
  function SelectSvdRoutine(driver: Option<string>, m: nat, n: nat, batchSize: nat, fullMatrices: bool)
    : (r: Result<SvdRoutine>)
    ensures r.Err? <==> DriverName(driver) !in {"gesvd", "gesvdj", "gesvda"}
    ensures r.Err? ==> r.error.RuntimeError?
    ensures r == Ok(Gesvd) <==> DriverName(driver) == "gesvd"
    ensures r == Ok(GesvdaStridedBatched) <==> DriverName(driver) == "gesvda"
    ensures r == Ok(GesvdjBatched) <==>
              DriverName(driver) == "gesvdj" && m <= 32 && n <= 32 && batchSize > 1 && (fullMatrices || m == n)
  {
    var name := DriverName(driver);
    if name == "gesvd" then Ok(Gesvd)
    else if name == "gesvdj" then
      if m <= 32 && n <= 32 && batchSize > 1 && (fullMatrices || m == n) then Ok(GesvdjBatched) else Ok(Gesvdj)
    else if name == "gesvda" then Ok(GesvdaStridedBatched)
    else Err(RuntimeError(UnknownDriverMessage(name)))
  }

  /** Without a driver svd_cusolver always takes a Jacobi routine. */
  lemma DefaultDriverIsJacobi(m: nat, n: nat, batchSize: nat, fullMatrices: bool)
    ensures var r := SelectSvdRoutine(None, m, n, batchSize, fullMatrices);
            r == Ok(Gesvdj) || r == Ok(GesvdjBatched)
  {
  }

  /** What svd_cusolver does on the host: the first routine, whether the
      convergence check ran and what it found, the warning it emits, the
      batches recomputed by gesvd, and whether the warning site has fired
      by the time the call returns. */
  datatype SvdPlan = SvdPlan(routine: SvdRoutine, checked: bool, nonConverging: seq<nat>,
                             warning: Option<string>, fallback: Option<seq<nat>>, warned: bool)

  const RedoMessage := "It is recommended to redo this SVD with another driver. "
  const FallbackMessage := "A more accurate method will be used to compute the SVD as a fallback. "

  function NonConvergenceWarning(batches: seq<int>, driverGiven: bool): string
    requires |batches| > 0
  {
    "torch.linalg.svd: During SVD computation with the selected cusolver driver, "
    + BatchListText(batches) + " failed to converge. "
    + (if driverGiven then RedoMessage else FallbackMessage) + CheckSvdDoc
  }

  /** svd_cusolver. `infos` is what the first routine left in `info`; a
      Jacobi routine reports min(m, n) + 1 for a batch that did not
      converge. The warning goes through TORCH_WARN_ONCE, whose
      once-per-process flag (a c10 macro, not part of this model) is
      `warnedBefore` on entry: only the first non-converged call warns. */
  function SvdCusolver(driver: Option<string>, m: nat, n: nat, batchSize: nat, fullMatrices: bool,
                       infos: seq<int>, warnedBefore: bool): (r: Result<SvdPlan>)
    ensures r.Err? <==> SelectSvdRoutine(driver, m, n, batchSize, fullMatrices).Err?
    ensures r.Ok? ==> r.value.routine == SelectSvdRoutine(driver, m, n, batchSize, fullMatrices).value
  {
    var routine :- SelectSvdRoutine(driver, m, n, batchSize, fullMatrices);
    if DriverName(driver) != "gesvd" then
      var k := if m <= n then m else n;
      var bad := NonConvergingBatches(infos, k + 1);
      if bad != [] then
        Ok(SvdPlan(routine, true, bad,
                   if warnedBefore then None else Some(NonConvergenceWarning(bad, driver.Some?)),
                   if driver.None? then Some(bad) else None, true))
      else Ok(SvdPlan(routine, true, bad, None, None, warnedBefore))
    else Ok(SvdPlan(routine, false, [], None, None, warnedBefore))
  }

  /** The convergence check runs exactly when the routine is not gesvd; it
      uses min(m, n) + 1; a warning is emitted exactly when some batch did
      not converge and the warning site has not fired before, which it has
      afterwards; and gesvd recomputes exactly those batches, and only
      when the caller chose no driver. */
  lemma SvdFallbackRule(driver: Option<string>, m: nat, n: nat, batchSize: nat, fullMatrices: bool,
                        infos: seq<int>, warnedBefore: bool)
    requires SvdCusolver(driver, m, n, batchSize, fullMatrices, infos, warnedBefore).Ok?
    ensures var p := SvdCusolver(driver, m, n, batchSize, fullMatrices, infos, warnedBefore).value;
            var bad := NonConvergingBatches(infos, (if m <= n then m else n) + 1);
            && (p.checked <==> p.routine != Gesvd)
            && (p.checked ==> p.nonConverging == bad)
            && (!p.checked ==> p.nonConverging == [])
            && (p.warning.Some? <==> p.checked && bad != [] && !warnedBefore)
            && (p.warning.Some? ==> p.warning.value == NonConvergenceWarning(bad, driver.Some?))
            && (p.warned <==> warnedBefore || (p.checked && bad != []))
            && (p.fallback.Some? <==> driver.None? && bad != [])
            && (p.fallback.Some? ==> p.fallback.value == bad && p.routine != Gesvd)
  {
  }

  /** With no driver, a batch reporting min(m, n) + 1 is recomputed by
      gesvd and a batch reporting anything else is not. */
  lemma DefaultDriverRecomputesExactlyNonConverged(m: nat, n: nat, batchSize: nat, fullMatrices: bool,
                                                   infos: seq<int>, i: nat, warnedBefore: bool)
    requires i < |infos|
    ensures var p := SvdCusolver(None, m, n, batchSize, fullMatrices, infos, warnedBefore);
            p.Ok? && (p.value.fallback.Some? && i in p.value.fallback.value
                      <==> infos[i] == (if m <= n then m else n) + 1)
  {
    DefaultDriverIsJacobi(m, n, batchSize, fullMatrices);
    SvdFallbackRule(None, m, n, batchSize, fullMatrices, infos, warnedBefore);
    NonConvergingBatchesExact(infos, (if m <= n then m else n) + 1);
  }

  /** Once one call has failed to converge, no later call warns again,
      whatever its own batches report; the fallback is unaffected. */
  lemma SvdWarnsOnce(driver: Option<string>, m: nat, n: nat, batchSize: nat, fullMatrices: bool,
                     infos1: seq<int>, infos2: seq<int>, warnedBefore: bool)
    requires SvdCusolver(driver, m, n, batchSize, fullMatrices, infos1, warnedBefore).Ok?
    ensures var p1 := SvdCusolver(driver, m, n, batchSize, fullMatrices, infos1, warnedBefore).value;
            var p2 := SvdCusolver(driver, m, n, batchSize, fullMatrices, infos2, p1.warned).value;
            && (p1.warning.Some? ==> p2.warning.None?)
            && p2.fallback == SvdCusolver(driver, m, n, batchSize, fullMatrices, infos2, warnedBefore).value.fallback
  {
    var p1 := SvdCusolver(driver, m, n, batchSize, fullMatrices, infos1, warnedBefore).value;
    SvdFallbackRule(driver, m, n, batchSize, fullMatrices, infos1, warnedBefore);
    SvdFallbackIgnoresWarned(driver, m, n, batchSize, fullMatrices, infos2, p1.warned, warnedBefore);
  }

  /** Whether the warning has fired decides only the warning, never the
      fallback. */
  lemma SvdFallbackIgnoresWarned(driver: Option<string>, m: nat, n: nat, batchSize: nat, fullMatrices: bool,
                                 infos: seq<int>, warned1: bool, warned2: bool)
    requires SvdCusolver(driver, m, n, batchSize, fullMatrices, infos, warned1).Ok?
    ensures var p1 := SvdCusolver(driver, m, n, batchSize, fullMatrices, infos, warned1).value;
            var p2 := SvdCusolver(driver, m, n, batchSize, fullMatrices, infos, warned2).value;
            && p1.fallback == p2.fallback
            && (warned1 ==> p1.warning.None?)
  {
  }

  // ---------------------------------------------------------------------
  // linalg_eigh_cusolver

  datatype EighRoutine = Syevd | Syevj | SyevjBatched

  /** linalg_eigh_cusolver: the batched Jacobi kernel when it is enabled and
      a batch of matrices at most 32 wide arrives, else single Jacobi for
      float32 from 32 to 512, else the divide-and-conquer routine. */
  function SelectEighRoutine(useSyevjBatched: bool, batchCount: nat, n: nat, isFloat32: bool)
    : (r: EighRoutine)
    ensures r == SyevjBatched <==> useSyevjBatched && batchCount > 1 && n <= 32
    ensures r == Syevj <==> !(useSyevjBatched && batchCount > 1 && n <= 32) && isFloat32 && 32 <= n <= 512
    ensures r == Syevd ==> !isFloat32 || n < 32 || n > 512
  {
    if useSyevjBatched && batchCount > 1 && n <= 32 then SyevjBatched
    else if isFloat32 && n >= 32 && n <= 512 then Syevj
    else Syevd
  }

  /** A Jacobi routine is never chosen for a matrix wider than 512, and
      double precision never gets single-matrix Jacobi. */
  lemma EighLargeOrDoubleAvoidsSyevj(useSyevjBatched: bool, batchCount: nat, n: nat, isFloat32: bool)
    ensures n > 512 ==> SelectEighRoutine(useSyevjBatched, batchCount, n, isFloat32) == Syevd
    ensures !isFloat32 ==> SelectEighRoutine(useSyevjBatched, batchCount, n, isFloat32) != Syevj
  {
  }

  // ---------------------------------------------------------------------
  // The cuSOLVER/cuBLAS inverse

  datatype InverseRoutine = SingleGetrfGetrs | LoopedGetrfGetrs | BatchedGetrfGetri

  /** _linalg_inv_out_helper_cuda_lib with apply_batched_inverse_lib: a
      single matrix uses getrf+getrs once; a batch uses the per-matrix loop
      when it is small or the matrices are large, and the batched cuBLAS
      kernels otherwise. */
  function SelectInverseRoutine(resultDim: nat, batchSize: nat, n: nat): (r: InverseRoutine)
    ensures r == SingleGetrfGetrs <==> resultDim <= 2
    ensures r == BatchedGetrfGetri <==> resultDim > 2 && batchSize > 8 && n < 512
  {
    if resultDim > 2 then
      if batchSize <= 8 || n >= 512 then LoopedGetrfGetrs else BatchedGetrfGetri
    else SingleGetrfGetrs
  }

  /** The leading dimension passed with the matrices is at least 1. */
  function LeadingDim(n: int): (lda: int)
    ensures lda >= 1 && lda >= n
    ensures lda == n || (n < 1 && lda == 1)
  {
    if n >= 1 then n else 1
  }
}

=== FILE: datapipe.dfy ===
/** The class-level registries of IterDataPipe and MapDataPipe: the table
    of functional forms (`dp.map(...)` looks up "map"), the one-shot
    serialization hooks, the fallback of `__reduce_ex__`, the rule that
    wraps a result for dataframe tracing, and DataChunk's rendering. Every
    IterDataPipe subclass shares IterDataPipe's table and hooks, and every
    MapDataPipe subclass shares MapDataPipe's. A user-supplied callable is
    named by an id; what it returns or raises when called is an input. */
module DataPipes {
  import opened Wrappers
  import opened Strings

  // ---------------------------------------------------------------------
  // Pipes and registered functions

  datatype Kind = IterKind | MapKind

  /** A DataPipe class that can be registered as a functional form: its
      name, and whether its instances are IterDataPipes or DFIterDataPipes. */
  datatype PipeClass = PipeClass(name: string, makesIter: bool, makesDataFrame: bool)

  /** A DataPipe instance: one built by a class, or the result of
      trace_as_dataframe on another. trace_as_dataframe is not part of this
      model; its result is taken to be a DFIterDataPipe. */
  datatype Pipe =
    | Built(className: string, isIter: bool, isDataFrame: bool)
    | Traced(inner: Pipe)

  predicate IsIterPipe(p: Pipe) {
    p.Traced? || p.isIter
  }

  predicate IsDataFramePipe(p: Pipe) {
    p.Traced? || p.isDataFrame
  }

  /** An entry of `functions`: a callable given to register_function, or
      the class_function partial made by register_datapipe_as_function,
      which for IterDataPipe remembers enable_df_api_tracing. */
  datatype Registered =
    | UserFunction(id: nat)
    | DatapipeFunction(name: string, cls: PipeClass, dfTracing: Option<bool>)

  /** A user-supplied hook. */
  datatype Hook = Hook(id: nat)

  /** The class attributes of IterDataPipe or MapDataPipe. */
  datatype ClassState = ClassState(functions: map<string, Registered>,
                                   reduceExHook: Option<Hook>, getstateHook: Option<Hook>)

  datatype Registry = Registry(iterState: ClassState, mapState: ClassState)

  const EmptyClassState := ClassState(map[], None, None)
  const InitialRegistry := Registry(EmptyClassState, EmptyClassState)

  function StateOf(reg: Registry, kind: Kind): ClassState {
    if kind == IterKind then reg.iterState else reg.mapState
  }

  function WithState(reg: Registry, kind: Kind, st: ClassState): (r: Registry)
    ensures StateOf(r, kind) == st
    ensures forall k :: k != kind ==> StateOf(r, k) == StateOf(reg, k)
  {
    if kind == IterKind then reg.(iterState := st) else reg.(mapState := st)
  }

  // ---------------------------------------------------------------------
  // Registration

  /** register_function: add or silently replace an entry. */
  function RegisterFunction(reg: Registry, kind: Kind, name: string, f: Registered): (r: Registry)
    ensures StateOf(r, kind).functions == StateOf(reg, kind).functions[name := f]
    ensures StateOf(r, kind).reduceExHook == StateOf(reg, kind).reduceExHook
    ensures StateOf(r, kind).getstateHook == StateOf(reg, kind).getstateHook
    ensures forall k :: k != kind ==> StateOf(r, k) == StateOf(reg, k)
  {
    var st := StateOf(reg, kind);
    WithState(reg, kind, st.(functions := st.functions[name := f]))
  }

  function TakenMessage(name: string): string {
    "Unable to add DataPipe function name " + name + " as it is already taken"
  }

  /** register_datapipe_as_function. Only IterDataPipe takes the
      enable_df_api_tracing flag; MapDataPipe's functional forms never trace. */
  function RegisterDatapipeAsFunction(reg: Registry, kind: Kind, name: string, cls: PipeClass,
                                      enableDfApiTracing: bool): (r: Result<Registry>)
    ensures r.Err? <==> name in StateOf(reg, kind).functions
    ensures r.Err? ==> r.error == Exception(TakenMessage(name))
    ensures r.Ok? ==>
              && StateOf(r.value, kind).functions.Keys == StateOf(reg, kind).functions.Keys + {name}
              && StateOf(r.value, kind).functions[name]
                   == DatapipeFunction(name, cls, if kind == IterKind then Some(enableDfApiTracing) else None)
              && (forall n :: n in StateOf(reg, kind).functions ==>
                    StateOf(r.value, kind).functions[n] == StateOf(reg, kind).functions[n])
              && (forall k :: k != kind ==> StateOf(r.value, k) == StateOf(reg, k))
  {
    if name in StateOf(reg, kind).functions then Err(Exception(TakenMessage(name)))
    else
      var tracing := if kind == IterKind then Some(enableDfApiTracing) else None;
      Ok(RegisterFunction(reg, kind, name, DatapipeFunction(name, cls, tracing)))
  }

  /** A name can be taken as a functional form once: the second attempt
      fails whatever class it names, while register_function may replace
      the entry at will. */
  lemma RegisterTwiceFails(reg: Registry, kind: Kind, name: string, c1: PipeClass, c2: PipeClass, t1: bool, t2: bool)
    ensures var r1 := RegisterDatapipeAsFunction(reg, kind, name, c1, t1);
            r1.Ok? ==> RegisterDatapipeAsFunction(r1.value, kind, name, c2, t2).Err?
  {
  }

  // ---------------------------------------------------------------------
  // Attribute lookup

  /** A registered function bound to the pipe it was looked up on. */
  datatype Bound = Bound(f: Registered, self: Pipe)

  /** The AttributeError text as written: the closing quote after the
      attribute name is missing. */
  function AttributeMessageAsWritten(className: string, attribute: string): string {
    "'" + className + "' object has no attribute '" + attribute
  }

  /** The AttributeError text with both attribute quotes, as Python itself
      words it. */
  function AttributeMessage(className: string, attribute: string): (m: string)
    ensures m == AttributeMessageAsWritten(className, attribute) + "'"
    ensures m[|m| - 1] == '\''
  {
    "'" + className + "' object has no attribute '" + attribute + "'"
  }

  /** The written message leaves the attribute name unterminated: it ends
      with the name's last character, never with the closing quote, for
      any name that does not itself end in one. */
  lemma AttributeMessageUnterminated(className: string, attribute: string)
    requires |attribute| > 0 && attribute[|attribute| - 1] != '\''
    ensures var m := AttributeMessageAsWritten(className, attribute);
            m[|m| - 1] != '\''
  {
  }

  /** __getattr__ as written (reached only for names the instance does not
      have): the registered function bound to `self`, or AttributeError with
      the unterminated message. */
  function GetAttrAsWritten(reg: Registry, kind: Kind, self: Pipe, className: string, attribute: string)
    : (r: Result<Bound>)
    ensures r.Ok? <==> attribute in StateOf(reg, kind).functions
    ensures r.Ok? ==> r.value == Bound(StateOf(reg, kind).functions[attribute], self)
    ensures r.Err? ==> r.error == AttributeError(AttributeMessageAsWritten(className, attribute))
  {
    var functions := StateOf(reg, kind).functions;
    if attribute in functions then Ok(Bound(functions[attribute], self))
    else Err(AttributeError(AttributeMessageAsWritten(className, attribute)))
  }

  /** __getattr__ with the message corrected: the same lookup, and an
      AttributeError whose text closes the attribute's quote. */
  function GetAttr(reg: Registry, kind: Kind, self: Pipe, className: string, attribute: string): (r: Result<Bound>)
    ensures r.Ok? <==> attribute in StateOf(reg, kind).functions
    ensures r.Ok? ==> r.value == Bound(StateOf(reg, kind).functions[attribute], self)
    ensures r.Err? ==> r.error == AttributeError(AttributeMessage(className, attribute))
  {
    var functions := StateOf(reg, kind).functions;
    if attribute in functions then Ok(Bound(functions[attribute], self))
    else Err(AttributeError(AttributeMessage(className, attribute)))
  }

  /** The corrected lookup finds exactly what the written one finds; a miss
      differs only by the closing quote of its message. */
  lemma GetAttrCorrectsOnlyTheMessage(reg: Registry, kind: Kind, self: Pipe, className: string, attribute: string)
    ensures var written := GetAttrAsWritten(reg, kind, self, className, attribute);
            var fixed := GetAttr(reg, kind, self, className, attribute);
            && (written.Ok? <==> fixed.Ok?)
            && (written.Ok? ==> written == fixed)
            && (written.Err? ==> fixed.error.msg == written.error.msg + "'")
  {
  }

  /** After registering a name, looking it up on any pipe of that kind finds
      what was registered. */
  lemma RegisteredNameResolves(reg: Registry, kind: Kind, name: string, cls: PipeClass, tracing: bool,
                               self: Pipe, className: string)
    requires RegisterDatapipeAsFunction(reg, kind, name, cls, tracing).Ok?
    ensures var r := RegisterDatapipeAsFunction(reg, kind, name, cls, tracing).value;
            var g := GetAttr(r, kind, self, className, name);
            g.Ok? && g.value.f.DatapipeFunction? && g.value.f.cls == cls
  {
  }

  // ---------------------------------------------------------------------
  // Calling a functional form

  /** Functional forms whose results are never traced as dataframes. */
  const UntracableDataframePipes: seq<string> := ["batch", "groupby", "_dataframes_as_tuples", "trace_as_dataframe"]

  /** class_function's tracing rule. */
  predicate ShouldTrace(name: string, result: Pipe, dfTracing: Option<bool>, source: Pipe) {
    && dfTracing.Some?
    && IsIterPipe(result)
    && (dfTracing.value || IsDataFramePipe(source))
    && name !in UntracableDataframePipes
  }

  /** class_function: build the class on the source, then trace the result
      as a dataframe when the rule says so. */
  function CallDatapipeFunction(f: Registered, source: Pipe): (r: Pipe)
    requires f.DatapipeFunction?
    ensures var built := Built(f.cls.name, f.cls.makesIter, f.cls.makesDataFrame);
            r == built || r == Traced(built)
    ensures r.Traced? <==>
              && f.dfTracing.Some? && f.cls.makesIter
              && (f.dfTracing.value || IsDataFramePipe(source))
              && f.name !in UntracableDataframePipes
  {
    var built := Built(f.cls.name, f.cls.makesIter, f.cls.makesDataFrame);
    if ShouldTrace(f.name, built, f.dfTracing, source) then Traced(built) else built
  }

  /** Once a pipeline is a dataframe pipe, every traceable IterDataPipe
      functional form applied to it is traced as a dataframe, with or
      without the registration flag, and so (taking trace_as_dataframe to
      return a DFIterDataPipe) stays one. */
  lemma DataFrameTracingPropagates(reg: Registry, name: string, cls: PipeClass, flag: bool, source: Pipe)
    requires RegisterDatapipeAsFunction(reg, IterKind, name, cls, flag).Ok?
    requires IsDataFramePipe(source) && cls.makesIter && name !in UntracableDataframePipes
    ensures var f := StateOf(RegisterDatapipeAsFunction(reg, IterKind, name, cls, flag).value, IterKind).functions[name];
            && CallDatapipeFunction(f, source).Traced?
            && IsDataFramePipe(CallDatapipeFunction(f, source))
  {
  }

  lemma NeverTracedForms(name: string, cls: PipeClass, dfTracing: Option<bool>, source: Pipe)
    requires name in UntracableDataframePipes || dfTracing.None? || !cls.makesIter
    ensures !CallDatapipeFunction(DatapipeFunction(name, cls, dfTracing), source).Traced?
  {
  }

  // ---------------------------------------------------------------------
  // Hooks

  const GetstateOverrideMessage := "Attempt to override existing getstate_hook"
  const ReduceExOverrideMessage := "Attempt to override existing reduce_ex_hook"

  /** set_getstate_hook: a hook may be installed only into an empty slot,
      and the slot may always be cleared. */
  function SetGetstateHook(reg: Registry, kind: Kind, hook: Option<Hook>): (r: Result<Registry>)
    ensures r.Err? <==> StateOf(reg, kind).getstateHook.Some? && hook.Some?
    ensures r.Err? ==> r.error == Exception(GetstateOverrideMessage)
    ensures r.Ok? ==> StateOf(r.value, kind) == StateOf(reg, kind).(getstateHook := hook)
    ensures r.Ok? ==> forall k :: k != kind ==> StateOf(r.value, k) == StateOf(reg, k)
  {
    var st := StateOf(reg, kind);
    if st.getstateHook.Some? && hook.Some? then Err(Exception(GetstateOverrideMessage))
    else Ok(WithState(reg, kind, st.(getstateHook := hook)))
  }

  /** set_reduce_ex_hook: the same rule for the reduce_ex slot. */
  function SetReduceExHook(reg: Registry, kind: Kind, hook: Option<Hook>): (r: Result<Registry>)
    ensures r.Err? <==> StateOf(reg, kind).reduceExHook.Some? && hook.Some?
    ensures r.Err? ==> r.error == Exception(ReduceExOverrideMessage)
    ensures r.Ok? ==> StateOf(r.value, kind) == StateOf(reg, kind).(reduceExHook := hook)
    ensures r.Ok? ==> forall k :: k != kind ==> StateOf(r.value, k) == StateOf(reg, k)
  {
    var st := StateOf(reg, kind);
    if st.reduceExHook.Some? && hook.Some? then Err(Exception(ReduceExOverrideMessage))
    else Ok(WithState(reg, kind, st.(reduceExHook := hook)))
  }

  /** Clearing the slot first always lets a new hook in. */
  lemma ResetThenSetSucceeds(reg: Registry, kind: Kind, hook: Hook)
    ensures var r1 := SetReduceExHook(reg, kind, None);
            && r1.Ok?
            && SetReduceExHook(r1.value, kind, Some(hook)) == Ok(WithState(reg, kind, StateOf(reg, kind).(reduceExHook := Some(hook))))
    ensures var g1 := SetGetstateHook(reg, kind, None);
            && g1.Ok?
            && SetGetstateHook(g1.value, kind, Some(hook)) == Ok(WithState(reg, kind, StateOf(reg, kind).(getstateHook := Some(hook))))
  {
  }

  /** What a hook does when called: it returns a value or raises. */
  datatype HookOutcome = Returns(value: nat) | Raises(error: TorchError)

  /** What pickling receives. */
  datatype Reduced = FromHook(value: nat) | DefaultReduce | InstanceDict

  /** __reduce_ex__: the hook's value; the default reduction when there is
      no hook or the hook raises NotImplementedError; any other exception
      propagates. */
  function ReduceEx(reg: Registry, kind: Kind, outcome: HookOutcome): (r: Result<Reduced>)
    ensures StateOf(reg, kind).reduceExHook.None? ==> r == Ok(DefaultReduce)
    ensures r == Ok(DefaultReduce) <==>
              StateOf(reg, kind).reduceExHook.None? || (outcome.Raises? && outcome.error.NotImplementedError?)
    ensures r.Err? <==> StateOf(reg, kind).reduceExHook.Some? && outcome.Raises? && !outcome.error.NotImplementedError?
    ensures StateOf(reg, kind).reduceExHook.Some? && outcome.Returns? ==> r == Ok(FromHook(outcome.value))
    ensures r.Err? ==> r.error == outcome.error
  {
    if StateOf(reg, kind).reduceExHook.None? then Ok(DefaultReduce)
    else match outcome
      case Returns(v) => Ok(FromHook(v))
      case Raises(e) => if e.NotImplementedError? then Ok(DefaultReduce) else Err(e)
  }

  /** __getstate__: the hook's value or the instance dict. Unlike
      __reduce_ex__ there is no fallback: every exception propagates. */
  function GetState(reg: Registry, kind: Kind, outcome: HookOutcome): (r: Result<Reduced>)
    ensures StateOf(reg, kind).getstateHook.None? ==> r == Ok(InstanceDict)
    ensures r.Err? <==> StateOf(reg, kind).getstateHook.Some? && outcome.Raises?
    ensures StateOf(reg, kind).getstateHook.Some? && outcome.Returns? ==> r == Ok(FromHook(outcome.value))
    ensures r.Err? ==> r.error == outcome.error
  {
    if StateOf(reg, kind).getstateHook.None? then Ok(InstanceDict)
    else match outcome
      case Returns(v) => Ok(FromHook(v))
      case Raises(e) => Err(e)
  }

  /** A hook that raises NotImplementedError is skipped by __reduce_ex__ but
      not by __getstate__. */
  lemma NotImplementedOnlyFallsBackInReduceEx(reg: Registry, kind: Kind, msg: string)
    requires StateOf(reg, kind).reduceExHook.Some? && StateOf(reg, kind).getstateHook.Some?
    ensures ReduceEx(reg, kind, Raises(NotImplementedError(msg))) == Ok(DefaultReduce)
    ensures GetState(reg, kind, Raises(NotImplementedError(msg))) == Err(NotImplementedError(msg))
  {
  }

  // ---------------------------------------------------------------------
  // DataChunk

  /** DataChunk.as_str, given the str() of each item: the indent, then the
      items separated by ", " in brackets. */
  function AsStr(items: seq<string>, indent: string): (s: string)
    ensures |s| >= |indent| + 2
    ensures s[..|indent|] == indent && s[|indent|] == '[' && s[|s| - 1] == ']'
  {
    indent + "[" + Join(items, ", ") + "]"
  }

  /** The rendering's length: two brackets, the items, and one ", " between
      neighbours. */
  lemma AsStrLength(items: seq<string>, indent: string)
    ensures |AsStr(items, indent)| == |indent| + 2 + TotalLength(items) + (if |items| == 0 then 0 else 2 * (|items| - 1))
  {
    if |items| > 0 {
      JoinLength(items, ", ");
    }
  }

  /** Rendering one more item inserts ", " and the item before the bracket. */
  lemma AsStrSnoc(items: seq<string>, x: string, indent: string)
    requires |items| > 0
    ensures AsStr(items + [x], indent) == indent + "[" + Join(items, ", ") + ", " + x + "]"
  {
    var p := indent + "[";
    var j := Join(items, ", ");
    JoinSnoc(items, x, ", ");
    AppendAssoc(p, j, ", ");
    AppendAssoc(p, j + ", ", x);
  }
}

=== FILE: forward_backward_link.dfy ===
/** The forward/backward link table of the profiler
    (getForwardThreadKey, generateForwardBackwardLink): forward operators
    are stored under a key packed from their thread id and sequence number,
    and a backward operator naming that thread and number is linked to the
    stored one with a fresh flow id. The loop that calls it in
    finalizeCPUTrace is disabled in the source; the model keeps it to state
    what the table promises. */
module ForwardBackwardLink {

  const Low48: bv64 := 0xFFFF_FFFF_FFFF
  const Low16: bv64 := 0xFFFF

  /** getForwardThreadKey: the thread id shifted into the top 16 bits over
      the low 48 bits of the sequence number. Both arguments are uint64; an
      int64 sequence number arrives as its two's complement bits. */
  function ForwardThreadKey(tid: bv64, seqNr: bv64): (k: bv64)
    ensures k >> 48 == tid & Low16
    ensures k & Low48 == seqNr & Low48
  {
    (tid << 48) | (seqNr & Low48)
  }

  /** The shift discards every thread-id bit above the low 16. */
  lemma ShiftKeepsLow16(tid: bv64)
    ensures tid << 48 == (tid & Low16) << 48
  {
  }

  /** Two keys agree exactly when the low 16 bits of the thread ids and the
      low 48 bits of the sequence numbers agree. */
  lemma KeyInjective(t1: bv64, s1: bv64, t2: bv64, s2: bv64)
    ensures ForwardThreadKey(t1, s1) == ForwardThreadKey(t2, s2)
            <==> (t1 & Low16 == t2 & Low16 && s1 & Low48 == s2 & Low48)
  {
    if t1 & Low16 == t2 & Low16 && s1 & Low48 == s2 & Low48 {
      ShiftKeepsLow16(t1);
      ShiftKeepsLow16(t2);
    }
  }

  /** The packing relies on thread ids below 2^16: thread ids 2^16 apart
      share every key. */
  lemma WideThreadIdsCollide(tid: bv64, seqNr: bv64)
    ensures ForwardThreadKey(tid, seqNr) == ForwardThreadKey(tid + 0x1_0000, seqNr)
  {
    KeyInjective(tid, seqNr, tid + 0x1_0000, seqNr);
  }

  /** What linking reads from one exported event and its activity: the
      uint64 thread ids, the int64 sequence number as its bits, and the
      activity's start time. */
  datatype LinkEvent = LinkEvent(fwdThreadId: bv64, startThreadId: bv64, sequenceNr: bv64, startTime: int)

  /** sequenceNr() >= 0 on the int64: the sign bit is clear. */
  predicate HasSequenceNr(e: LinkEvent) {
    e.sequenceNr < 0x8000_0000_0000_0000
  }

  /** A packed key as stored in tidSeq2activity. */
  datatype Key = Key(bits: bv64)

  /** A forward/backward flow: activity `fwd` starts it, `bwd` ends it. */
  datatype Link = Link(fwd: nat, bwd: nat, id: nat)

  /** tidSeq2activity (key to activity position), fwd_bwd_link_id, and the
      flows made so far. */
  datatype LinkState = LinkState(table: map<Key, nat>, nextId: nat, links: seq<Link>)

  function BackwardKey(e: LinkEvent): Key {
    Key(ForwardThreadKey(e.fwdThreadId, e.sequenceNr))
  }

  function ForwardKey(e: LinkEvent): Key {
    Key(ForwardThreadKey(e.startThreadId, e.sequenceNr))
  }

  predicate IsBackward(e: LinkEvent) {
    e.fwdThreadId > 0
  }

  predicate IsForward(e: LinkEvent) {
    !IsBackward(e) && e.startThreadId != 0
  }

  predicate ValidTable(events: seq<LinkEvent>, table: map<Key, nat>) {
    forall k :: k in table ==> table[k] < |events|
  }

  /** generateForwardBackwardLink for the event at position i. */
  function LinkStep(events: seq<LinkEvent>, i: nat, st: LinkState): (r: LinkState)
    requires i < |events| && forall k :: k in st.table ==> st.table[k] < i
    ensures forall k :: k in r.table ==> r.table[k] <= i
    // a backward event never touches the table; it links iff its key is stored
    ensures IsBackward(events[i]) ==> r.table == st.table
    ensures IsBackward(events[i]) && BackwardKey(events[i]) in st.table ==>
              && r.links == st.links + [Link(st.table[BackwardKey(events[i])], i, st.nextId)]
              && r.nextId == st.nextId + 1
    ensures IsBackward(events[i]) && BackwardKey(events[i]) !in st.table ==> r == st
    // a forward event replaces the stored one when it starts no earlier
    ensures IsForward(events[i]) ==>
              && r.nextId == st.nextId && r.links == st.links
              && (forall k :: k != ForwardKey(events[i]) ==> (k in r.table <==> k in st.table))
              && (forall k :: k != ForwardKey(events[i]) && k in st.table ==> r.table[k] == st.table[k])
              && ForwardKey(events[i]) in r.table
              && (r.table[ForwardKey(events[i])] == i <==>
                    (ForwardKey(events[i]) !in st.table
                     || events[i].startTime >= events[st.table[ForwardKey(events[i])]].startTime))
    ensures !IsBackward(events[i]) && !IsForward(events[i]) ==> r == st
  {
    var e := events[i];
    if IsBackward(e) then
      var key := BackwardKey(e);
      if key in st.table then
        LinkState(st.table, st.nextId + 1, st.links + [Link(st.table[key], i, st.nextId)])
      else st
    else if e.startThreadId != 0 then
      var key := ForwardKey(e);
      if key !in st.table || e.startTime >= events[st.table[key]].startTime then
        st.(table := st.table[key := i])
      else st
    else st
  }

  /** The (disabled) loop of finalizeCPUTrace: events with a sequence number
      are linked in order. The flow-id counter the loop increments is not
      declared anywhere in the source; its first value is taken to be 1. */
  function LinkAll(events: seq<LinkEvent>, n: nat): (r: LinkState)
    requires n <= |events|
    ensures ValidTable(events, r.table)
    ensures forall k :: k in r.table ==> r.table[k] < n
  {
    if n == 0 then LinkState(map[], 1, [])
    else
      var st := LinkAll(events, n - 1);
      if HasSequenceNr(events[n - 1]) then LinkStep(events, n - 1, st) else st
  }

  /** The stored forward event for a key is a forward event with that key
      that starts no earlier than any forward event with that key seen so
      far. */
  lemma {:induction false} TableHoldsLatestForward(events: seq<LinkEvent>, n: nat)
    requires n <= |events|
    ensures var t := LinkAll(events, n).table;
            && (forall k :: k in t ==> IsForward(events[t[k]]) && ForwardKey(events[t[k]]) == k
                                       && HasSequenceNr(events[t[k]]))
            && (forall i :: 0 <= i < n && IsForward(events[i]) && HasSequenceNr(events[i]) ==>
                  && ForwardKey(events[i]) in t
                  && events[t[ForwardKey(events[i])]].startTime >= events[i].startTime)
  {
    if n > 0 {
      TableHoldsLatestForward(events, n - 1);
      var st := LinkAll(events, n - 1);
      var t := LinkAll(events, n).table;
      var e := events[n - 1];
      if HasSequenceNr(e) && IsForward(e) {
        var key := ForwardKey(e);
        forall i | 0 <= i < n && IsForward(events[i]) && HasSequenceNr(events[i])
          ensures ForwardKey(events[i]) in t && events[t[ForwardKey(events[i])]].startTime >= events[i].startTime
        {
          if i < n - 1 && ForwardKey(events[i]) == key && t[key] != n - 1 {
            assert t[key] == st.table[key];
          }
        }
      }
    }
  }

  /** Every flow joins an earlier forward event to a later backward event
      with the same packed key, and flow ids are handed out consecutively
      from 1. */
  lemma {:induction false} LinksJoinMatchingEvents(events: seq<LinkEvent>, n: nat)
    requires n <= |events|
    ensures var st := LinkAll(events, n);
            && st.nextId == 1 + |st.links|
            && forall j :: 0 <= j < |st.links| ==>
                 var l := st.links[j];
                 && l.id == 1 + j
                 && l.fwd < l.bwd < n
                 && IsForward(events[l.fwd]) && IsBackward(events[l.bwd])
                 && ForwardKey(events[l.fwd]) == BackwardKey(events[l.bwd])
  {
    if n > 0 {
      LinksJoinMatchingEvents(events, n - 1);
      TableHoldsLatestForward(events, n - 1);
    }
  }

  /** A backward event is linked exactly when a forward event with the same
      key came before it. */
  lemma BackwardLinkedIffForwardSeen(events: seq<LinkEvent>, n: nat)
    requires n < |events| && IsBackward(events[n]) && HasSequenceNr(events[n])
    ensures (|LinkAll(events, n + 1).links| == |LinkAll(events, n).links| + 1)
            <==> exists i :: 0 <= i < n && IsForward(events[i]) && HasSequenceNr(events[i])
                             && ForwardKey(events[i]) == BackwardKey(events[n])
  {
    TableHoldsLatestForward(events, n);
  }
}

=== FILE: functional_wrapper.dfy ===
/** The alias and generation bookkeeping of the functionalization pass
    (FunctionalTensorWrapper). Every wrapper holds an inner tensor, the list
    of view metas that rebuild it from the base of its storage, and the
    storage generation it last saw. Wrappers that alias each other share one
    FunctionalStorageImpl, which queues updates and counts them in its
    generation. Tensors, storages and wrappers live in a `World` and are
    named by their position in it.

    What a view's forward function or an update does to tensor data is not
    modelled: a replayed view is the symbolic term `Viewed(src, meta)` and
    applying the queued updates turns the base into `Mutated(base, pending)`. */
module FunctionalWrapper {
  import opened Wrappers

  // ---------------------------------------------------------------------
  // Dispatch keys and tensors

  /** A dispatch key. Which keys make up functorch_transforms_ks is decided
      in c10; here a key says itself whether it is one of them. */
  datatype DispatchKey = Functionalize | FunctorchTransform(name: string) | OtherKey(name: string)

  /** A view op recorded on a wrapper: which op, and which of its outputs. */
  datatype ViewMeta = ViewMeta(op: nat, outIndex: int)

  /** The data of a plain tensor, as a term. */
  datatype Value =
    | Leaf(id: nat)
    | Viewed(src: Value, meta: ViewMeta)
    | Mutated(src: Value, updates: seq<Update>)
    | Cast(src: Value, dtype: nat, layout: nat)

  /** A plain tensor, or a handle to the wrapper at a position of the world.
      A dtype and a layout (strided, sparse, ...) are named by numbers. */
  datatype Tensor =
    | Plain(value: Value, keys: set<DispatchKey>, wrappedNumber: bool, dtype: nat, layout: nat)
    | Functional(wrapper: nat)

  /** An update queued by commit_update: the new value and the view metas
      that lead from the base to it. */
  datatype Update = Update(value: Tensor, metas: seq<ViewMeta>)

  /** FunctionalStorageImpl: the base tensor, the number of updates queued
      so far, and those not yet applied. */
  datatype Storage = Storage(base: Tensor, generation: nat, pending: seq<Update>)

  /** FunctionalTensorWrapper. */
  datatype WrapperImpl = WrapperImpl(value: Tensor, keySet: set<DispatchKey>, storage: nat,
                                     viewMetas: seq<ViewMeta>, generation: nat, level: int, dtype: nat,
                                     layout: nat)

  datatype World = World(storages: seq<Storage>, wrappers: seq<WrapperImpl>)

  /** Every wrapper names an existing storage, and every handle an existing
      wrapper. */
  predicate Valid(w: World) {
    forall i :: 0 <= i < |w.wrappers| ==> w.wrappers[i].storage < |w.storages|
  }

  predicate HandleIn(w: World, t: Tensor) {
    t.Functional? ==> t.wrapper < |w.wrappers|
  }

  function KeysOf(w: World, t: Tensor): set<DispatchKey>
    requires HandleIn(w, t)
  {
    match t
    case Plain(_, keys, _, _, _) => keys
    case Functional(i) => w.wrappers[i].keySet
  }

  /** isFunctionalTensor: the key set has Functionalize. */
  predicate IsFunctionalTensor(w: World, t: Tensor)
    requires HandleIn(w, t)
  {
    Functionalize in KeysOf(w, t)
  }

  function DtypeOf(w: World, t: Tensor): nat
    requires HandleIn(w, t)
  {
    match t
    case Plain(_, _, _, dtype, _) => dtype
    case Functional(i) => w.wrappers[i].dtype
  }

  function LayoutOf(w: World, t: Tensor): nat
    requires HandleIn(w, t)
  {
    match t
    case Plain(_, _, _, _, layout) => layout
    case Functional(i) => w.wrappers[i].layout
  }

  // ---------------------------------------------------------------------
  // Construction

  /** set_constructor_metadata's key set: Functionalize and the inner
      tensor's keys, without the functorch transform keys. */
  function WrapperKeySet(valueKeys: set<DispatchKey>): (r: set<DispatchKey>)
    ensures Functionalize in r
    ensures forall k :: k in r <==> k == Functionalize || (k in valueKeys && !k.FunctorchTransform?)
  {
    ({Functionalize} + valueKeys) - (set k | k in valueKeys && k.FunctorchTransform?)
  }

  /** Applying the rule to its own result changes nothing. */
  lemma WrapperKeySetIdempotent(keys: set<DispatchKey>)
    ensures WrapperKeySet(WrapperKeySet(keys)) == WrapperKeySet(keys)
  {
  }

  /** A wrapper around `value` with the given storage and view metas;
      level_ is -1 and the generation starts at 0. */
  function MakeWrapper(w: World, value: Tensor, storage: nat, metas: seq<ViewMeta>): WrapperImpl
    requires HandleIn(w, value)
  {
    WrapperImpl(value, WrapperKeySet(KeysOf(w, value)), storage, metas, 0, -1, DtypeOf(w, value), LayoutOf(w, value))
  }

  /** The FunctionalTensorWrapper(value) constructor: a fresh storage whose
      base is `value`, and a wrapper over it with no view metas. */
  function NewWrapper(w: World, value: Tensor): (r: (World, nat))
    requires Valid(w) && HandleIn(w, value)
    ensures Valid(r.0) && r.1 == |w.wrappers| && |r.0.wrappers| == |w.wrappers| + 1
    ensures |r.0.storages| == |w.storages| + 1
    ensures r.0.wrappers[..|w.wrappers|] == w.wrappers
    ensures r.0.storages[..|w.storages|] == w.storages
    ensures var impl := r.0.wrappers[r.1];
            && impl.value == value && impl.viewMetas == [] && impl.generation == 0
            && r.0.storages[impl.storage] == Storage(value, 0, [])
            && UseCount(r.0, impl.storage) == 1
  {
    var sid := |w.storages|;
    var impl := MakeWrapper(w, value, sid, []);
    var r := World(w.storages + [Storage(value, 0, [])], w.wrappers + [impl]);
    UseCountFresh(w, r, sid);
    (r, |w.wrappers|)
  }

  /** storage().use_count(): how many wrappers hold the storage. Every
      wrapper of the world counts, since none is ever freed. */
  function UseCount(w: World, sid: nat): nat {
    |set i | 0 <= i < |w.wrappers| && w.wrappers[i].storage == sid|
  }

  /** A storage no earlier wrapper holds is held once after one wrapper on
      it is appended. */
  lemma UseCountFresh(w: World, r: World, sid: nat)
    requires Valid(w) && sid == |w.storages|
    requires |r.wrappers| == |w.wrappers| + 1 && r.wrappers[..|w.wrappers|] == w.wrappers
    requires r.wrappers[|w.wrappers|].storage == sid
    ensures UseCount(r, sid) == 1
  {
    var n := |w.wrappers|;
    assert forall i :: 0 <= i < n ==> r.wrappers[i] == w.wrappers[i];
    assert (set i | 0 <= i < |r.wrappers| && r.wrappers[i].storage == sid) == {n};
  }

  /** Appending a wrapper on `sid` adds one holder of `sid`. */
  lemma UseCountAppend(w: World, r: World, sid: nat)
    requires |r.wrappers| == |w.wrappers| + 1 && r.wrappers[..|w.wrappers|] == w.wrappers
    requires r.wrappers[|w.wrappers|].storage == sid
    ensures UseCount(r, sid) == UseCount(w, sid) + 1
  {
    var n := |w.wrappers|;
    var before := set i | 0 <= i < n && w.wrappers[i].storage == sid;
    assert forall i :: 0 <= i < n ==> r.wrappers[i] == w.wrappers[i];
    assert (set i | 0 <= i < |r.wrappers| && r.wrappers[i].storage == sid) == before + {n};
  }

  /** Internal assertions carry the text of their condition. */
  const ViewOfFunctionalMessage := "!at::functionalization::impl::isFunctionalTensor(view_to_wrap)"
  const BaseNotFunctionalMessage := "at::functionalization::impl::isFunctionalTensor(base)"
  /** A plain tensor that carries Functionalize is not a wrapper to take the
      view metas from. */
  const NotAWrapperMessage := "unsafeGetFunctionalWrapper: not a FunctionalTensorWrapper"

  /** The view constructor through create_functional_tensor_with_view_meta:
      the new wrapper copies the base's view metas, appends `meta` (retargeted
      to output `outIdx` when that is not 0), and aliases the base's storage. */
  function CreateView(w: World, view: Tensor, base: Tensor, meta: ViewMeta, outIdx: int): (r: Result<(World, nat)>)
    requires Valid(w) && HandleIn(w, view) && HandleIn(w, base)
    ensures r.Err? <==> IsFunctionalTensor(w, view) || !IsFunctionalTensor(w, base) || !base.Functional?
    ensures r.Err? && !IsFunctionalTensor(w, view) && !IsFunctionalTensor(w, base) ==>
              r.error == InternalAssert(BaseNotFunctionalMessage)
    ensures r.Ok? ==>
              var (w', id) := r.value;
              var b := w.wrappers[base.wrapper];
              && Valid(w') && id == |w.wrappers| && |w'.wrappers| == id + 1
              && w'.storages == w.storages && w'.wrappers[..id] == w.wrappers
              && w'.wrappers[id].value == view
              && w'.wrappers[id].storage == b.storage
              && w'.wrappers[id].viewMetas == b.viewMetas + [if outIdx != 0 then meta.(outIndex := outIdx) else meta]
  {
    if IsFunctionalTensor(w, view) then Err(InternalAssert(ViewOfFunctionalMessage))
    else if !IsFunctionalTensor(w, base) then Err(InternalAssert(BaseNotFunctionalMessage))
    else if !base.Functional? then Err(InternalAssert(NotAWrapperMessage))
    else
      var b := w.wrappers[base.wrapper];
      var m := if outIdx != 0 then meta.(outIndex := outIdx) else meta;
      var impl := MakeWrapper(w, view, b.storage, b.viewMetas + [m]);
      Ok((World(w.storages, w.wrappers + [impl]), |w.wrappers|))
  }

  /** A plain tensor never carries Functionalize unless its own keys do: a
      handle's key set always does. */
  lemma HandlesAreFunctional(w: World, i: nat)
    requires i < |w.wrappers| && HandleIn(w, w.wrappers[i].value)
    requires w.wrappers[i].keySet == WrapperKeySet(KeysOf(w, w.wrappers[i].value))
    ensures IsFunctionalTensor(w, Functional(i))
  {
  }

  // ---------------------------------------------------------------------
  // Generations

  /** is_up_to_date. */
  predicate IsUpToDate(w: World, id: nat)
    requires Valid(w) && id < |w.wrappers|
  {
    w.wrappers[id].generation == w.storages[w.wrappers[id].storage].generation
  }

  /** commit_update: queue the current value with its view metas on the
      storage (add_update counts one more generation), then record that
      generation. */
  function CommitUpdate(w: World, id: nat): (r: World)
    requires Valid(w) && id < |w.wrappers|
    ensures Valid(r) && |r.wrappers| == |w.wrappers| && |r.storages| == |w.storages|
    ensures IsUpToDate(r, id)
    ensures var sid := w.wrappers[id].storage;
            && r.storages[sid].generation == w.storages[sid].generation + 1
            && r.storages[sid].pending == w.storages[sid].pending + [Update(w.wrappers[id].value, w.wrappers[id].viewMetas)]
            && r.storages[sid].base == w.storages[sid].base
    ensures forall s :: 0 <= s < |w.storages| && s != w.wrappers[id].storage ==> r.storages[s] == w.storages[s]
    ensures forall j :: 0 <= j < |w.wrappers| && j != id ==> r.wrappers[j] == w.wrappers[j]
    ensures r.wrappers[id] == w.wrappers[id].(generation := w.storages[w.wrappers[id].storage].generation + 1)
  {
    var impl := w.wrappers[id];
    var st := w.storages[impl.storage];
    var st' := Storage(st.base, st.generation + 1, st.pending + [Update(impl.value, impl.viewMetas)]);
    World(w.storages[impl.storage := st'], w.wrappers[id := impl.(generation := st'.generation)])
  }

  /** A commit through one alias leaves every other alias that was up to
      date out of date, and leaves wrappers of other storages as they were. */
  lemma CommitStalesAliases(w: World, id: nat, j: nat)
    requires Valid(w) && id < |w.wrappers| && j < |w.wrappers| && j != id
    ensures var r := CommitUpdate(w, id);
            && (w.wrappers[j].storage == w.wrappers[id].storage && IsUpToDate(w, j) ==> !IsUpToDate(r, j))
            && (w.wrappers[j].storage != w.wrappers[id].storage ==> (IsUpToDate(r, j) <==> IsUpToDate(w, j)))
  {
  }

  /** mutate_view_meta: one more view meta, and the value viewed through it. */
  function MutateViewMeta(w: World, id: nat, meta: ViewMeta): (r: World)
    requires Valid(w) && id < |w.wrappers|
    ensures Valid(r) && r.storages == w.storages && |r.wrappers| == |w.wrappers|
    ensures |r.wrappers[id].viewMetas| == |w.wrappers[id].viewMetas| + 1
    ensures r.wrappers[id].viewMetas[..|w.wrappers[id].viewMetas|] == w.wrappers[id].viewMetas
    ensures r.wrappers[id].viewMetas[|w.wrappers[id].viewMetas|] == meta
    ensures r.wrappers[id].value == Forward(w.wrappers[id].value, meta)
    ensures forall j :: 0 <= j < |w.wrappers| && j != id ==> r.wrappers[j] == w.wrappers[j]
  {
    var impl := w.wrappers[id];
    World(w.storages, w.wrappers[id := impl.(viewMetas := impl.viewMetas + [meta],
                                             value := Forward(impl.value, meta))])
  }

  /** A view meta's forward function on a plain tensor: same keys, dtype and layout,
      the data viewed. A handle is left as it is. */
  function Forward(t: Tensor, meta: ViewMeta): Tensor {
    if t.Plain? then t.(value := Viewed(t.value, meta)) else t
  }

  /** The forward functions of `metas`, in order. */
  function Replay(t: Tensor, metas: seq<ViewMeta>): (r: Tensor)
    ensures t.Plain? ==> r.Plain? && r.keys == t.keys && r.dtype == t.dtype && r.layout == t.layout
    ensures !t.Plain? ==> r == t
    decreases |metas|
  {
    if |metas| == 0 then t else Replay(Forward(t, metas[0]), metas[1..])
  }

  /** Replaying one more meta views the replayed value once more. */
  lemma {:induction false} ReplaySnoc(t: Tensor, metas: seq<ViewMeta>, meta: ViewMeta)
    ensures Replay(t, metas + [meta]) == Forward(Replay(t, metas), meta)
    decreases |metas|
  {
    if |metas| > 0 {
      assert (metas + [meta])[1..] == metas[1..] + [meta];
      ReplaySnoc(Forward(t, metas[0]), metas[1..], meta);
    }
  }

  // ---------------------------------------------------------------------
  // replace_, maybe_replace_storage

  const ReplaceFunctionalMessage := "!at::functionalization::impl::isFunctionalTensor(other)"

  /** replace_: the new inner value, converted to the wrapper's dtype and
      layout when it has another dtype or another layout. */
  function Replace(w: World, id: nat, other: Tensor): (r: Result<World>)
    requires Valid(w) && id < |w.wrappers| && HandleIn(w, other)
    ensures r.Err? <==> IsFunctionalTensor(w, other)
    ensures r.Ok? ==>
              && Valid(r.value) && r.value.storages == w.storages
              && |r.value.wrappers| == |w.wrappers|
              && (forall j :: 0 <= j < |w.wrappers| && j != id ==> r.value.wrappers[j] == w.wrappers[j])
              && r.value.wrappers[id] == w.wrappers[id].(value := Converted(w, other, w.wrappers[id].dtype, w.wrappers[id].layout))
  {
    if IsFunctionalTensor(w, other) then Err(InternalAssert(ReplaceFunctionalMessage))
    else
      var impl := w.wrappers[id];
      Ok(World(w.storages, w.wrappers[id := impl.(value := Converted(w, other, impl.dtype, impl.layout))]))
  }

  /** `.to(dtype, layout)` when the dtype or the layout differs. */
  function Converted(w: World, t: Tensor, dtype: nat, layout: nat): Tensor
    requires HandleIn(w, t)
  {
    if (DtypeOf(w, t) == dtype && LayoutOf(w, t) == layout) || !t.Plain? then t
    else t.(value := Cast(t.value, dtype, layout), dtype := dtype, layout := layout)
  }

  /** After replace_ with a plain tensor, the wrapper's value has the
      wrapper's own dtype and layout; a value that already had both is
      stored untouched, and one that had not is the same data cast. */
  lemma ReplaceMatchesWrapper(w: World, id: nat, other: Tensor)
    requires Valid(w) && id < |w.wrappers| && HandleIn(w, other) && other.Plain?
    requires !IsFunctionalTensor(w, other)
    ensures Replace(w, id, other).Ok?
    ensures var v := Replace(w, id, other).value.wrappers[id].value;
            var impl := w.wrappers[id];
            && v.Plain? && v.dtype == impl.dtype && v.layout == impl.layout
            && v.keys == other.keys && v.wrappedNumber == other.wrappedNumber
            && (other.dtype == impl.dtype && other.layout == impl.layout ==> v == other)
            && (other.dtype != impl.dtype || other.layout != impl.layout ==>
                  v.value == Cast(other.value, impl.dtype, impl.layout))
  {
  }

  const ResizeViewMessage := "Attempted to resize a view tensor to a larger size. This is not allowed in the functionalization pass"

  /** maybe_replace_storage: only a wrapper that is the sole holder of its
      storage and is not a view gets a fresh storage with base `other`. */
  function MaybeReplaceStorage(w: World, id: nat, other: Tensor): (r: Result<World>)
    requires Valid(w) && id < |w.wrappers| && HandleIn(w, other)
    ensures r.Err? <==> UseCount(w, w.wrappers[id].storage) != 1 || |w.wrappers[id].viewMetas| != 0
    ensures r.Err? ==> r.error == RuntimeError(ResizeViewMessage)
    ensures r.Ok? ==> Valid(r.value) && |r.value.wrappers| == |w.wrappers| && |r.value.storages| == |w.storages| + 1
    ensures r.Ok? ==>
              var impl := r.value.wrappers[id];
              && r.value.storages[..|w.storages|] == w.storages
              && impl.storage == |w.storages|
              && r.value.storages[impl.storage] == Storage(other, 0, [])
              && impl.value == other && impl.generation == 0 && impl.viewMetas == []
              && IsUpToDate(r.value, id)
              && (forall j :: 0 <= j < |w.wrappers| && j != id ==> r.value.wrappers[j] == w.wrappers[j])
  {
    if UseCount(w, w.wrappers[id].storage) != 1 then Err(RuntimeError(ResizeViewMessage))
    else if |w.wrappers[id].viewMetas| != 0 then Err(RuntimeError(ResizeViewMessage))
    else
      var sid := |w.storages|;
      var impl := w.wrappers[id].(storage := sid, value := other, generation := 0);
      Ok(World(w.storages + [Storage(other, 0, [])], w.wrappers[id := impl]))
  }

  /** While a view taken of a wrapper is alive, the wrapper cannot be given
      a larger storage: the view holds the storage too. Wrappers are never
      freed in this model, so the view stays alive in every later world. */
  lemma ViewedBaseCannotResize(w: World, view: Tensor, b: nat, meta: ViewMeta, outIdx: int, other: Tensor)
    requires Valid(w) && HandleIn(w, view) && b < |w.wrappers| && HandleIn(w, other)
    requires CreateView(w, view, Functional(b), meta, outIdx).Ok?
    ensures var (w', _) := CreateView(w, view, Functional(b), meta, outIdx).value;
            MaybeReplaceStorage(w', b, other).Err?
  {
    var (w', id) := CreateView(w, view, Functional(b), meta, outIdx).value;
    var sid := w.wrappers[b].storage;
    UseCountAppend(w, w', sid);
    var holders := set i | 0 <= i < |w.wrappers| && w.wrappers[i].storage == sid;
    assert b in holders;
  }

  // ---------------------------------------------------------------------
  // sync_

  const BaseFunctionalMessage := "!at::functionalization::impl::isFunctionalTensor(t)"

  /** apply_updates: the queued updates are applied to the base and the
      queue emptied. */
  function ApplyUpdates(st: Storage): (r: Storage)
    ensures r.pending == [] && r.generation == st.generation
  {
    if |st.pending| == 0 || !st.base.Plain? then st.(pending := [])
    else st.(base := st.base.(value := Mutated(st.base.value, st.pending)), pending := [])
  }

  /** regenerate_from_base: replay the view metas on the storage's base,
      replace the value with the result, and record the storage's
      generation. */
  function RegenerateFromBase(w: World, id: nat): (r: Result<World>)
    requires Valid(w) && id < |w.wrappers| && HandleIn(w, w.storages[w.wrappers[id].storage].base)
    ensures r.Ok? ==> Valid(r.value) && r.value.storages == w.storages && |r.value.wrappers| == |w.wrappers|
    ensures r.Ok? ==> r.value.wrappers[id].generation == w.storages[w.wrappers[id].storage].generation
  {
    var impl := w.wrappers[id];
    var st := w.storages[impl.storage];
    if IsFunctionalTensor(w, st.base) then Err(InternalAssert(BaseFunctionalMessage))
    else
      var t := Replay(st.base, impl.viewMetas);
      var w1 :- Replace(w, id, t);
      Ok(World(w1.storages, w1.wrappers[id := w1.wrappers[id].(generation := st.generation)]))
  }

  /** The storage bases of a world are plain tensors. */
  predicate PlainBases(w: World) {
    forall s :: 0 <= s < |w.storages| ==> w.storages[s].base.Plain?
  }

  /** sync_: nothing when up to date; otherwise apply the storage's queued
      updates and regenerate from the base. */
  function Sync(w: World, id: nat): (r: Result<World>)
    requires Valid(w) && id < |w.wrappers| && PlainBases(w)
    ensures IsUpToDate(w, id) ==> r == Ok(w)
    ensures r.Err? <==> !IsUpToDate(w, id) && Functionalize in w.storages[w.wrappers[id].storage].base.keys
    ensures r.Ok? ==> Valid(r.value) && PlainBases(r.value) && |r.value.wrappers| == |w.wrappers|
    ensures r.Ok? ==> IsUpToDate(r.value, id)
  {
    if IsUpToDate(w, id) then Ok(w)
    else
      var sid := w.wrappers[id].storage;
      var w1 := World(w.storages[sid := ApplyUpdates(w.storages[sid])], w.wrappers);
      RegenerateFromBase(w1, id)
  }

  /** After a sync that had work to do, the value is the base with the
      queued updates applied, viewed through every view meta, and converted
      to the wrapper's dtype and layout; no update is left pending. */
  lemma SyncRegenerates(w: World, id: nat)
    requires Valid(w) && id < |w.wrappers| && PlainBases(w)
    requires !IsUpToDate(w, id) && Sync(w, id).Ok?
    ensures var impl := w.wrappers[id];
            var r := Sync(w, id).value;
            var base := ApplyUpdates(w.storages[impl.storage]).base;
            && r.wrappers[id].value == Converted(w, Replay(base, impl.viewMetas), impl.dtype, impl.layout)
            && r.wrappers[id].viewMetas == impl.viewMetas
            && r.storages[impl.storage].pending == []
            && r.storages[impl.storage].generation == w.storages[impl.storage].generation
  {
  }

  /** A second sync has nothing left to do. */
  lemma SyncIdempotent(w: World, id: nat)
    requires Valid(w) && id < |w.wrappers| && PlainBases(w) && Sync(w, id).Ok?
    ensures Sync(Sync(w, id).value, id) == Sync(w, id)
  {
  }

  /** sync(t): wrapped numbers and non-functional tensors are left alone. */
  function SyncTensor(w: World, t: Tensor): (r: Result<World>)
    requires Valid(w) && HandleIn(w, t) && PlainBases(w)
    ensures !t.Functional? || !IsFunctionalTensor(w, t) ==> r == Ok(w)
    ensures t.Functional? && IsUpToDate(w, t.wrapper) ==> r == Ok(w)
    ensures t.Functional? && IsFunctionalTensor(w, t) ==> r == Sync(w, t.wrapper)
    ensures r.Ok? ==> Valid(r.value) && PlainBases(r.value) && |r.value.wrappers| == |w.wrappers|
  {
    if t.Plain? && t.wrappedNumber then Ok(w)
    else if !IsFunctionalTensor(w, t) || !t.Functional? then Ok(w)
    else Sync(w, t.wrapper)
  }

  // ---------------------------------------------------------------------
  // Lists of tensors

  const MixedListMessage := "Functionalization encountered a list of tensors where some are functional"
                            + "and some are not, which is not currently unsupported."

  /** The flags of a list agree with its first. */
  predicate Uniform(flags: seq<bool>) {
    forall i :: 0 <= i < |flags| ==> flags[i] == flags[0]
  }

  /** isFunctionalTensor on a list, given each element's answer: false for an
      empty list, an internal assertion when the answers differ, otherwise
      the common answer. */
  method UniformFlag(flags: seq<bool>) returns (r: Result<bool>)
    ensures |flags| == 0 ==> r == Ok(false)
    ensures r.Err? <==> !Uniform(flags)
    ensures r.Err? ==> r.error == InternalAssert(MixedListMessage)
    ensures r.Ok? && |flags| > 0 ==> r.value == flags[0] && forall i :: 0 <= i < |flags| ==> flags[i] == r.value
  {
    if |flags| == 0 {
      return Ok(false);
    }
    var anyFunctional := flags[0];
    var i := 1;
    while i < |flags|
      invariant 1 <= i <= |flags|
      invariant forall j :: 0 <= j < i ==> flags[j] == anyFunctional
    {
      if flags[i] != anyFunctional {
        return Err(InternalAssert(MixedListMessage));
      }
      i := i + 1;
    }
    return Ok(anyFunctional);
  }

  /** The answer for each element of a list. */
  function FunctionalFlags(w: World, ts: seq<Tensor>): (flags: seq<bool>)
    requires forall i :: 0 <= i < |ts| ==> HandleIn(w, ts[i])
    ensures |flags| == |ts| && forall i :: 0 <= i < |ts| ==> flags[i] == IsFunctionalTensor(w, ts[i])
  {
    seq(|ts|, i requires 0 <= i < |ts| => IsFunctionalTensor(w, ts[i]))
  }

  /** isFunctionalTensor on an optional tensor: false when absent. */
  function OptionalFlags(w: World, ts: seq<Option<Tensor>>): (flags: seq<bool>)
    requires forall i :: 0 <= i < |ts| ==> ts[i].Some? ==> HandleIn(w, ts[i].value)
    ensures |flags| == |ts|
    ensures forall i :: 0 <= i < |ts| ==> flags[i] == (ts[i].Some? && IsFunctionalTensor(w, ts[i].value))
  {
    seq(|ts|, i requires 0 <= i < |ts| => ts[i].Some? && IsFunctionalTensor(w, ts[i].value))
  }

  /** isFunctionalTensor on a list of tensors. */
  method IsFunctionalList(w: World, ts: seq<Tensor>) returns (r: Result<bool>)
    requires forall i :: 0 <= i < |ts| ==> HandleIn(w, ts[i])
    ensures |ts| == 0 ==> r == Ok(false)
    ensures r.Err? <==> exists i, j :: 0 <= i < |ts| && 0 <= j < |ts|
                                         && IsFunctionalTensor(w, ts[i]) && !IsFunctionalTensor(w, ts[j])
    ensures r.Ok? && |ts| > 0 ==> r.value == IsFunctionalTensor(w, ts[0])
  {
    var flags := FunctionalFlags(w, ts);
    r := UniformFlag(flags);
    if !Uniform(flags) {
      var k :| 0 <= k < |flags| && flags[k] != flags[0];
      if flags[0] {
        assert IsFunctionalTensor(w, ts[0]) && !IsFunctionalTensor(w, ts[k]);
      } else {
        assert IsFunctionalTensor(w, ts[k]) && !IsFunctionalTensor(w, ts[0]);
      }
    }
  }

  // ---------------------------------------------------------------------
  // Wrapping and unwrapping

  /** to_functional_tensor: wrapped numbers pass through; anything else is
      wrapped in a new FunctionalTensorWrapper. */
  function ToFunctional(w: World, t: Tensor): (r: (World, Tensor))
    requires Valid(w) && HandleIn(w, t)
    ensures Valid(r.0) && HandleIn(r.0, r.1)
    ensures |r.0.wrappers| >= |w.wrappers| && r.0.wrappers[..|w.wrappers|] == w.wrappers
    ensures t.Plain? && t.wrappedNumber ==> r == (w, t)
  {
    if t.Plain? && t.wrappedNumber then (w, t)
    else
      var (w', id) := NewWrapper(w, t);
      (w', Functional(id))
  }

  /** from_functional_tensor: wrapped numbers pass through; a handle gives
      its wrapper's value, and a plain tensor is returned as it is. */
  function FromFunctional(w: World, t: Tensor): (r: Tensor)
    requires HandleIn(w, t)
  {
    if t.Plain? && t.wrappedNumber then t
    else if t.Functional? then w.wrappers[t.wrapper].value
    else t
  }

  /** Unwrapping a freshly wrapped tensor gives it back. */
  lemma FromToFunctional(w: World, t: Tensor)
    requires Valid(w) && HandleIn(w, t)
    ensures var (w', f) := ToFunctional(w, t);
            FromFunctional(w', f) == t
    ensures t.Plain? && !t.wrappedNumber ==> ToFunctional(w, t).1.Functional?
  {
  }

  /** to_functional_tensor on a list, element by element. */
  function ToFunctionalList(w: World, ts: seq<Tensor>): (r: (World, seq<Tensor>))
    requires Valid(w) && forall i :: 0 <= i < |ts| ==> HandleIn(w, ts[i])
    ensures Valid(r.0) && |r.1| == |ts|
    ensures |r.0.wrappers| >= |w.wrappers| && r.0.wrappers[..|w.wrappers|] == w.wrappers
    ensures forall i :: 0 <= i < |r.1| ==> HandleIn(r.0, r.1[i])
    decreases |ts|
  {
    if |ts| == 0 then (w, [])
    else
      var (w1, t1) := ToFunctional(w, ts[0]);
      var rest := ts[1..];
      forall i | 0 <= i < |rest|
        ensures HandleIn(w1, rest[i])
      {
        assert rest[i] == ts[i + 1] && HandleIn(w, ts[i + 1]);
      }
      var (w2, ts2) := ToFunctionalList(w1, rest);
      assert w2.wrappers[..|w1.wrappers|] == w1.wrappers;
      (w2, [t1] + ts2)
  }

  /** from_functional_tensor on a list, element by element. */
  function FromFunctionalList(w: World, ts: seq<Tensor>): (r: seq<Tensor>)
    requires forall i :: 0 <= i < |ts| ==> HandleIn(w, ts[i])
    ensures |r| == |ts| && forall i :: 0 <= i < |ts| ==> r[i] == FromFunctional(w, ts[i])
  {
    seq(|ts|, i requires 0 <= i < |ts| => FromFunctional(w, ts[i]))
  }

  /** A later world keeps what an earlier world's handles unwrap to. */
  lemma FromFunctionalStable(w: World, w': World, t: Tensor)
    requires HandleIn(w, t) && |w'.wrappers| >= |w.wrappers| && w'.wrappers[..|w.wrappers|] == w.wrappers
    ensures HandleIn(w', t) && FromFunctional(w', t) == FromFunctional(w, t)
  {
    if t.Functional? {
      assert w'.wrappers[t.wrapper] == w'.wrappers[..|w.wrappers|][t.wrapper];
    }
  }

  /** Unwrapping a freshly wrapped list gives it back. */
  lemma {:induction false} FromToFunctionalList(w: World, ts: seq<Tensor>)
    requires Valid(w) && forall i :: 0 <= i < |ts| ==> HandleIn(w, ts[i])
    ensures var (w', fs) := ToFunctionalList(w, ts);
            FromFunctionalList(w', fs) == ts
    decreases |ts|
  {
    if |ts| > 0 {
      var (w1, t1) := ToFunctional(w, ts[0]);
      var rest := ts[1..];
      assert forall i :: 0 <= i < |rest| ==> rest[i] == ts[i + 1];
      var (w2, ts2) := ToFunctionalList(w1, rest);
      FromToFunctionalList(w1, rest);
      FromToFunctional(w, ts[0]);
      FromFunctionalStable(w1, w2, t1);
      var (w', fs) := ToFunctionalList(w, ts);
      assert fs == [t1] + ts2 && w' == w2;
      assert forall i :: 1 <= i < |fs| ==> FromFunctional(w', fs[i]) == ts[i] by {
        forall i | 1 <= i < |fs|
          ensures FromFunctional(w', fs[i]) == ts[i]
        {
          assert fs[i] == ts2[i - 1];
          assert FromFunctionalList(w2, ts2)[i - 1] == rest[i - 1];
        }
      }
    }
  }
}

=== FILE: nonzero.dfy ===
/** The index arithmetic of nonzero on the CPU (nonzero_out_cpu) and the
    unrolled count (count_nonzero_impl): per-thread counts turned into an
    inclusive prefix sum, the mixed-radix decomposition of a thread's first
    element, the odometer step that advances that index, and the 4-way
    unrolled count. A tensor is the row-major sequence of its elements; an
    index is a sequence of digits, one per dimension, most significant
    first. */
module Nonzero {

  // ---------------------------------------------------------------------
  // Mixed-radix numbers

  /** The number of elements of a shape. */
  function Prod(r: seq<int>): int {
    if |r| == 0 then 1 else r[0] * Prod(r[1..])
  }

  predicate Positive(r: seq<int>) {
    forall i :: 0 <= i < |r| ==> r[i] > 0
  }

  /** d is a valid index into a tensor of shape r. */
  predicate Digits(d: seq<int>, r: seq<int>) {
    |d| == |r| && forall i :: 0 <= i < |d| ==> 0 <= d[i] < r[i]
  }

  /** The row-major position of index d in shape r. The first radix is
      never read, which lets a carry digit of any radix sit in front. */
  function Val(d: seq<int>, r: seq<int>): int
    requires |d| == |r|
  {
    if |d| == 0 then 0 else d[0] * Prod(r[1..]) + Val(d[1..], r[1..])
  }

  /** Quotient and remainder by a positive weight are unique. */
  lemma DivModUnique(a1: int, v1: int, a2: int, v2: int, p: int)
    requires p > 0 && 0 <= v1 < p && 0 <= v2 < p && a1 * p + v1 == a2 * p + v2
    ensures a1 == a2 && v1 == v2
  {
    if a1 < a2 {
      MulLe(a1 + 1, a2, p);
    } else if a2 < a1 {
      MulLe(a2 + 1, a1, p);
    }
  }

  lemma MulLe(a: int, b: int, p: int)
    requires a <= b && p >= 0
    ensures a * p <= b * p
  {
  }

  /** Splitting x into x / s and x % s, weighted by p. */
  lemma DivModWeighted(x: int, s: int, p: int)
    requires s > 0
    ensures x * p == (x / s) * (s * p) + (x % s) * p
  {
    assert x == (x / s) * s + x % s;
    assert x * p == ((x / s) * s + x % s) * p;
  }

  lemma {:induction false} ProdPositive(r: seq<int>)
    requires Positive(r)
    ensures Prod(r) > 0
  {
    if |r| > 0 {
      ProdPositive(r[1..]);
    }
  }

  /** A valid index names a position inside the tensor. */
  lemma {:induction false} ValBounds(d: seq<int>, r: seq<int>)
    requires Digits(d, r)
    ensures 0 <= Val(d, r) < Prod(r)
  {
    if |d| > 0 {
      ValBounds(d[1..], r[1..]);
      var p := Prod(r[1..]);
      MulLe(0, d[0], p);
      MulLe(d[0] + 1, r[0], p);
    }
  }

  lemma ValZeros(d: seq<int>, r: seq<int>)
    requires |d| == |r| && forall i :: 0 <= i < |d| ==> d[i] == 0
    ensures Val(d, r) == 0
  {
  }

  /** Changing digit k by x - d[k] moves the position by that many times
      the weight of digit k. */
  lemma {:induction false} ValUpdate(d: seq<int>, r: seq<int>, k: nat, x: int)
    requires |d| == |r| && k < |d|
    ensures Val(d[k := x], r) == Val(d, r) + (x - d[k]) * Prod(r[k + 1..])
  {
    if k > 0 {
      ValUpdate(d[1..], r[1..], k - 1, x);
      assert d[k := x][1..] == d[1..][k - 1 := x];
      assert r[1..][k..] == r[k + 1..];
    }
  }

  /** The weight of digit k is the radix of digit k + 1 times its weight. */
  lemma ProdStep(r: seq<int>, k: nat)
    requires k < |r|
    ensures Prod(r[k..]) == r[k] * Prod(r[k + 1..])
  {
    assert r[k..][1..] == r[k + 1..];
  }

  /** Positions have one index each: Val is injective on valid indices. */
  lemma {:induction false} ValInjective(d1: seq<int>, d2: seq<int>, r: seq<int>)
    requires Digits(d1, r) && Digits(d2, r) && Val(d1, r) == Val(d2, r)
    ensures d1 == d2
  {
    if |r| > 0 {
      ValBounds(d1[1..], r[1..]);
      ValBounds(d2[1..], r[1..]);
      DivModUnique(d1[0], Val(d1[1..], r[1..]), d2[0], Val(d2[1..], r[1..]), Prod(r[1..]));
      ValInjective(d1[1..], d2[1..], r[1..]);
      assert d1 == [d1[0]] + d1[1..];
      assert d2 == [d2[0]] + d2[1..];
    }
  }

  /** `sizes` with the -1 sentinel in front, as the loop keeps it. */
  function Sentinel(sizes: seq<int>): (sz: seq<int>)
    ensures |sz| == |sizes| + 1 && sz[0] == -1 && sz[1..] == sizes
  {
    [-1] + sizes
  }

  /** The carry slot in front adds its value times the tensor's size. */
  lemma ValSentinel(d: seq<int>, sizes: seq<int>)
    requires |d| == |sizes| + 1
    ensures Val(d, Sentinel(sizes)) == d[0] * Prod(sizes) + Val(d[1..], sizes)
  {
  }

  /** With the carry slot empty, the index is the position. */
  lemma ValNoCarry(d: seq<int>, sizes: seq<int>)
    requires |d| == |sizes| + 1 && d[0] == 0
    ensures Val(d, Sentinel(sizes)) == Val(d[1..], sizes)
  {
    ValSentinel(d, sizes);
  }

  /** A valid index below the carry slot: the slot holds the number of
      whole wraps, so a position below the size means an empty slot. */
  lemma CarryEmpty(d: seq<int>, sizes: seq<int>)
    requires |d| == |sizes| + 1 && d[0] >= 0 && Digits(d[1..], sizes)
    requires Val(d, Sentinel(sizes)) < Prod(sizes)
    ensures d[0] == 0
  {
    ValSentinel(d, sizes);
    ValBounds(d[1..], sizes);
    if d[0] != 0 {
      MulLe(1, d[0], Prod(sizes));
    }
  }

  /** Setting digit k from its radix to 0 and bumping digit k - 1 keeps the
      position. */
  lemma CarryStep(d: seq<int>, r: seq<int>, k: nat)
    requires |d| == |r| && 0 < k < |d| && d[k] == r[k]
    ensures Val(d[k := 0][k - 1 := d[k - 1] + 1], r) == Val(d, r)
  {
    var p := Prod(r[k + 1..]);
    ProdStep(r, k);
    ValUpdate(d, r, k, 0);
    var d1 := d[k := 0];
    ValUpdate(d1, r, k - 1, d1[k - 1] + 1);
    assert (0 - d[k]) * p == -(r[k] * p);
    assert (d1[k - 1] + 1 - d1[k - 1]) * Prod(r[k..]) == Prod(r[k..]);
  }

  /** Bumping the last digit moves the position by one. */
  lemma BumpLast(d: seq<int>, r: seq<int>)
    requires |d| == |r| > 0
    ensures Val(d[|d| - 1 := d[|d| - 1] + 1], r) == Val(d, r) + 1
  {
    ValUpdate(d, r, |d| - 1, d[|d| - 1] + 1);
    assert r[|d|..] == [];
  }

  /** Moving idx % radix into the empty digit k leaves idx / radix for
      the digits above. */
  lemma DecomposeStep(d: seq<int>, r: seq<int>, k: nat, idx: int)
    requires |d| == |r| && k < |d| && r[k] > 0 && d[k] == 0
    ensures Val(d[k := idx % r[k]], r) + (idx / r[k]) * Prod(r[k..]) == Val(d, r) + idx * Prod(r[k + 1..])
  {
    ProdStep(r, k);
    ValUpdate(d, r, k, idx % r[k]);
    DivModWeighted(idx, r[k], Prod(r[k + 1..]));
  }

  /** The starting index of a thread: the mixed-radix decomposition of its
      first position `begin`, one slot in front for the carry. */
  method StartIndex(begin: int, sizes: seq<int>) returns (cur: seq<int>)
    requires Positive(sizes) && 0 <= begin < Prod(sizes)
    ensures |cur| == |sizes| + 1 && cur[0] == 0
    ensures Digits(cur[1..], sizes) && Val(cur[1..], sizes) == begin
  {
    var ndim := |sizes|;
    if begin == 0 {
      cur := seq(ndim + 1, _ => 0);
      ValZeros(cur, Sentinel(sizes));
      ValZeros(cur[1..], sizes);
    } else {
      var idx, k;
      cur, idx, k := DecomposeFrom(begin, sizes);
      SentinelDigits(cur, sizes);
      if k == 0 {
        assert Sentinel(sizes)[1..] == sizes;
        DecomposeDone(cur, sizes, idx, begin);
      }
    }
    ValNoCarry(cur, sizes);
  }

  /** The decomposition loop: from the last digit towards the first, each
      digit takes the remainder by its radix, until nothing is left or the
      digits run out. */
  method DecomposeFrom(begin: int, sizes: seq<int>) returns (cur: seq<int>, idx: int, k: nat)
    requires Positive(sizes) && 0 < begin
    ensures k <= |sizes| && idx >= 0 && |cur| == |sizes| + 1
    ensures idx == 0 || k == 0
    ensures forall j :: 0 <= j <= k ==> cur[j] == 0
    ensures forall j :: k < j <= |sizes| ==> 0 <= cur[j] < Sentinel(sizes)[j]
    ensures Val(cur, Sentinel(sizes)) + idx * Prod(Sentinel(sizes)[k + 1..]) == begin
  {
    var ndim := |sizes|;
    var sz := Sentinel(sizes);
    cur := seq(ndim + 1, _ => 0);
    ValZeros(cur, sz);
    idx := begin;
    k := ndim;
    assert sz[k + 1..] == [];
    while idx > 0 && k > 0
      invariant k <= ndim && Decomposing(cur, sz, k, idx, begin)
      decreases k
    {
      DecomposingStep(cur, sizes, k, idx, begin);
      cur := cur[k := idx % sz[k]];
      idx := idx / sz[k];
      k := k - 1;
    }
  }

  /** The loop's state: digits above k are final, digits up to k are still
      empty, and idx holds what the empty digits still have to take. */
  predicate Decomposing(cur: seq<int>, sz: seq<int>, k: nat, idx: int, begin: int) {
    && |cur| == |sz| && k < |sz| && idx >= 0
    && (forall j :: 0 <= j <= k ==> cur[j] == 0)
    && (forall j :: k < j < |sz| ==> 0 <= cur[j] < sz[j])
    && Val(cur, sz) + idx * Prod(sz[k + 1..]) == begin
  }

  /** One turn of the decomposition loop keeps its state. */
  lemma DecomposingStep(cur: seq<int>, sizes: seq<int>, k: nat, idx: int, begin: int)
    requires Positive(sizes) && 0 < k && Decomposing(cur, Sentinel(sizes), k, idx, begin)
    ensures var sz := Sentinel(sizes);
            Decomposing(cur[k := idx % sz[k]], sz, k - 1, idx / sz[k], begin)
  {
    var sz := Sentinel(sizes);
    assert sz[k] == sizes[k - 1] > 0;
    var c := cur[k := idx % sz[k]];
    DecomposeStep(cur, sz, k, idx);
    assert Val(c, sz) + (idx / sz[k]) * Prod(sz[k..]) == begin;
    forall j | k - 1 < j < |sz|
      ensures 0 <= c[j] < sz[j]
    {
      if j > k {
        assert c[j] == cur[j];
      }
    }
  }

  /** Digits below the sentinel radices, with the carry slot empty, are
      digits of the sizes. */
  lemma SentinelDigits(cur: seq<int>, sizes: seq<int>)
    requires |cur| == |sizes| + 1
    requires forall j :: 0 < j <= |sizes| ==> 0 <= cur[j] < Sentinel(sizes)[j]
    ensures Digits(cur[1..], sizes)
  {
    var sz := Sentinel(sizes);
    forall j | 0 <= j < |sizes|
      ensures 0 <= cur[1..][j] < sizes[j]
    {
      assert cur[1..][j] == cur[j + 1] && sz[j + 1] == sizes[j];
    }
  }

  /** Once every digit is filled, nothing is left over, since begin is
      below the tensor's size. */
  lemma DecomposeDone(cur: seq<int>, sizes: seq<int>, idx: int, begin: int)
    requires |cur| == |sizes| + 1 && cur[0] == 0 && Digits(cur[1..], sizes) && Positive(sizes)
    requires idx >= 0 && Val(cur, Sentinel(sizes)) + idx * Prod(sizes) == begin < Prod(sizes)
    ensures idx == 0
  {
    ValNoCarry(cur, sizes);
    ValBounds(cur[1..], sizes);
    if idx > 0 {
      MulLe(1, idx, Prod(sizes));
    }
  }

  /** The odometer step: bump the last digit and carry while a digit
      reaches its radix. The sentinel -1 in front of `sizes` stops the carry
      at the extra slot, which absorbs the carry out of the whole index. */
  method Advance(cur: seq<int>, sizes: seq<int>) returns (next: seq<int>)
    requires |cur| == |sizes| + 1 && cur[0] >= 0 && Digits(cur[1..], sizes)
    ensures |next| == |cur| && next[0] >= cur[0] && Digits(next[1..], sizes)
    ensures Val(next, Sentinel(sizes)) == Val(cur, Sentinel(sizes)) + 1
  {
    var ndim := |sizes|;
    var sz := Sentinel(sizes);
    var k := ndim;
    BumpLast(cur, sz);
    next := cur[k := cur[k] + 1];
    while next[k] == sz[k]
      invariant 0 <= k <= ndim && |next| == ndim + 1
      invariant next[0] == cur[0] + (if k == 0 then 1 else 0)
      invariant forall j :: 0 < j < k ==> next[j] == cur[j]
      invariant 0 < k ==> 0 < next[k] <= sz[k]
      invariant forall j :: k < j <= ndim ==> next[j] == 0
      invariant Val(next, sz) == Val(cur, sz) + 1
      decreases k
    {
      CarryStep(next, sz, k);
      next := next[k := 0][k - 1 := next[k - 1] + 1];
      k := k - 1;
    }
    forall j | 0 <= j < ndim
      ensures 0 <= next[1..][j] < sizes[j]
    {
      assert next[1..][j] == next[j + 1];
    }
  }

  // ---------------------------------------------------------------------
  // Counting

  function Ind(v: int): int {
    if v != 0 then 1 else 0
  }

  /** The reference count: the nonzero elements of a plain scan. */
  function Count(s: seq<int>): (c: nat)
    ensures c <= |s|
  {
    if |s| == 0 then 0 else Count(s[..|s| - 1]) + Ind(s[|s| - 1])
  }

  lemma CountStep(s: seq<int>, i: nat)
    requires i < |s|
    ensures Count(s[..i + 1]) == Count(s[..i]) + Ind(s[i])
  {
    assert s[..i + 1][..i] == s[..i];
  }

  /** Four elements at once, as the unrolled loop takes them. */
  lemma CountFour(s: seq<int>, i: nat)
    requires i + 3 < |s|
    ensures Count(s[..i + 4]) == Count(s[..i]) + Ind(s[i]) + Ind(s[i + 1]) + Ind(s[i + 2]) + Ind(s[i + 3])
  {
    CountStep(s, i);
    CountStep(s, i + 1);
    CountStep(s, i + 2);
    CountStep(s, i + 3);
  }

  lemma CountRangeStep(s: seq<int>, lo: nat, i: nat)
    requires lo <= i < |s|
    ensures Count(s[lo..i + 1]) == Count(s[lo..i]) + Ind(s[i])
  {
    assert s[lo..i + 1][..i - lo] == s[lo..i];
  }

  lemma {:induction false} CountConcat(a: seq<int>, b: seq<int>)
    ensures Count(a + b) == Count(a) + Count(b)
    decreases |b|
  {
    if |b| > 0 {
      CountConcat(a, b[..|b| - 1]);
      assert (a + b)[..|a + b| - 1] == a + b[..|b| - 1];
    } else {
      assert a + b == a;
    }
  }

  /** count_nonzero_impl's inner loop over n elements: four counters
      filled four elements at a time, the remainder counted into the first,
      then the four summed. */
  method CountNonzeroUnrolled(vals: seq<int>) returns (count: int)
    ensures count == Count(vals)
  {
    var n := |vals|;
    var nz0, nz1, nz2, nz3 := 0, 0, 0, 0;
    var i := 0;
    while i + 3 < n
      invariant 0 <= i <= n
      invariant nz0 + nz1 + nz2 + nz3 == Count(vals[..i])
    {
      CountFour(vals, i);
      if vals[i] != 0 { nz0 := nz0 + 1; }
      if vals[i + 1] != 0 { nz1 := nz1 + 1; }
      if vals[i + 2] != 0 { nz2 := nz2 + 1; }
      if vals[i + 3] != 0 { nz3 := nz3 + 1; }
      i := i + 4;
    }
    while i < n
      invariant 0 <= i <= n
      invariant nz0 + nz1 + nz2 + nz3 == Count(vals[..i])
    {
      CountStep(vals, i);
      if vals[i] != 0 { nz0 := nz0 + 1; }
      i := i + 1;
    }
    nz0 := nz0 + nz1 + nz2 + nz3;
    assert vals[..n] == vals;
    count := nz0;
  }

  /** Sum of a list of counts. */
  function Sum(s: seq<int>): int {
    if |s| == 0 then 0 else Sum(s[..|s| - 1]) + s[|s| - 1]
  }

  /** Pass 1's second half: thread_count_nonzero holds 0 followed by the
      per-thread counts and becomes their inclusive prefix sum in place. */
  method PrefixSums(counts: seq<int>) returns (r: seq<int>)
    ensures |r| == |counts| + 1
    ensures forall i :: 0 <= i <= |counts| ==> r[i] == Sum(counts[..i])
    ensures r[|counts|] == Sum(counts)
  {
    r := [0] + counts;
    var i := 1;
    while i < |r|
      invariant 1 <= i <= |r| == |counts| + 1
      invariant forall j :: 0 <= j < i ==> r[j] == Sum(counts[..j])
      invariant forall j :: i <= j < |r| ==> r[j] == counts[j - 1]
    {
      assert counts[..i][..i - 1] == counts[..i - 1];
      r := r[i := r[i] + r[i - 1]];
      i := i + 1;
    }
    assert counts[..|counts|] == counts;
  }

  /** Threads take consecutive ranges that cover the tensor. */
  predicate Partition(bounds: seq<int>, n: int) {
    |bounds| >= 1 && bounds[0] == 0 && bounds[|bounds| - 1] == n
    && forall t, u :: 0 <= t <= u < |bounds| ==> bounds[t] <= bounds[u]
  }

  /** With per-thread counts over a partition, the prefix sum at thread t
      is the number of nonzeros before the thread's range: thread t writes
      its rows from there, and the last entry is the total. */
  lemma {:induction false} PrefixSumCountsBefore(vals: seq<int>, bounds: seq<int>, counts: seq<int>, t: nat)
    requires Partition(bounds, |vals|) && |counts| == |bounds| - 1 && t < |bounds|
    requires forall u :: 0 <= u < |counts| ==> counts[u] == Count(vals[bounds[u]..bounds[u + 1]])
    ensures 0 <= bounds[t] <= |vals|
    ensures Sum(counts[..t]) == Count(vals[..bounds[t]])
  {
    if t == 0 {
      assert vals[..0] == [];
    } else {
      PrefixSumCountsBefore(vals, bounds, counts, t - 1);
      assert counts[..t][..t - 1] == counts[..t - 1];
      assert vals[..bounds[t]] == vals[..bounds[t - 1]] + vals[bounds[t - 1]..bounds[t]];
      CountConcat(vals[..bounds[t - 1]], vals[bounds[t - 1]..bounds[t]]);
    }
  }

  /** Pass 2 for one thread: from the decomposed start, scan the range,
      write the index of every nonzero element and advance the odometer.
      The rows are exactly the nonzero positions of the range, in order, and
      there are as many as pass 1 counted, which is what the closing
      internal assertion checks. */
  method WriteRows(vals: seq<int>, sizes: seq<int>, begin: int, end: int) returns (rows: seq<seq<int>>)
    requires Positive(sizes) && |vals| == Prod(sizes) && 0 <= begin < end <= |vals|
    ensures |rows| == Count(vals[begin..end])
    ensures forall i :: 0 <= i < |rows| ==>
              Digits(rows[i], sizes) && begin <= Val(rows[i], sizes) < end && vals[Val(rows[i], sizes)] != 0
    ensures forall i, j :: 0 <= i < j < |rows| ==>
              |rows[i]| == |rows[j]| == |sizes| && Val(rows[i], sizes) < Val(rows[j], sizes)
  {
    var sz := Sentinel(sizes);
    var cur := StartIndex(begin, sizes);
    ValNoCarry(cur, sizes);
    rows := [];
    var p := begin;
    assert vals[begin..p] == [];
    while p < end
      invariant begin <= p <= end && |cur| == |sizes| + 1 && cur[0] >= 0
      invariant Digits(cur[1..], sizes) && Val(cur, sz) == p
      invariant |rows| == Count(vals[begin..p])
      invariant forall i :: 0 <= i < |rows| ==>
                  Digits(rows[i], sizes) && begin <= Val(rows[i], sizes) < p && vals[Val(rows[i], sizes)] != 0
      invariant forall i, j :: 0 <= i < j < |rows| ==>
                  |rows[i]| == |rows[j]| == |sizes| && Val(rows[i], sizes) < Val(rows[j], sizes)
    {
      CarryEmpty(cur, sizes);
      ValNoCarry(cur, sizes);
      CountRangeStep(vals, begin, p);
      if vals[p] != 0 {
        rows := rows + [cur[1..]];
      }
      cur := Advance(cur, sizes);
      p := p + 1;
    }
  }
}

=== FILE: profiler_events.dfy ===
/** Exported profiler events and the per-kind field normaliser
    (EventFieldsVisitor) plus the conversion of drained records into
    exported events (materializeOpEvents) and of device activities
    returned by the trace library (addTraceEvents). */
module ProfilerEvents {
  import opened Wrappers
  import opened Strings

  /** The annotation keys the profiler writes; KeyText gives their exported spelling. */
  datatype AnnotationKey =
    | CallStack | ModuleHierarchy | InputDims | InputType | FwdThreadId | SequenceNumber
    | BackendName | DeviceTypeKey | DeviceId | Addr | Bytes | TotalAllocated | TotalReserved
    | PythonId | PythonParentId | PythonThread | PythonModuleId | PythonCallerId

  function KeyText(k: AnnotationKey): string {
    match k
    case CallStack => "Call stack"
    case ModuleHierarchy => "Module Hierarchy"
    case InputDims => "Input Dims"
    case InputType => "Input type"
    case FwdThreadId => "Fwd thread id"
    case SequenceNumber => "Sequence number"
    case BackendName => "Backend"
    case DeviceTypeKey => "Device Type"
    case DeviceId => "Device Id"
    case Addr => "Addr"
    case Bytes => "Bytes"
    case TotalAllocated => "Total Allocated"
    case TotalReserved => "Total Reserved"
    case PythonId => "Python id"
    case PythonParentId => "Python parent id"
    case PythonThread => "Python thread"
    case PythonModuleId => "Python module id"
    case PythonCallerId => "python_caller_id"
  }

  /** A key/value annotation attached to an exported activity. */
  type Annotation = (AnnotationKey, string)

  /** Rendering and lookup helpers that live outside this file; the model
      takes them as given functions. */
  datatype Externals = Externals(
    shapesToStr: seq<seq<int>> -> string,
    dtypesToStr: seq<string> -> string,
    stacksToStr: (seq<string>, string) -> string,
    computeFlops: (string, seq<(string, int)>) -> int,
    deviceTypeFromActivity: ActivityType -> int)

  /** The optional symbolication callback: (debug handle, stack, modules) to
      the rewritten (stack, modules). */
  type PostProcess = Option<(int, seq<string>, seq<string>) -> (seq<string>, seq<string>)>

  /** Activity kinds of the trace library that the profiler tells apart. */
  datatype ActivityType =
    | CpuOp | CpuInstantEvent | UserAnnotation | PythonFunction
    | GpuMemcpy | GpuMemset | ConcurrentKernel | CudaRuntime | OtherActivity(code: int)

  datatype TorchOpFields = TorchOpFields(
    endTid: int, scope: int, debugHandle: int, isAsync: bool,
    shapes: seq<seq<int>>, dtypes: seq<string>, extraArgs: seq<(string, int)>,
    cudaEventStart: Option<int>, cudaEventEnd: Option<int>,
    sequenceNumber: int, forwardTid: int,
    jitStack: seq<string>, jitModules: seq<string>)

  datatype BackendFields = BackendFields(
    scope: int, debugHandle: int, backend: string,
    jitStack: seq<string>, jitModules: seq<string>)

  /** An allocation (positive size) or free (negative size); totals of -1 mean unknown. */
  datatype AllocationFields = AllocationFields(
    ptr: int, allocSize: int, totalAllocated: int, totalReserved: int,
    deviceType: int, deviceIndex: int)

  /** The tagged variant every drained record carries. */
  datatype ExtraFields =
    | TorchOp(op: TorchOpFields)
    | Backend(backend: BackendFields)
    | Allocation(alloc: AllocationFields)

  /** One drained record, times already converted to wall-clock nanoseconds. */
  datatype Record = Record(
    name: string, kinetoType: ActivityType, startTimeNs: int, endTimeNs: int,
    finished: bool, correlationId: int, deviceType: int, startTid: int,
    parentExpired: bool, extra: ExtraFields)

  /** An exported event; a field is Some only once something has set it. */
  datatype KinetoEvent = KinetoEvent(
    name: string,
    startUs: Option<int>, durationUs: Option<int>, correlationId: Option<int>,
    deviceType: Option<int>, startThreadId: Option<int>, endThreadId: Option<int>,
    scope: Option<int>, debugHandle: Option<int>, isAsync: Option<bool>,
    shapes: Option<seq<seq<int>>>, dtypes: Option<seq<string>>, flops: Option<int>,
    cudaEventStart: Option<int>, cudaEventEnd: Option<int>,
    sequenceNr: Option<int>, fwdThreadId: Option<int>,
    stack: Option<seq<string>>, moduleHierarchy: Option<seq<string>>,
    backend: Option<string>, deviceIndex: Option<int>, nBytes: Option<int>,
    deviceResourceId: Option<int>, activityType: Option<ActivityType>,
    linkedCorrelationId: Option<int>)
  {
    predicate HasStack() { stack.Some? }
  }

  /** A freshly emplaced event: only its name is known. */
  function EmptyEvent(name: string): KinetoEvent {
    KinetoEvent(name, None, None, None, None, None, None, None, None, None, None, None,
                None, None, None, None, None, None, None, None, None, None, None, None, None)
  }

  /** A CPU activity handed to the trace library. */
  datatype CpuActivity = CpuActivity(
    name: string, activityType: ActivityType, correlationId: int,
    startTime: int, endTime: int, metadata: seq<Annotation>)

  /** Whether some annotation carries key k. */
  predicate HasKey(annotations: seq<Annotation>, k: AnnotationKey) {
    exists i :: 0 <= i < |annotations| && annotations[i].0 == k
  }

  lemma HasKeyAppend(a: seq<Annotation>, b: seq<Annotation>)
    ensures forall k :: HasKey(a + b, k) <==> HasKey(a, k) || HasKey(b, k)
  {
    forall k
      ensures HasKey(a + b, k) <==> HasKey(a, k) || HasKey(b, k)
    {
      if HasKey(a + b, k) {
        var i :| 0 <= i < |a + b| && (a + b)[i].0 == k;
        if i >= |a| {
          assert b[i - |a|].0 == k;
        }
      }
      if HasKey(b, k) {
        var i :| 0 <= i < |b| && b[i].0 == k;
        assert (a + b)[|a| + i].0 == k;
      }
      if HasKey(a, k) {
        var i :| 0 <= i < |a| && a[i].0 == k;
        assert (a + b)[i].0 == k;
      }
    }
  }

  /** Nanoseconds to microseconds with C++ int64 division, which rounds toward zero. */
  function NsToUs(ns: int): int {
    if ns >= 0 then ns / 1000 else -((-ns) / 1000)
  }

  lemma NsToUsMonotone(a: int, c: int)
    ensures a <= c ==> NsToUs(a) <= NsToUs(c)
  {
  }

  /** The stack and module hierarchy after the symbolication callback, if
      any, has rewritten them. */
  function JitTexts(debugHandle: int, jitStack: seq<string>, jitModules: seq<string>, post: PostProcess)
    : (seq<string>, seq<string>)
  {
    if post.Some? then post.value(debugHandle, jitStack, jitModules) else (jitStack, jitModules)
  }

  /** The JIT annotations: the call stack and the module hierarchy, each
      only when non-empty. */
  function JitAnnotations(debugHandle: int, jitStack: seq<string>, jitModules: seq<string>,
                          post: PostProcess, ext: Externals): (r: seq<Annotation>)
    ensures var (stack, modules) := JitTexts(debugHandle, jitStack, jitModules, post);
            forall k :: HasKey(r, k) <==> (k == CallStack && |stack| > 0) || (k == ModuleHierarchy && |modules| > 0)
  {
    var (stack, modules) := JitTexts(debugHandle, jitStack, jitModules, post);
    var a1 := if |stack| > 0 then [(CallStack, ext.stacksToStr(stack, ";"))] else [];
    var a2 := if |modules| > 0 then [(ModuleHierarchy, ext.stacksToStr(modules, "."))] else [];
    HasKeyAppend(a1, a2);
    assert |stack| > 0 ==> a1[0].0 == CallStack;
    assert |modules| > 0 ==> a2[0].0 == ModuleHierarchy;
    a1 + a2
  }

  /** handleJIT: run the symbolication callback, then attach the stack and
      the module hierarchy when they are non-empty. */
  function HandleJit(ev: KinetoEvent, debugHandle: int, jitStack: seq<string>,
                     jitModules: seq<string>, post: PostProcess): (r: KinetoEvent)
    ensures var (stack, modules) := JitTexts(debugHandle, jitStack, jitModules, post);
            && r.stack == (if |stack| > 0 then Some(stack) else ev.stack)
            && r.moduleHierarchy == (if |modules| > 0 then Some(modules) else ev.moduleHierarchy)
    ensures r == ev.(stack := r.stack, moduleHierarchy := r.moduleHierarchy)
  {
    var (stack, modules) := JitTexts(debugHandle, jitStack, jitModules, post);
    var ev1 := if |stack| > 0 then ev.(stack := Some(stack)) else ev;
    if |modules| > 0 then ev1.(moduleHierarchy := Some(modules)) else ev1
  }

  /** The visitor for an operator record: the operator's fields overwrite
      the event's, the lists only when non-empty, the forward link only when
      there is a sequence number. */
  function VisitTorchOp(name: string, ev: KinetoEvent, op: TorchOpFields, post: PostProcess,
                        ext: Externals): (r: (KinetoEvent, seq<Annotation>))
    ensures r.0.endThreadId == Some(op.endTid) && r.0.scope == Some(op.scope)
    ensures r.0.debugHandle == Some(op.debugHandle) && r.0.isAsync == Some(op.isAsync)
    ensures r.0.shapes == (if |op.shapes| > 0 then Some(op.shapes) else ev.shapes)
    ensures r.0.dtypes == (if |op.dtypes| > 0 then Some(op.dtypes) else ev.dtypes)
    ensures r.0.flops.Some? <==> |op.extraArgs| > 0 || ev.flops.Some?
    ensures |op.extraArgs| > 0 ==> r.0.flops == Some(ext.computeFlops(name, op.extraArgs))
    ensures |op.extraArgs| == 0 ==> r.0.flops == ev.flops
    ensures r.0.cudaEventStart == op.cudaEventStart && r.0.cudaEventEnd == op.cudaEventEnd
    ensures op.sequenceNumber >= 0 ==> r.0.sequenceNr == Some(op.sequenceNumber) && r.0.fwdThreadId == Some(op.forwardTid)
    ensures op.sequenceNumber < 0 ==> r.0.sequenceNr == ev.sequenceNr && r.0.fwdThreadId == ev.fwdThreadId
    ensures var (stack, modules) := JitTexts(op.debugHandle, op.jitStack, op.jitModules, post);
            && r.0.stack == (if |stack| > 0 then Some(stack) else ev.stack)
            && r.0.moduleHierarchy == (if |modules| > 0 then Some(modules) else ev.moduleHierarchy)
    // name, times, ids, backend and device fields are left as they were
    ensures r.0 == ev.(stack := r.0.stack, moduleHierarchy := r.0.moduleHierarchy,
                       endThreadId := r.0.endThreadId, scope := r.0.scope,
                       debugHandle := r.0.debugHandle, isAsync := r.0.isAsync,
                       shapes := r.0.shapes, dtypes := r.0.dtypes, flops := r.0.flops,
                       cudaEventStart := r.0.cudaEventStart, cudaEventEnd := r.0.cudaEventEnd,
                       sequenceNr := r.0.sequenceNr, fwdThreadId := r.0.fwdThreadId)
    ensures r.1 == TorchOpAnnotations(op, post, ext)
  {
    var ev1 := HandleJit(ev, op.debugHandle, op.jitStack, op.jitModules, post);
    var ev2 := ev1.(
      endThreadId := Some(op.endTid), scope := Some(op.scope),
      debugHandle := Some(op.debugHandle), isAsync := Some(op.isAsync),
      shapes := if |op.shapes| > 0 then Some(op.shapes) else ev1.shapes,
      dtypes := if |op.dtypes| > 0 then Some(op.dtypes) else ev1.dtypes,
      flops := if |op.extraArgs| > 0 then Some(ext.computeFlops(name, op.extraArgs)) else ev1.flops,
      cudaEventStart := op.cudaEventStart, cudaEventEnd := op.cudaEventEnd,
      sequenceNr := if op.sequenceNumber >= 0 then Some(op.sequenceNumber) else ev1.sequenceNr,
      fwdThreadId := if op.sequenceNumber >= 0 then Some(op.forwardTid) else ev1.fwdThreadId);
    (ev2, TorchOpAnnotations(op, post, ext))
  }

  /** An operator's annotations: the JIT ones, the inputs, the forward link. */
  function TorchOpAnnotations(op: TorchOpFields, post: PostProcess, ext: Externals): seq<Annotation> {
    JitAnnotations(op.debugHandle, op.jitStack, op.jitModules, post, ext)
    + InputAnnotations(op, ext) + ForwardAnnotations(op)
  }

  /** The operator's annotations: input dims and types exactly when their
      lists are non-empty, and the forward thread and sequence number last
      exactly when there is a sequence number. */
  lemma TorchOpAnnotationKeys(op: TorchOpFields, post: PostProcess, ext: Externals)
    ensures var a := TorchOpAnnotations(op, post, ext);
            && (HasKey(a, InputDims) <==> |op.shapes| > 0)
            && (HasKey(a, InputType) <==> |op.dtypes| > 0)
            && (HasKey(a, FwdThreadId) <==> op.sequenceNumber >= 0)
            && (HasKey(a, SequenceNumber) <==> op.sequenceNumber >= 0)
            && (op.sequenceNumber >= 0 ==>
                  |a| >= 2 && a[|a| - 2..] == [(FwdThreadId, IntToString(op.forwardTid)),
                                               (SequenceNumber, IntToString(op.sequenceNumber))])
  {
    var jit := JitAnnotations(op.debugHandle, op.jitStack, op.jitModules, post, ext);
    var inputs := InputAnnotations(op, ext);
    var fwd := ForwardAnnotations(op);
    HasKeyAppend(jit, inputs);
    HasKeyAppend(jit + inputs, fwd);
    var a := jit + inputs + fwd;
    if op.sequenceNumber >= 0 {
      assert a[|a| - 2..] == fwd;
    }
  }

  /** InputDims then InputType, each only when its list is non-empty. */
  function InputAnnotations(op: TorchOpFields, ext: Externals): (r: seq<Annotation>)
    ensures forall k :: HasKey(r, k) <==>
              (k == InputDims && |op.shapes| > 0) || (k == InputType && |op.dtypes| > 0)
  {
    var dims := if |op.shapes| > 0 then [(InputDims, ext.shapesToStr(op.shapes))] else [];
    var types := if |op.dtypes| > 0 then [(InputType, ext.dtypesToStr(op.dtypes))] else [];
    HasKeyAppend(dims, types);
    assert |op.shapes| > 0 ==> dims[0].0 == InputDims;
    assert |op.dtypes| > 0 ==> types[0].0 == InputType;
    dims + types
  }

  /** The forward-link annotations of an operator that has a sequence number. */
  function ForwardAnnotations(op: TorchOpFields): (r: seq<Annotation>)
    ensures forall k :: HasKey(r, k) <==>
              op.sequenceNumber >= 0 && (k == FwdThreadId || k == SequenceNumber)
  {
    if op.sequenceNumber >= 0 then
      var r := [(FwdThreadId, IntToString(op.forwardTid)),
                (SequenceNumber, IntToString(op.sequenceNumber))];
      assert r[0].0 == FwdThreadId && r[1].0 == SequenceNumber;
      r
    else []
  }

  /** The visitor for a backend record: reported as synchronous on its thread. */
  function VisitBackend(ev: KinetoEvent, b: BackendFields, post: PostProcess, ext: Externals)
    : (r: (KinetoEvent, seq<Annotation>))
    ensures r.0.endThreadId == ev.startThreadId
    ensures r.0.scope == Some(b.scope) && r.0.debugHandle == Some(b.debugHandle)
    ensures r.0.backend == Some(b.backend)
    ensures var (stack, modules) := JitTexts(b.debugHandle, b.jitStack, b.jitModules, post);
            && r.0.stack == (if |stack| > 0 then Some(stack) else ev.stack)
            && r.0.moduleHierarchy == (if |modules| > 0 then Some(modules) else ev.moduleHierarchy)
    ensures r.0 == ev.(stack := r.0.stack, moduleHierarchy := r.0.moduleHierarchy,
                       endThreadId := r.0.endThreadId, scope := r.0.scope,
                       debugHandle := r.0.debugHandle, backend := r.0.backend)
    ensures HasKey(r.1, BackendName) <==> |b.backend| > 0
    ensures |b.backend| > 0 ==> r.1[|r.1| - 1] == (BackendName, "\"" + b.backend + "\"")
    ensures var jit := JitAnnotations(b.debugHandle, b.jitStack, b.jitModules, post, ext);
            |r.1| == |jit| + (if |b.backend| > 0 then 1 else 0) && r.1[..|jit|] == jit
  {
    var ev1 := HandleJit(ev, b.debugHandle, b.jitStack, b.jitModules, post);
    var jit := JitAnnotations(b.debugHandle, b.jitStack, b.jitModules, post, ext);
    var ev2 := ev1.(endThreadId := ev1.startThreadId, scope := Some(b.scope),
                    debugHandle := Some(b.debugHandle), backend := Some(b.backend));
    var tail := if |b.backend| > 0 then [(BackendName, "\"" + b.backend + "\"")] else [];
    HasKeyAppend(jit, tail);
    assert |b.backend| > 0 ==> tail[0].0 == BackendName;
    (ev2, jit + tail)
  }

  /** The visitor for an allocation record: its annotations replace any others. */
  function VisitAllocation(ev: KinetoEvent, a: AllocationFields): (r: (KinetoEvent, seq<Annotation>))
    ensures r.0.deviceIndex == Some(a.deviceIndex) && r.0.nBytes == Some(a.allocSize)
    ensures r.0 == ev.(deviceIndex := r.0.deviceIndex, nBytes := r.0.nBytes)
    ensures r.1 == AllocationAnnotations(a)
  {
    (ev.(deviceIndex := Some(a.deviceIndex), nBytes := Some(a.allocSize)), AllocationAnnotations(a))
  }

  /** An allocation's annotations: device type, device id, address and size
      first, then each total only when it is known (non-negative). */
  function AllocationAnnotations(a: AllocationFields): (r: seq<Annotation>)
    ensures |r| >= 4
    ensures r[..4] == [(DeviceTypeKey, IntToString(a.deviceType)),
                       (DeviceId, IntToString(a.deviceIndex)),
                       (Addr, IntToString(a.ptr)),
                       (Bytes, IntToString(a.allocSize))]
    ensures |r| == 4 + (if a.totalAllocated >= 0 then 1 else 0) + (if a.totalReserved >= 0 then 1 else 0)
    ensures HasKey(r, TotalAllocated) <==> a.totalAllocated >= 0
    ensures HasKey(r, TotalReserved) <==> a.totalReserved >= 0
    ensures a.totalAllocated >= 0 ==> r[4] == (TotalAllocated, IntToString(a.totalAllocated))
    ensures a.totalReserved >= 0 ==> r[|r| - 1] == (TotalReserved, IntToString(a.totalReserved))
  {
    var base := [(DeviceTypeKey, IntToString(a.deviceType)),
                 (DeviceId, IntToString(a.deviceIndex)),
                 (Addr, IntToString(a.ptr)),
                 (Bytes, IntToString(a.allocSize))];
    var allocTotal := if a.totalAllocated >= 0 then [(TotalAllocated, IntToString(a.totalAllocated))] else [];
    var reserved := if a.totalReserved >= 0 then [(TotalReserved, IntToString(a.totalReserved))] else [];
    HasKeyAppend(base, allocTotal);
    HasKeyAppend(base + allocTotal, reserved);
    assert a.totalAllocated >= 0 ==> allocTotal[0].0 == TotalAllocated;
    assert a.totalReserved >= 0 ==> reserved[0].0 == TotalReserved;
    base + allocTotal + reserved
  }

  /** EventFieldsVisitor: dispatch on the record's kind. */
  function VisitFields(name: string, ev: KinetoEvent, extra: ExtraFields, post: PostProcess,
                       ext: Externals): (KinetoEvent, seq<Annotation>)
  {
    match extra
    case TorchOp(op) => VisitTorchOp(name, ev, op, post, ext)
    case Backend(b) => VisitBackend(ev, b, post, ext)
    case Allocation(a) => VisitAllocation(ev, a)
  }

  function StartUs(e: Record): int { NsToUs(e.startTimeNs) }
  function EndUs(e: Record): int { NsToUs(e.endTimeNs) }

  /** The common fields every finished record exports, before the visitor runs. */
  function BaseEvent(e: Record): KinetoEvent {
    EmptyEvent(e.name).(startUs := Some(StartUs(e)), durationUs := Some(EndUs(e) - StartUs(e)),
                        correlationId := Some(e.correlationId), deviceType := Some(e.deviceType),
                        startThreadId := Some(e.startTid))
  }

  /** The exported event and CPU activity of one finished record. */
  function Export(e: Record, post: PostProcess, ext: Externals): (r: (KinetoEvent, CpuActivity))
    ensures r.0.name == e.name && r.0.startUs == Some(StartUs(e))
    ensures r.0.durationUs == Some(EndUs(e) - StartUs(e))
    ensures r.0.correlationId == Some(e.correlationId) && r.0.startThreadId == Some(e.startTid)
    ensures e.endTimeNs >= e.startTimeNs ==> r.0.durationUs.value >= 0
    ensures r.1.startTime == StartUs(e) && r.1.endTime == EndUs(e)
    ensures r.1.name == e.name && r.1.correlationId == e.correlationId
    ensures r.1.metadata == VisitFields(e.name, BaseEvent(e), e.extra, post, ext).1
  {
    NsToUsMonotone(e.startTimeNs, e.endTimeNs);
    var (ev, annotations) := VisitFields(e.name, BaseEvent(e), e.extra, post, ext);
    (ev, CpuActivity(e.name, e.kinetoType, e.correlationId, StartUs(e), EndUs(e), annotations))
  }

  function FinishedRecords(records: seq<Record>): (r: seq<Record>)
    ensures forall i :: 0 <= i < |r| ==> r[i].finished
  {
    if |records| == 0 then []
    else (if records[0].finished then [records[0]] else []) + FinishedRecords(records[1..])
  }

  function ExpiredParentRecords(records: seq<Record>): (r: seq<Record>)
    ensures forall i :: 0 <= i < |r| ==> r[i].parentExpired
  {
    if |records| == 0 then []
    else (if records[0].parentExpired then [records[0]] else []) + ExpiredParentRecords(records[1..])
  }

  datatype Materialized = Materialized(
    events: seq<KinetoEvent>, activities: seq<CpuActivity>, eventTree: seq<Record>)

  /** materializeOpEvents: every finished record becomes one exported event
      and one CPU activity, in record order; every record whose parent has
      expired becomes a root of the event tree. */
  function MaterializeOpEvents(records: seq<Record>, post: PostProcess, ext: Externals)
    : (r: Materialized)
    ensures |r.events| == |r.activities| == |FinishedRecords(records)|
    ensures r.eventTree == ExpiredParentRecords(records)
  {
    if |records| == 0 then Materialized([], [], [])
    else
      var rest := MaterializeOpEvents(records[1..], post, ext);
      var e := records[0];
      var tree := (if e.parentExpired then [e] else []) + rest.eventTree;
      if e.finished then
        var (ev, act) := Export(e, post, ext);
        Materialized([ev] + rest.events, [act] + rest.activities, tree)
      else
        Materialized(rest.events, rest.activities, tree)
  }

  /** materializeOpEvents exports the finished records one for one, in order. */
  lemma {:induction false} MaterializedExports(records: seq<Record>, post: PostProcess, ext: Externals)
    ensures ExportsInOrder(records, post, ext)
  {
    if |records| > 0 {
      MaterializedExports(records[1..], post, ext);
      if records[0].finished {
        ExportsInOrderCons(records, post, ext);
      } else {
        assert FinishedRecords(records) == FinishedRecords(records[1..]);
      }
    }
  }

  /** The i-th event and activity are the export of the i-th finished record. */
  predicate ExportsInOrder(records: seq<Record>, post: PostProcess, ext: Externals) {
    var r := MaterializeOpEvents(records, post, ext);
    forall i :: 0 <= i < |r.events| ==>
      (r.events[i], r.activities[i]) == Export(FinishedRecords(records)[i], post, ext)
  }

  /** A finished first record is materialized in front of the rest. */
  lemma MaterializeCons(records: seq<Record>, post: PostProcess, ext: Externals)
    requires |records| > 0 && records[0].finished
    ensures var r := MaterializeOpEvents(records, post, ext);
            var rest := MaterializeOpEvents(records[1..], post, ext);
            var x := Export(records[0], post, ext);
            && r.events == [x.0] + rest.events && r.activities == [x.1] + rest.activities
            && FinishedRecords(records) == [records[0]] + FinishedRecords(records[1..])
  {
  }

  /** A finished first record exports first, ahead of the rest in order. */
  lemma ExportsInOrderCons(records: seq<Record>, post: PostProcess, ext: Externals)
    requires |records| > 0 && records[0].finished && ExportsInOrder(records[1..], post, ext)
    ensures ExportsInOrder(records, post, ext)
  {
    var r := MaterializeOpEvents(records, post, ext);
    var rest := MaterializeOpEvents(records[1..], post, ext);
    var fin := FinishedRecords(records);
    var finRest := FinishedRecords(records[1..]);
    MaterializeCons(records, post, ext);
    forall i | 0 < i < |r.events|
      ensures (r.events[i], r.activities[i]) == Export(fin[i], post, ext)
    {
      assert r.events[i] == rest.events[i - 1] && r.activities[i] == rest.activities[i - 1];
      assert fin[i] == finRest[i - 1];
    }
  }

  /** Every exported event of a well-timed record has a non-negative duration. */
  lemma MaterializedDurationsNonNegative(records: seq<Record>, post: PostProcess, ext: Externals)
    requires forall i :: 0 <= i < |records| ==> records[i].endTimeNs >= records[i].startTimeNs
    ensures forall ev :: ev in MaterializeOpEvents(records, post, ext).events ==>
              ev.durationUs.Some? && ev.durationUs.value >= 0
  {
    var r := MaterializeOpEvents(records, post, ext);
    var fin := FinishedRecords(records);
    FinishedRecordsAreRecords(records);
    MaterializedExports(records, post, ext);
    forall ev | ev in r.events
      ensures ev.durationUs.Some? && ev.durationUs.value >= 0
    {
      var i :| 0 <= i < |r.events| && r.events[i] == ev;
      assert fin[i] in records;
    }
  }

  lemma {:induction false} FinishedRecordsAreRecords(records: seq<Record>)
    ensures forall e :: e in FinishedRecords(records) ==> e in records
  {
    if |records| > 0 {
      FinishedRecordsAreRecords(records[1..]);
    }
  }

  /** A device-side activity as the trace library reports it. */
  datatype TraceActivity = TraceActivity(
    name: string, activityType: ActivityType, deviceId: int, resourceId: int,
    timestamp: int, duration: int, linkedCorrelationId: Option<int>)

  /** Activities of these kinds were produced by this profiler and are skipped. */
  predicate AlreadyProcessed(t: ActivityType) {
    t == CpuOp || t == CpuInstantEvent || t == UserAnnotation || t == PythonFunction
  }

  function DeviceEvent(a: TraceActivity, ext: Externals): KinetoEvent {
    EmptyEvent(a.name).(deviceIndex := Some(a.deviceId), deviceResourceId := Some(a.resourceId),
                        startUs := Some(a.timestamp), durationUs := Some(a.duration),
                        activityType := Some(a.activityType),
                        linkedCorrelationId := a.linkedCorrelationId,
                        deviceType := Some(ext.deviceTypeFromActivity(a.activityType)))
  }

  /** addTraceEvents: one exported event per non-null activity that this
      profiler did not produce itself, in trace order. */
  function AddTraceEvents(trace: seq<Option<TraceActivity>>, ext: Externals): (r: seq<KinetoEvent>)
    ensures |r| <= |trace|
    ensures forall ev :: ev in r ==> ev.activityType.Some? && !AlreadyProcessed(ev.activityType.value)
    ensures (forall i :: 0 <= i < |trace| ==> trace[i].None?) ==> r == []
  {
    if |trace| == 0 then []
    else
      var head := if trace[0].Some? && !AlreadyProcessed(trace[0].value.activityType)
                  then [DeviceEvent(trace[0].value, ext)] else [];
      head + AddTraceEvents(trace[1..], ext)
  }

  /** Whether addTraceEvents exports this trace entry. */
  predicate Kept(a: Option<TraceActivity>) {
    a.Some? && !AlreadyProcessed(a.value.activityType)
  }

  /** How many entries of `trace` are exported. */
  function KeptCount(trace: seq<Option<TraceActivity>>): nat {
    if |trace| == 0 then 0 else (if Kept(trace[0]) then 1 else 0) + KeptCount(trace[1..])
  }

  /** addTraceEvents is complete and ordered: it yields exactly one event
      per exported entry, and the i-th entry, when exported, is the event
      at the position counting the exported entries before it. */
  lemma {:induction false} AddTraceEventsExports(trace: seq<Option<TraceActivity>>, ext: Externals)
    ensures var r := AddTraceEvents(trace, ext);
            && |r| == KeptCount(trace)
            && forall i :: 0 <= i < |trace| && Kept(trace[i]) ==>
                 KeptCount(trace[..i]) < |r| && r[KeptCount(trace[..i])] == DeviceEvent(trace[i].value, ext)
  {
    if |trace| > 0 {
      AddTraceEventsExports(trace[1..], ext);
      var r := AddTraceEvents(trace, ext);
      var rest := AddTraceEvents(trace[1..], ext);
      var h := if Kept(trace[0]) then 1 else 0;
      assert |r| == h + |rest|;
      forall i | 0 <= i < |trace| && Kept(trace[i])
        ensures KeptCount(trace[..i]) < |r| && r[KeptCount(trace[..i])] == DeviceEvent(trace[i].value, ext)
      {
        if i > 0 {
          assert trace[..i][1..] == trace[1..][..i - 1];
          assert KeptCount(trace[..i]) == h + KeptCount(trace[1..][..i - 1]);
          assert trace[i] == trace[1..][i - 1];
        } else {
          assert KeptCount(trace[..0]) == 0;
        }
      }
    }
  }
}

=== FILE: profiler_session.dfy ===
/** The profiler's session lifecycle: correlation ids, the on-demand global
    state slot (GlobalStateManager), enabling and disabling the profiler,
    the record-function callbacks, the events reported from outside an
    operator, and the CUDA timer's sentinel. The thread-local debug-info
    slot, the global slot and the callback registry are fields of one
    explicit World value. */
module ProfilerSession {
  import opened Wrappers
  import opened ProfilerEvents
  import opened PythonStackMerge

  /** The messages raised by the session operations (condition texts for internal asserts and dereferences). */
  const NullGlobalMessage := "Global state ptr cannot be null before resetting"
  const NoStateMessage := "Expected profiler state set"
  const NoContextMessage := "kineto_ctx_ptr != nullptr"
  const AlreadyEnabledMessage := "Profiler is already enabled on this thread"
  const NoActivitiesMessage := "No activities specified for Kineto profiler"
  /** The check on the profiler state has no message of its own, so c10
      reports the stringified condition. */
  const NotKinetoMessage := "Expected config.state == ProfilerState::KINETO || "
                            + "config.state == ProfilerState::KINETO_GPU_FALLBACK || "
                            + "config.state == ProfilerState::KINETO_ONDEMAND to be true, but got false."
  const OndemandCpuMessage := "Ondemand profiling must enable CPU tracing"
  const NvtxPostProcessMessage := "NVTX does not support post processing callback."
  const OndemandPostProcessMessage := "On-demand profiling does not support post processing callback"
  const PostProcessDerefMessage := "state_ptr->setEventPostProcessingCallback"
  const NotRunningMessage := "Can't disable Kineto profiler when it's not running"
  const ConfigDerefMessage := "state_ptr->config()"

  /** 2^64: the range of the uint64 correlation counter. */
  const U64: int := 0x1_0000_0000_0000_0000

  datatype ProfilerState = Disabled | Cpu | Cuda | Nvtx | Kineto | KinetoGpuFallback | KinetoOndemand

  /** The activity kinds a session may trace. */
  datatype ActivityKind = CpuActivities | CudaActivities

  datatype Config = Config(state: ProfilerState, reportInputShapes: bool, profileMemory: bool, withStack: bool)

  /** A backend event reported from outside the dispatcher. */
  datatype BackendEvent = BackendEvent(startUs: int, endUs: int, debugHandle: int, scope: int,
                                       name: string, backend: string)

  /** What the record queue stamps on a record it takes: the approximate
      time in nanoseconds, the thread, and whether no enclosing record is
      alive (the record then becomes a root of the event tree). */
  datatype Stamp = Stamp(timeNs: int, tid: int, root: bool)

  /** An operator as onFunctionEnter sees it: its name and its fields (the
      end thread is written on exit). */
  datatype OpStart = OpStart(name: string, fields: TorchOpFields)

  /** KinetoThreadLocalState: the configuration, the activities traced, the
      start time, the callback handle once registered, the record queue in
      the order records were taken, and the optional post-processing
      callback. */
  datatype Session = Session(
    config: Config, activities: set<ActivityKind>, startTimeUs: int, callback: Option<nat>,
    records: seq<Record>, post: PostProcess)

  function NewSession(config: Config, activities: set<ActivityKind>, startTimeUs: int): Session {
    Session(config, activities, startTimeUs, None, [], None)
  }

  /** Appends a record to the queue. */
  function Queue(s: Session, e: Record): (r: Session)
    ensures r.records == s.records + [e] && r == s.(records := r.records)
  {
    s.(records := s.records + [e])
  }

  // The shells below are the record queue's; collection.cpp is not part of
  // this model. What this file fixes is the variant and its fields, the
  // correlation id of an operator, and when a record is closed.

  /** begin_op's record: an open CPU operator carrying its correlation id. */
  function OpRecord(op: OpStart, stamp: Stamp, id: nat): Record {
    Record(op.name, CpuOp, stamp.timeNs, stamp.timeNs, false, id, 0, stamp.tid, stamp.root, TorchOp(op.fields))
  }

  /** onFunctionExit's write through the observer context: the end time and
      end thread, after which the record is finished. */
  function CloseRecord(e: Record, stamp: Stamp): (r: Record)
    ensures r.finished && r.endTimeNs == stamp.timeNs
    ensures r.extra.TorchOp? == e.extra.TorchOp?
    ensures e.extra.TorchOp? ==> r.extra.op == e.extra.op.(endTid := stamp.tid)
    ensures r == e.(endTimeNs := r.endTimeNs, finished := true, extra := r.extra)
  {
    e.(endTimeNs := stamp.timeNs, finished := true,
       extra := if e.extra.TorchOp? then TorchOp(e.extra.op.(endTid := stamp.tid)) else e.extra)
  }

  /** emplace_allocation_event's record: an instant event at the report time. */
  function AllocationRecord(a: AllocationFields, stamp: Stamp): Record {
    Record("[memory]", CpuInstantEvent, stamp.timeNs, stamp.timeNs, true, 0, a.deviceType, stamp.tid,
           stamp.root, Allocation(a))
  }

  /** emplace_backend_event's record: the reported interval, in nanoseconds. */
  function BackendRecord(e: BackendEvent, stamp: Stamp): Record {
    Record(e.name, UserAnnotation, e.startUs * 1000, e.endUs * 1000, true, 0, 0, stamp.tid, stamp.root,
           Backend(BackendFields(e.scope, e.debugHandle, e.backend, [], [])))
  }

  /** tracePython: a stack was asked for and CPU activities are traced. */
  predicate TracePython(s: Session) {
    s.config.withStack && CpuActivities in s.activities
  }

  /** The thread-local profiler slot, the on-demand global slot, the
      registered callbacks (with the next fresh handle), whether the Python
      tracer and the trace library are running, and the correlation counter
      with the two correlation-id stacks. */
  datatype World = World(
    tls: Option<Session>, global: Option<Session>, callbacks: set<nat>, nextHandle: nat,
    pythonTracing: bool, tracing: bool, nextCorrelationId: nat,
    correlationStack: seq<nat>, userCorrelationStack: seq<nat>)

  /** Handles are fresh: every registered handle is below the next one. */
  predicate FreshHandles(w: World) {
    forall h :: h in w.callbacks ==> h < w.nextHandle
  }

  /** The counter as it starts: the static atomic holds 1. */
  function InitialWorld(): (w: World)
    ensures FreshHandles(w) && w.tls.None? && w.global.None?
  {
    World(None, None, {}, 0, false, false, 1, [], [])
  }

  // ---------------------------------------------------------------------
  // Correlation ids

  /** next_correlation_id: hands out the counter and post-increments the
      uint64, wrapping at 2^64. */
  function NextCorrelationId(c: nat): (r: (nat, nat))
    requires c < U64
    ensures r.0 == c && r.1 < U64
    ensures r.1 == (c + 1) % U64
  {
    (c, if c + 1 == U64 then 0 else c + 1)
  }

  /** The ids handed out by n consecutive calls from counter value c. */
  function IssueIds(c: nat, n: nat): (ids: seq<nat>)
    requires c < U64
    ensures |ids| == n
    decreases n
  {
    if n == 0 then [] else [NextCorrelationId(c).0] + IssueIds(NextCorrelationId(c).1, n - 1)
  }

  /** Below the wrap, the calls return c, c + 1, c + 2, ... */
  lemma {:induction false} IssuedIdsCount(c: nat, n: nat)
    requires c + n <= U64
    ensures forall i :: 0 <= i < n ==> IssueIds(c, n)[i] == c + i
    decreases n
  {
    if n > 0 {
      if n > 1 {
        IssuedIdsCount(c + 1, n - 1);
      }
      var ids := IssueIds(c, n);
      forall i | 0 <= i < n
        ensures ids[i] == c + i
      {
        if i > 0 {
          assert ids[i] == IssueIds(c + 1, n - 1)[i - 1];
        }
      }
    }
  }

  /** From the initial counter, the ids start at 1, strictly increase, and
      no two calls return the same id (below 2^64 - 1 calls). */
  lemma CorrelationIdsIncrease(n: nat)
    requires n < U64
    ensures n > 0 ==> IssueIds(1, n)[0] == 1
    ensures forall i, j :: 0 <= i < j < n ==> IssueIds(1, n)[i] < IssueIds(1, n)[j]
  {
    IssuedIdsCount(1, n);
  }

  /** The counter does wrap: the call after 2^64 - 1 returns 0. */
  lemma CorrelationIdsWrap()
    ensures IssueIds(U64 - 1, 2) == [U64 - 1, 0]
  {
  }

  // ---------------------------------------------------------------------
  // GlobalStateManager

  /** init: installs a state only when the slot is empty (otherwise it just
      warns and keeps the existing state). */
  function GlobalInit(w: World, s: Session): (r: World)
    ensures r.global.Some?
    ensures w.global.Some? ==> r == w
    ensures w.global.None? ==> r.global == Some(s) && r == w.(global := r.global)
  {
    if w.global.Some? then w else w.(global := Some(s))
  }

  /** pop: the state must be present; it is returned and the slot emptied. */
  function GlobalPop(w: World): (r: Result<(World, Session)>)
    ensures r.Ok? <==> w.global.Some?
    ensures r.Err? ==> r.error.InternalAssert?
    ensures r.Ok? ==> r.value.0.global.None? && Some(r.value.1) == w.global
    ensures r.Ok? ==> r.value.0 == w.(global := None)
  {
    if w.global.None? then Err(InternalAssert(NullGlobalMessage))
    else Ok((w.(global := None), w.global.value))
  }

  /** A second init keeps the first state; pop then hands back the first. */
  lemma InitTwiceKeepsFirst(w: World, s1: Session, s2: Session)
    requires w.global.None?
    ensures GlobalInit(GlobalInit(w, s1), s2) == GlobalInit(w, s1)
    ensures GlobalPop(GlobalInit(GlobalInit(w, s1), s2)) == Ok((w, s1))
  {
  }

  // ---------------------------------------------------------------------
  // Callbacks

  /** pushProfilingCallbacks: registers a fresh callback handle and stores
      it in the thread-local or the global state, which must exist. */
  function PushProfilingCallbacks(w: World, useGlobal: bool): (r: Result<World>)
    ensures r.Ok? <==> (if useGlobal then w.global.Some? else w.tls.Some?)
    ensures r.Err? ==> r.error.InternalAssert?
    ensures r.Ok? ==> r.value.callbacks == w.callbacks + {w.nextHandle} && r.value.nextHandle == w.nextHandle + 1
    ensures r.Ok? && useGlobal ==>
              r.value.global == Some(w.global.value.(callback := Some(w.nextHandle))) && r.value.tls == w.tls
    ensures r.Ok? && !useGlobal ==>
              r.value.tls == Some(w.tls.value.(callback := Some(w.nextHandle))) && r.value.global == w.global
    ensures FreshHandles(w) && r.Ok? ==> FreshHandles(r.value)
  {
    var slot := if useGlobal then w.global else w.tls;
    if slot.None? then Err(InternalAssert(NoStateMessage))
    else
      var s := Some(slot.value.(callback := Some(w.nextHandle)));
      var w1 := w.(callbacks := w.callbacks + {w.nextHandle}, nextHandle := w.nextHandle + 1);
      Ok(if useGlobal then w1.(global := s) else w1.(tls := s))
  }

  /** The state the callbacks use: the global one or the thread-local one. */
  function Slot(w: World, useGlobal: bool): Option<Session> {
    if useGlobal then w.global else w.tls
  }

  function WithSlot(w: World, useGlobal: bool, s: Session): (r: World)
    ensures Slot(r, useGlobal) == Some(s) && Slot(r, !useGlobal) == Slot(w, !useGlobal)
  {
    if useGlobal then w.(global := Some(s)) else w.(tls := Some(s))
  }

  /** onFunctionEnter: without a state nothing happens. Otherwise a fresh
      correlation id is pushed on the user or the ordinary stack, and
      begin_op queues an open record carrying it; the observer context
      returned is that record's position in the queue. */
  function OnFunctionEnter(w: World, useGlobal: bool, userScope: bool, op: OpStart, stamp: Stamp)
    : (r: (World, Option<nat>))
    requires w.nextCorrelationId < U64
    ensures Slot(w, useGlobal).None? ==> r == (w, None)
    ensures Slot(w, useGlobal).Some? ==>
              var s := Slot(w, useGlobal).value;
              && r.1 == Some(|s.records|)
              && Slot(r.0, useGlobal) == Some(Queue(s, OpRecord(op, stamp, w.nextCorrelationId)))
              && Slot(r.0, !useGlobal) == Slot(w, !useGlobal)
              && r.0.nextCorrelationId == (w.nextCorrelationId + 1) % U64
              && (userScope ==> r.0.userCorrelationStack == w.userCorrelationStack + [w.nextCorrelationId]
                                && r.0.correlationStack == w.correlationStack)
              && (!userScope ==> r.0.correlationStack == w.correlationStack + [w.nextCorrelationId]
                                 && r.0.userCorrelationStack == w.userCorrelationStack)
    ensures Slot(w, useGlobal).Some? ==>
              var e := Slot(r.0, useGlobal).value.records[r.1.value];
              !e.finished && e.correlationId == w.nextCorrelationId && e.extra == TorchOp(op.fields)
    ensures r.0.nextCorrelationId < U64
  {
    var slot := Slot(w, useGlobal);
    if slot.None? then (w, None)
    else
      var (id, next) := NextCorrelationId(w.nextCorrelationId);
      var w1 := WithSlot(w.(nextCorrelationId := next), useGlobal, Queue(slot.value, OpRecord(op, stamp, id)));
      var ctx := Some(|slot.value.records|);
      if userScope then (w1.(userCorrelationStack := w.userCorrelationStack + [id]), ctx)
      else (w1.(correlationStack := w.correlationStack + [id]), ctx)
  }

  /** onFunctionExit: without a state nothing happens; the observer context
      must exist; the record it points to gets its end time and end thread
      and is finished; the id pushed on entry is popped again. A context
      always points into the queue of the state that made it. */
  function OnFunctionExit(w: World, useGlobal: bool, userScope: bool, ctx: Option<nat>, stamp: Stamp)
    : (r: Result<World>)
    requires Slot(w, useGlobal).Some? && ctx.Some? ==> ctx.value < |Slot(w, useGlobal).value.records|
    ensures Slot(w, useGlobal).None? ==> r == Ok(w)
    ensures Slot(w, useGlobal).Some? && ctx.None? ==> r == Err(InternalAssert(NoContextMessage))
    ensures Slot(w, useGlobal).Some? && ctx.Some? ==>
              var s := Slot(w, useGlobal).value;
              && r.Ok?
              && Slot(r.value, useGlobal) == Some(s.(records := s.records[ctx.value := CloseRecord(s.records[ctx.value], stamp)]))
              && Slot(r.value, !useGlobal) == Slot(w, !useGlobal)
              && (userScope ==> r.value.userCorrelationStack == Pop(w.userCorrelationStack)
                                && r.value.correlationStack == w.correlationStack)
              && (!userScope ==> r.value.correlationStack == Pop(w.correlationStack)
                                 && r.value.userCorrelationStack == w.userCorrelationStack)
              && r.value.nextCorrelationId == w.nextCorrelationId
  {
    var slot := Slot(w, useGlobal);
    if slot.None? then Ok(w)
    else if ctx.None? then Err(InternalAssert(NoContextMessage))
    else
      var s := slot.value;
      var w1 := WithSlot(w, useGlobal, s.(records := s.records[ctx.value := CloseRecord(s.records[ctx.value], stamp)]));
      if userScope then Ok(w1.(userCorrelationStack := Pop(w.userCorrelationStack)))
      else Ok(w1.(correlationStack := Pop(w.correlationStack)))
  }

  /** popCorrelationId: drops the innermost id, if any. */
  function Pop(stack: seq<nat>): (r: seq<nat>)
    ensures |stack| > 0 ==> stack == r + [stack[|stack| - 1]]
    ensures |stack| == 0 ==> r == []
  {
    if |stack| > 0 then stack[..|stack| - 1] else []
  }

  /** Entering and leaving an operator leaves both correlation stacks as
      they were, consumes one id, and leaves one more record in the queue:
      the operator's, finished, with that id, its start and end times and
      its end thread. */
  lemma EnterExitBalanced(w: World, useGlobal: bool, userScope: bool, op: OpStart, enter: Stamp, exit: Stamp)
    requires w.nextCorrelationId < U64
    requires Slot(w, useGlobal).Some?
    ensures var (w1, ctx) := OnFunctionEnter(w, useGlobal, userScope, op, enter);
            var r := OnFunctionExit(w1, useGlobal, userScope, ctx, exit);
            var s := Slot(w, useGlobal).value;
            && r.Ok? && ctx == Some(|s.records|)
            && r.value.correlationStack == w.correlationStack
            && r.value.userCorrelationStack == w.userCorrelationStack
            && r.value.nextCorrelationId == (w.nextCorrelationId + 1) % U64
            && Slot(r.value, useGlobal).Some?
            && Slot(r.value, useGlobal).value == Queue(s, ClosedOp(op, enter, exit, w.nextCorrelationId))
  {
    var (w1, ctx) := OnFunctionEnter(w, useGlobal, userScope, op, enter);
    var s := Slot(w, useGlobal).value;
    assert Pop(w.correlationStack + [w.nextCorrelationId]) == w.correlationStack;
    assert Pop(w.userCorrelationStack + [w.nextCorrelationId]) == w.userCorrelationStack;
    var q := s.records + [OpRecord(op, enter, w.nextCorrelationId)];
    assert q[|s.records| := ClosedOp(op, enter, exit, w.nextCorrelationId)]
           == s.records + [ClosedOp(op, enter, exit, w.nextCorrelationId)];
  }

  /** An operator's record once it has been entered and left. */
  function ClosedOp(op: OpStart, enter: Stamp, exit: Stamp, id: nat): (e: Record)
    ensures e.finished && e.correlationId == id && e.name == op.name
    ensures e.startTimeNs == enter.timeNs && e.endTimeNs == exit.timeNs && e.startTid == enter.tid
    ensures e.extra == TorchOp(op.fields.(endTid := exit.tid))
  {
    CloseRecord(OpRecord(op, enter, id), exit)
  }

  // ---------------------------------------------------------------------
  // Enabling

  predicate IsKinetoState(s: ProfilerState) {
    s == Kineto || s == KinetoGpuFallback
  }

  /** enableProfiler. The result carries the world as it is when the call
      returns or raises: an on-demand enable installs the global state
      before it checks for CPU activities. The NVTX callbacks are taken to
      install a thread-local state with the NVTX configuration. */
  function EnableProfiler(w: World, config: Config, activities: set<ActivityKind>, startTimeUs: int)
    : (r: (World, Outcome))
    ensures w.tls.Some? ==> r == (w, Fail(RuntimeError(AlreadyEnabledMessage)))
    ensures w.tls.None? && config.state == Nvtx ==> r.1 == Pass && r.0.tls.Some? && r.0.tls.value.config == config
    ensures w.tls.None? && config.state != Nvtx && !IsKinetoState(config.state) && config.state != KinetoOndemand ==>
              r.0 == w && r.1.Fail? && r.1.error.RuntimeError?
    ensures w.tls.None? && (IsKinetoState(config.state) || config.state == KinetoOndemand) && activities == {} ==>
              r == (w, Fail(RuntimeError(NoActivitiesMessage)))
    ensures FreshHandles(w) ==> FreshHandles(r.0)
    ensures r.0.nextCorrelationId == w.nextCorrelationId
  {
    if w.tls.Some? then (w, Fail(RuntimeError(AlreadyEnabledMessage)))
    else if config.state == Nvtx then
      (w.(tls := Some(NewSession(config, activities, startTimeUs))), Pass)
    else if !(IsKinetoState(config.state) || config.state == KinetoOndemand) then
      (w, Fail(RuntimeError(NotKinetoMessage)))
    else if activities == {} then (w, Fail(RuntimeError(NoActivitiesMessage)))
    else if IsKinetoState(config.state) then
      var s := NewSession(config, activities, startTimeUs);
      var w1 := w.(tls := Some(s), pythonTracing := w.pythonTracing || TracePython(s));
      var w2 := if CpuActivities in activities then PushProfilingCallbacks(w1, false).value else w1;
      (w2.(tracing := true), Pass)
    else
      var w1 := GlobalInit(w, NewSession(config, activities, startTimeUs));
      if CpuActivities !in activities then (w1, Fail(InternalAssert(OndemandCpuMessage)))
      else (PushProfilingCallbacks(w1, true).value, Pass)
  }

  /** A Kineto enable installs a fresh thread-local session, starts the
      trace, starts the Python tracer when a stack is asked for with CPU
      activities, and registers callbacks exactly when CPU is traced. */
  lemma EnableKineto(w: World, config: Config, activities: set<ActivityKind>, t: int)
    requires w.tls.None? && IsKinetoState(config.state) && activities != {}
    ensures var r := EnableProfiler(w, config, activities, t);
            && r.1 == Pass && r.0.tls.Some? && r.0.global == w.global
            && r.0.tls.value.config == config && r.0.tls.value.activities == activities
            && r.0.tls.value.startTimeUs == t && r.0.tls.value.records == []
            && r.0.tracing
            && r.0.pythonTracing == (w.pythonTracing || (config.withStack && CpuActivities in activities))
            && (CpuActivities in activities <==> r.0.tls.value.callback.Some?)
            && (CpuActivities in activities ==> r.0.tls.value.callback == Some(w.nextHandle)
                                                && r.0.callbacks == w.callbacks + {w.nextHandle})
            && (CpuActivities !in activities ==> r.0.callbacks == w.callbacks)
  {
  }

  /** An on-demand enable leaves a global session installed (an existing
      one is kept) and succeeds exactly when CPU activities are traced. */
  lemma EnableOndemand(w: World, config: Config, activities: set<ActivityKind>, t: int)
    requires w.tls.None? && config.state == KinetoOndemand && activities != {}
    ensures var r := EnableProfiler(w, config, activities, t);
            && r.0.global.Some? && r.0.tls.None?
            && (r.1 == Pass <==> CpuActivities in activities)
            && (w.global.Some? ==> r.0.global.value.config == w.global.value.config)
            && (w.global.None? ==> r.0.global.value.config == config)
  {
  }

  /** Enabling twice on one thread fails and changes nothing. */
  lemma EnableTwiceFails(w: World, c1: Config, c2: Config, a1: set<ActivityKind>, a2: set<ActivityKind>, t: int)
    requires w.tls.None? && IsKinetoState(c1.state) && a1 != {}
    ensures var w1 := EnableProfiler(w, c1, a1, t).0;
            EnableProfiler(w1, c2, a2, t) == (w1, Fail(RuntimeError(AlreadyEnabledMessage)))
  {
  }

  /** An on-demand enable without CPU activities raises but leaves its
      global state installed. */
  lemma OndemandWithoutCpuLeavesGlobalState(w: World, config: Config, t: int)
    requires w.tls.None? && w.global.None? && config.state == KinetoOndemand
    ensures var r := EnableProfiler(w, config, {CudaActivities}, t);
            r.1 == Fail(InternalAssert(OndemandCpuMessage))
            && r.0.global == Some(NewSession(config, {CudaActivities}, t))
  {
  }

  /** enableProfilerWithEventPostProcess as written: after enableProfiler it
      sets the callback on the thread-local state, which an on-demand
      enable never creates. */
  function EnableWithPostProcessAsWritten(w: World, config: Config, activities: set<ActivityKind>, t: int,
                                          cb: (int, seq<string>, seq<string>) -> (seq<string>, seq<string>))
    : (r: (World, Outcome))
    ensures config.state == Nvtx ==> r.1.Fail?
    ensures w.global.Some? ==> r.1.Fail?
  {
    if config.state == Nvtx then (w, Fail(RuntimeError(NvtxPostProcessMessage)))
    else if w.global.Some? then (w, Fail(InternalAssert(OndemandPostProcessMessage)))
    else
      var (w1, o) := EnableProfiler(w, config, activities, t);
      if o.Fail? then (w1, o)
      else if w1.tls.None? then (w1, Fail(NullDereference(PostProcessDerefMessage)))
      else (w1.(tls := Some(w1.tls.value.(post := Some(cb)))), Pass)
  }

  /** An on-demand configuration passes both checks and reaches the null
      thread-local state. */
  lemma PostProcessOndemandDereferencesNull(w: World, config: Config, t: int,
                                            cb: (int, seq<string>, seq<string>) -> (seq<string>, seq<string>))
    requires w.tls.None? && w.global.None? && config.state == KinetoOndemand
    ensures EnableWithPostProcessAsWritten(w, config, {CpuActivities}, t, cb).1
            == Fail(NullDereference(PostProcessDerefMessage))
  {
  }

  /** enableProfilerWithEventPostProcess, rejecting an on-demand
      configuration up front as its assertion message says. */
  function EnableWithPostProcess(w: World, config: Config, activities: set<ActivityKind>, t: int,
                                 cb: (int, seq<string>, seq<string>) -> (seq<string>, seq<string>))
    : (r: (World, Outcome))
    ensures config.state == Nvtx || config.state == KinetoOndemand || w.global.Some? ==> r == (w, r.1) && r.1.Fail?
    ensures r.1 == Pass ==> r.0.tls.Some? && r.0.tls.value.post == Some(cb) && r.0.tls.value.config == config
    ensures r.1.Fail? ==> !r.1.error.NullDereference?
  {
    if config.state == Nvtx then (w, Fail(RuntimeError(NvtxPostProcessMessage)))
    else if w.global.Some? || config.state == KinetoOndemand then
      (w, Fail(InternalAssert(OndemandPostProcessMessage)))
    else
      var (w1, o) := EnableProfiler(w, config, activities, t);
      if o.Fail? then (w1, o)
      else (w1.(tls := Some(w1.tls.value.(post := Some(cb)))), Pass)
  }

  /** Where the enable as written does not dereference null, the corrected
      one agrees with it. */
  lemma PostProcessAgreesOffOndemand(w: World, config: Config, activities: set<ActivityKind>, t: int,
                                     cb: (int, seq<string>, seq<string>) -> (seq<string>, seq<string>))
    requires config.state != KinetoOndemand
    ensures EnableWithPostProcess(w, config, activities, t, cb) == EnableWithPostProcessAsWritten(w, config, activities, t, cb)
  {
  }

  // ---------------------------------------------------------------------
  // Reported events

  /** reportBackendEventToActiveKinetoProfiler: refused while an on-demand
      session exists, ignored without a thread-local session, queued as a
      backend record otherwise. */
  function ReportBackendEvent(w: World, e: BackendEvent, stamp: Stamp): (r: Result<World>)
    ensures w.global.Some? ==> r == Err(InternalAssert(OndemandPostProcessMessage))
    ensures w.global.None? && w.tls.None? ==> r == Ok(w)
    ensures w.global.None? && w.tls.Some? ==>
              && r.Ok? && r.value.tls.Some?
              && r.value.tls.value.records == w.tls.value.records + [BackendRecord(e, stamp)]
              && r.value == w.(tls := Some(w.tls.value.(records := r.value.tls.value.records)))
  {
    if w.global.Some? then Err(InternalAssert(OndemandPostProcessMessage))
    else if w.tls.None? then Ok(w)
    else Ok(w.(tls := Some(Queue(w.tls.value, BackendRecord(e, stamp)))))
  }

  /** reportMemoryUsage: queued as an allocation record only when memory
      profiling is on and the profiler is not disabled. */
  function ReportMemoryUsage(s: Session, a: AllocationFields, stamp: Stamp): (r: Session)
    ensures |r.records| == |s.records| + (if s.config.profileMemory && s.config.state != Disabled then 1 else 0)
    ensures r.records[..|s.records|] == s.records
    ensures |r.records| > |s.records| ==> r.records[|s.records|] == AllocationRecord(a, stamp)
    ensures r == s.(records := r.records)
  {
    if s.config.profileMemory && s.config.state != Disabled then Queue(s, AllocationRecord(a, stamp)) else s
  }

  // ---------------------------------------------------------------------
  // Disabling

  datatype ProfilerResult =
    | EmptyResult
    | Full(traceStartUs: int, events: seq<KinetoEvent>, eventTree: seq<Record>)

  /** finalizeTrace: the finished records become events, the Python frames
      are merged in, and outside on-demand mode the device activities of the
      stopped trace are appended. */
  function FinalizeTrace(s: Session, py: seq<PyTraceEvent>, trace: seq<Option<TraceActivity>>, ext: Externals)
    : (r: Result<(seq<KinetoEvent>, seq<Record>)>)
    requires WellFormed(py)
    ensures r.Ok? ==> |r.value.0| >= |FinishedRecords(s.records)|
    ensures r.Ok? ==> r.value.1 == ExpiredParentRecords(s.records)
    ensures s.config.state == KinetoOndemand && r.Ok? ==> |r.value.0| == |FinishedRecords(s.records)|
    ensures !TracePython(s) ==> r.Ok?
    ensures r.Err? ==> r.error.InternalAssert?
    ensures r.Ok? ==>
              var fin := FinishedRecords(s.records);
              && (forall i :: 0 <= i < |fin| ==> r.value.0[i] == Exported(s, py, fin[i], ext))
              && r.value.0[|fin|..] == (if s.config.state != KinetoOndemand then AddTraceEvents(trace, ext) else [])
  {
    var m := MaterializeOpEvents(s.records, s.post, ext);
    var merged :- AddPythonEvents(TracePython(s), py, m.events, m.activities, ext);
    MergedAreExported(s, py, ext);
    var device := if s.config.state != KinetoOndemand then AddTraceEvents(trace, ext) else [];
    ExportedThenDevice(s, py, FinishedRecords(s.records), merged.events, device, ext);
    Ok((merged.events + device, m.eventTree))
  }

  /** finalizeTrace as written: its Python merge is addPythonEvents as
      written, which throws std::out_of_range on a module call that starts
      after every operator. Wherever that merge succeeds, the rest is the
      same as FinalizeTrace. */
  function FinalizeTraceAsWritten(s: Session, py: seq<PyTraceEvent>, trace: seq<Option<TraceActivity>>,
                                  ext: Externals): (r: Result<(seq<KinetoEvent>, seq<Record>)>)
    requires WellFormed(py)
    ensures var m := MaterializeOpEvents(s.records, s.post, ext);
            var merged := AddPythonEventsAsWritten(TracePython(s), py, m.events, m.activities, ext);
            && (r.Err? <==> merged.Err?)
            && (r.Err? ==> r.error == merged.error)
    ensures r.Ok? ==> r == FinalizeTrace(s, py, trace, ext)
  {
    var m := MaterializeOpEvents(s.records, s.post, ext);
    var _ :- AddPythonEventsAsWritten(TracePython(s), py, m.events, m.activities, ext);
    AsWrittenAgreesWhenItSucceeds(TracePython(s), py, m.events, m.activities, ext);
    FinalizeTrace(s, py, trace, ext)
  }

  /** A traced module call that starts after every recorded operator makes
      finalizeTrace as written throw std::out_of_range, where FinalizeTrace
      does not fail on that account. */
  lemma FinalizeAsWrittenThrowsOnLateModuleCall(s: Session, py: seq<PyTraceEvent>,
                                                trace: seq<Option<TraceActivity>>, ext: Externals, j: nat)
    requires WellFormed(py) && SingleThreaded(py) && TracePython(s)
    requires LateModuleCall(py, MaterializeOpEvents(s.records, s.post, ext).activities, j)
    ensures FinalizeTraceAsWritten(s, py, trace, ext).Err?
  {
    var m := MaterializeOpEvents(s.records, s.post, ext);
    MaterializedExports(s.records, s.post, ext);
    AsWrittenThrowsOnLateModuleCall(py, m.events, m.activities, ext, j);
  }

  /** The exports of the finished records followed by the device events:
      the first part is unchanged by the append. */
  lemma ExportedThenDevice(s: Session, py: seq<PyTraceEvent>, fin: seq<Record>, merged: seq<KinetoEvent>,
                           device: seq<KinetoEvent>, ext: Externals)
    requires WellFormed(py)
    requires |merged| == |fin| && forall i :: 0 <= i < |fin| ==> merged[i] == Exported(s, py, fin[i], ext)
    ensures |merged + device| == |fin| + |device|
    ensures forall i :: 0 <= i < |fin| ==> (merged + device)[i] == Exported(s, py, fin[i], ext)
    ensures (merged + device)[|fin|..] == device
  {
    assert forall i :: 0 <= i < |fin| ==> (merged + device)[i] == merged[i];
  }

  /** The event finalizeTrace exports for a finished record of s: its
      export, with the Python caller's stack in place of a missing stack
      when the session traces Python. */
  function Exported(s: Session, py: seq<PyTraceEvent>, e: Record, ext: Externals): (ev: KinetoEvent)
    requires WellFormed(py)
    ensures ev == Export(e, s.post, ext).0.(stack := ev.stack)
  {
    var ev := Export(e, s.post, ext).0;
    if TracePython(s) && |py| > 0 && !ev.HasStack() then ev.(stack := Some(NameChain(py, CallerAt(py, StartUs(e)))))
    else ev
  }

  /** After the Python merge, the i-th event is the export of the i-th
      finished record. */
  lemma MergedAreExported(s: Session, py: seq<PyTraceEvent>, ext: Externals)
    requires WellFormed(py)
    requires var m := MaterializeOpEvents(s.records, s.post, ext);
             AddPythonEvents(TracePython(s), py, m.events, m.activities, ext).Ok?
    ensures var m := MaterializeOpEvents(s.records, s.post, ext);
            var merged := AddPythonEvents(TracePython(s), py, m.events, m.activities, ext).value;
            && |merged.events| == |FinishedRecords(s.records)|
            && forall i :: 0 <= i < |FinishedRecords(s.records)| ==>
                 merged.events[i] == Exported(s, py, FinishedRecords(s.records)[i], ext)
  {
    var m := MaterializeOpEvents(s.records, s.post, ext);
    var fin := FinishedRecords(s.records);
    MaterializedExports(s.records, s.post, ext);
    var merged := AddPythonEvents(TracePython(s), py, m.events, m.activities, ext).value;
    forall i | 0 <= i < |fin|
      ensures m.events[i] == Export(fin[i], s.post, ext).0
      ensures m.activities[i].startTime == StartUs(fin[i])
    {
      assert (m.events[i], m.activities[i]) == Export(fin[i], s.post, ext);
    }
    if TracePython(s) && |py| > 0 {
      forall i | 0 <= i < |fin|
        ensures merged.events[i] == Exported(s, py, fin[i], ext)
      {
        ExportedWhenMerged(s, py, fin[i], m.events[i], m.activities[i].startTime, merged.events[i], ext);
      }
    } else {
      assert merged.events == m.events;
    }
  }

  /** One event of the Python merge, for a session that traces Python: an
      event with a stack is kept, and one without gets its caller's chain. */
  lemma ExportedWhenMerged(s: Session, py: seq<PyTraceEvent>, e: Record, ev: KinetoEvent, startUs: int,
                           merged: KinetoEvent, ext: Externals)
    requires WellFormed(py) && TracePython(s) && |py| > 0
    requires ev == Export(e, s.post, ext).0 && startUs == StartUs(e)
    requires ev.HasStack() ==> merged == ev
    requires !ev.HasStack() ==> merged == ev.(stack := Some(NameChain(py, CallerAt(py, startUs))))
    ensures merged == Exported(s, py, e, ext)
  {
  }

  /** A finished record at the end of the queue is exported after the
      finished records before it, whatever kind of record it is. */
  lemma FinalizeExportsLast(s: Session, e: Record, py: seq<PyTraceEvent>, trace: seq<Option<TraceActivity>>,
                            ext: Externals)
    requires WellFormed(py) && e.finished
    ensures var r := FinalizeTrace(Queue(s, e), py, trace, ext);
            r.Ok? ==> |FinishedRecords(s.records)| < |r.value.0|
                      && r.value.0[|FinishedRecords(s.records)|] == Exported(s, py, e, ext)
  {
    FinishedAppend(s.records, e);
    var s' := Queue(s, e);
    assert Exported(s', py, e, ext) == Exported(s, py, e, ext);
  }

  lemma {:induction false} FinishedAppend(records: seq<Record>, e: Record)
    requires e.finished
    ensures FinishedRecords(records + [e]) == FinishedRecords(records) + [e]
  {
    if |records| > 0 {
      FinishedAppend(records[1..], e);
      assert (records + [e])[1..] == records[1..] + [e];
    } else {
      assert FinishedRecords([e]) == [e] + FinishedRecords([]);
    }
  }

  /** A reported allocation reaches the exported events: its size and
      device, with the allocation annotations on its CPU activity. */
  lemma ReportedMemoryIsExported(s: Session, a: AllocationFields, stamp: Stamp, py: seq<PyTraceEvent>,
                                 trace: seq<Option<TraceActivity>>, ext: Externals)
    requires WellFormed(py) && s.config.profileMemory && s.config.state != Disabled
    ensures var r := FinalizeTrace(ReportMemoryUsage(s, a, stamp), py, trace, ext);
            var n := |FinishedRecords(s.records)|;
            r.Ok? ==> && n < |r.value.0|
                      && r.value.0[n].name == "[memory]"
                      && r.value.0[n].nBytes == Some(a.allocSize)
                      && r.value.0[n].deviceIndex == Some(a.deviceIndex)
                      && r.value.0[n].startUs == Some(NsToUs(stamp.timeNs))
    ensures Export(AllocationRecord(a, stamp), s.post, ext).1.metadata == AllocationAnnotations(a)
  {
    FinalizeExportsLast(s, AllocationRecord(a, stamp), py, trace, ext);
  }

  /** A reported backend event reaches the exported events: its name, the
      reported interval, its backend, scope and debug handle. */
  lemma ReportedBackendIsExported(w: World, e: BackendEvent, stamp: Stamp, py: seq<PyTraceEvent>,
                                  trace: seq<Option<TraceActivity>>, ext: Externals)
    requires WellFormed(py) && w.global.None? && w.tls.Some?
    ensures var s := ReportBackendEvent(w, e, stamp).value.tls.value;
            var r := FinalizeTrace(s, py, trace, ext);
            var n := |FinishedRecords(w.tls.value.records)|;
            r.Ok? ==> && n < |r.value.0|
                      && r.value.0[n].name == e.name
                      && r.value.0[n].startUs == Some(e.startUs)
                      && r.value.0[n].durationUs == Some(e.endUs - e.startUs)
                      && r.value.0[n].backend == Some(e.backend)
                      && r.value.0[n].scope == Some(e.scope)
                      && r.value.0[n].debugHandle == Some(e.debugHandle)
  {
    var s := w.tls.value;
    assert ReportBackendEvent(w, e, stamp).value.tls.value == Queue(s, BackendRecord(e, stamp));
    FinalizeExportsLast(s, BackendRecord(e, stamp), py, trace, ext);
    BackendRecordExport(e, stamp, s.post, ext);
  }

  /** The export of a backend record: the reported interval in microseconds
      and the backend's fields. */
  lemma BackendRecordExport(e: BackendEvent, stamp: Stamp, post: PostProcess, ext: Externals)
    ensures var ev := Export(BackendRecord(e, stamp), post, ext).0;
            && ev.name == e.name && ev.startUs == Some(e.startUs) && ev.durationUs == Some(e.endUs - e.startUs)
            && ev.backend == Some(e.backend) && ev.scope == Some(e.scope) && ev.debugHandle == Some(e.debugHandle)
  {
    var rec := BackendRecord(e, stamp);
    assert NsToUs(e.startUs * 1000) == e.startUs;
    assert NsToUs(e.endUs * 1000) == e.endUs;
    assert StartUs(rec) == e.startUs && EndUs(rec) == e.endUs;
  }

  /** An operator entered and left on the thread-local state is exported
      with its correlation id, its times and its end thread. */
  lemma EnteredOpIsExported(w: World, userScope: bool, op: OpStart, enter: Stamp, exit: Stamp,
                            py: seq<PyTraceEvent>, trace: seq<Option<TraceActivity>>, ext: Externals)
    requires WellFormed(py) && w.nextCorrelationId < U64 && w.tls.Some?
    ensures var (w1, ctx) := OnFunctionEnter(w, false, userScope, op, enter);
            var w2 := OnFunctionExit(w1, false, userScope, ctx, exit).value;
            var r := FinalizeTrace(w2.tls.value, py, trace, ext);
            var n := |FinishedRecords(w.tls.value.records)|;
            r.Ok? ==> && n < |r.value.0|
                      && r.value.0[n].correlationId == Some(w.nextCorrelationId)
                      && r.value.0[n].startUs == Some(NsToUs(enter.timeNs))
                      && r.value.0[n].durationUs == Some(NsToUs(exit.timeNs) - NsToUs(enter.timeNs))
                      && r.value.0[n].endThreadId == Some(exit.tid)
  {
    var e := ClosedOp(op, enter, exit, w.nextCorrelationId);
    EnterExitBalanced(w, false, userScope, op, enter, exit);
    FinalizeExportsLast(w.tls.value, e, py, trace, ext);
    ClosedOpExport(w.tls.value, op, enter, exit, w.nextCorrelationId, py, ext);
  }

  /** The exported event of a closed operator record. */
  lemma ClosedOpExport(s: Session, op: OpStart, enter: Stamp, exit: Stamp, id: nat, py: seq<PyTraceEvent>,
                       ext: Externals)
    requires WellFormed(py)
    ensures var ev := Exported(s, py, ClosedOp(op, enter, exit, id), ext);
            && ev.correlationId == Some(id)
            && ev.startUs == Some(NsToUs(enter.timeNs))
            && ev.durationUs == Some(NsToUs(exit.timeNs) - NsToUs(enter.timeNs))
            && ev.endThreadId == Some(exit.tid)
  {
  }

  predicate Disableable(s: ProfilerState) {
    s == Kineto || s == KinetoGpuFallback || s == KinetoOndemand || s == Nvtx
  }

  /** The state disableProfiler takes: the global one if it exists, the
      thread-local one otherwise; either slot is emptied. */
  function TakeState(w: World): (r: (World, Option<Session>))
    ensures w.global.Some? ==> r == (w.(global := None), w.global)
    ensures w.global.None? ==> r == (w.(tls := None), w.tls)
  {
    if w.global.None? then (w.(tls := None), w.tls) else (w.(global := None), w.global)
  }

  /** The finalizeTrace that a disable uses: as written, or corrected. */
  function FinalizeFor(s: Session, py: seq<PyTraceEvent>, trace: seq<Option<TraceActivity>>, ext: Externals,
                       corrected: bool): Result<(seq<KinetoEvent>, seq<Record>)>
    requires WellFormed(py)
  {
    if corrected then FinalizeTrace(s, py, trace, ext) else FinalizeTraceAsWritten(s, py, trace, ext)
  }

  /** disableProfiler, as written or corrected. As written, the
      configuration is read through the pointer before the check that it is
      non-null, and finalizeTrace may throw std::out_of_range. */
  function DisableWith(w: World, py: seq<PyTraceEvent>, trace: seq<Option<TraceActivity>>, ext: Externals,
                       corrected: bool): (r: (World, Result<ProfilerResult>))
    requires WellFormed(py)
    ensures r.0.global.None?
    ensures r.0.tls == (if w.global.Some? then w.tls else None)
    ensures TakeState(w).1.None? ==>
              r == (TakeState(w).0, Err(if corrected then RuntimeError(NotRunningMessage)
                                        else NullDereference(ConfigDerefMessage)))
    ensures TakeState(w).1.Some? && !Disableable(TakeState(w).1.value.config.state) ==>
              r == (TakeState(w).0, Err(RuntimeError(NotRunningMessage)))
    ensures TakeState(w).1.Some? && Disableable(TakeState(w).1.value.config.state) ==>
              DisabledAs(w, TakeState(w).1.value, FinalizeFor(TakeState(w).1.value, py, trace, ext, corrected), r)
  {
    var (w1, st) := TakeState(w);
    if st.None? then
      (w1, Err(if corrected then RuntimeError(NotRunningMessage)
               else NullDereference(ConfigDerefMessage)))
    else
      var s := st.value;
      if !Disableable(s.config.state) then (w1, Err(RuntimeError(NotRunningMessage)))
      else DisableRunning(w1, s, FinalizeFor(s, py, trace, ext, corrected))
  }

  /** Disabling a running session s once its state has been taken, given
      the outcome fin that finalizeTrace has for it (an NVTX session does
      not finalize and ignores fin). */
  function DisableRunning(w1: World, s: Session, fin: Result<(seq<KinetoEvent>, seq<Record>)>)
    : (r: (World, Result<ProfilerResult>))
    requires Disableable(s.config.state)
    ensures r.0.global == w1.global && r.0.tls == w1.tls
    ensures DisabledFrom(w1, s, fin, r)
  {
    var w2 := if s.callback.Some? then w1.(callbacks := w1.callbacks - {s.callback.value}) else w1;
    if s.config.state == KinetoOndemand then
      match fin
      case Err(e) => (w2, Err(e))
      case Ok(_) => (w2, Ok(EmptyResult))
    else if s.config.state == Nvtx then (w2, Ok(EmptyResult))
    else
      var w3 := w2.(pythonTracing := if TracePython(s) then false else w2.pythonTracing);
      match fin
      case Err(e) => (w3, Err(e))
      case Ok(f) => (w3.(tracing := false), Ok(Full(s.startTimeUs, f.0, f.1)))
  }

  /** What disabling a running session s does, given its finalizeTrace
      outcome fin: its callback is removed; an on-demand session finalizes
      and returns an empty result; an NVTX session returns an empty result;
      a Kineto session stops the Python tracer before finalizing, stops
      Kineto tracing only once finalizeTrace has succeeded, and returns the
      full result. Only the finalization can fail, with its own error. */
  ghost predicate DisabledAs(w: World, s: Session, fin: Result<(seq<KinetoEvent>, seq<Record>)>,
                             r: (World, Result<ProfilerResult>)) {
    DisabledFrom(TakeState(w).0, s, fin, r)
  }

  /** DisabledAs, for the world w1 left once the state has been taken. */
  ghost predicate DisabledFrom(w1: World, s: Session, fin: Result<(seq<KinetoEvent>, seq<Record>)>,
                               r: (World, Result<ProfilerResult>)) {
    && r.0.callbacks == (if s.callback.Some? then w1.callbacks - {s.callback.value} else w1.callbacks)
    && (r.1.Err? <==> s.config.state != Nvtx && fin.Err?)
    && (r.1.Err? ==> r.1.error == fin.error)
    && (s.config.state == KinetoOndemand || s.config.state == Nvtx ==>
          r.0 == w1.(callbacks := r.0.callbacks) && (r.1.Ok? ==> r.1.value == EmptyResult))
    && (IsKinetoState(s.config.state) ==>
          && r.0.pythonTracing == (if TracePython(s) then false else w1.pythonTracing)
          && r.0.tracing == (if fin.Ok? then false else w1.tracing)
          && r.0 == w1.(callbacks := r.0.callbacks, pythonTracing := r.0.pythonTracing, tracing := r.0.tracing)
          && (r.1.Ok? ==> r.1.value == Full(s.startTimeUs, fin.value.0, fin.value.1)))
  }

  /** disableProfiler as written. */
  function DisableProfilerAsWritten(w: World, py: seq<PyTraceEvent>, trace: seq<Option<TraceActivity>>,
                                    ext: Externals): (r: (World, Result<ProfilerResult>))
    requires WellFormed(py)
    ensures w.global.None? && w.tls.None? ==> r.1 == Err(NullDereference(ConfigDerefMessage))
    ensures TakeState(w).1.Some? && Disableable(TakeState(w).1.value.config.state)
            && TakeState(w).1.value.config.state != Nvtx ==>
              var fin := FinalizeTraceAsWritten(TakeState(w).1.value, py, trace, ext);
              (r.1.Err? <==> fin.Err?) && (r.1.Err? ==> r.1.error == fin.error)
  {
    DisableWith(w, py, trace, ext, false)
  }

  /** disableProfiler with the null check first, as its message intends. */
  function DisableProfiler(w: World, py: seq<PyTraceEvent>, trace: seq<Option<TraceActivity>>, ext: Externals)
    : (r: (World, Result<ProfilerResult>))
    requires WellFormed(py)
    ensures w.global.None? && w.tls.None? ==>
              r == (w, Err(RuntimeError(NotRunningMessage)))
    ensures r.1.Err? ==> !r.1.error.NullDereference?
  {
    DisableWith(w, py, trace, ext, true)
  }

  /** The global (on-demand) state is taken before the thread-local one;
      the slot taken is emptied. */
  lemma DisableEmptiesSlot(w: World, py: seq<PyTraceEvent>, trace: seq<Option<TraceActivity>>, ext: Externals)
    requires WellFormed(py)
    ensures var r := DisableProfiler(w, py, trace, ext);
            && (w.global.Some? ==> r.0.global.None? && r.0.tls == w.tls)
            && (w.global.None? ==> r.0.tls.None? && r.0.global.None?)
  {
  }

  /** An on-demand session yields an empty result whenever its trace
      finalizes; an NVTX session always does. */
  lemma DisableEmptyResults(w: World, py: seq<PyTraceEvent>, trace: seq<Option<TraceActivity>>, ext: Externals)
    requires WellFormed(py)
    ensures var r := DisableProfiler(w, py, trace, ext);
            && ((w.global.Some? && w.global.value.config.state == KinetoOndemand
                 && FinalizeTrace(w.global.value, py, trace, ext).Ok?) ==> r.1 == Ok(EmptyResult))
            && (w.global.None? && w.tls.Some? && w.tls.value.config.state == Nvtx ==> r.1 == Ok(EmptyResult))
  {
  }

  /** A Kineto session that finalizes yields the full result, stamped with
      its start time, and the trace is stopped. */
  lemma DisableKinetoFull(w: World, py: seq<PyTraceEvent>, trace: seq<Option<TraceActivity>>, ext: Externals)
    requires WellFormed(py) && w.global.None? && w.tls.Some? && IsKinetoState(w.tls.value.config.state)
    ensures var r := DisableProfiler(w, py, trace, ext);
            && (r.1.Ok? <==> FinalizeTrace(w.tls.value, py, trace, ext).Ok?)
            && (r.1.Ok? ==> r.1.value.Full? && r.1.value.traceStartUs == w.tls.value.startTimeUs
                            && r.1.value.events == FinalizeTrace(w.tls.value, py, trace, ext).value.0
                            && r.1.value.eventTree == ExpiredParentRecords(w.tls.value.records))
            && (r.1.Ok? ==> !r.0.tracing)
            && (r.1.Err? ==> r.0.tracing == w.tracing)
  {
  }

  /** Disabling a thread-local session unregisters exactly its callback. */
  lemma DisableUnregisters(w: World, py: seq<PyTraceEvent>, trace: seq<Option<TraceActivity>>, ext: Externals)
    requires WellFormed(py) && w.global.None? && w.tls.Some? && Disableable(w.tls.value.config.state)
    ensures var cb := w.tls.value.callback;
            DisableProfiler(w, py, trace, ext).0.callbacks == (if cb.Some? then w.callbacks - {cb.value} else w.callbacks)
  {
  }

  /** Disabling a Kineto session that traces Python, as written, throws
      std::out_of_range when a module call starts after every operator. */
  lemma DisableAsWrittenThrowsOnLateModuleCall(w: World, py: seq<PyTraceEvent>, trace: seq<Option<TraceActivity>>,
                                               ext: Externals, j: nat)
    requires WellFormed(py) && SingleThreaded(py)
    requires w.global.None? && w.tls.Some? && IsKinetoState(w.tls.value.config.state) && TracePython(w.tls.value)
    requires LateModuleCall(py, MaterializeOpEvents(w.tls.value.records, w.tls.value.post, ext).activities, j)
    ensures DisableProfilerAsWritten(w, py, trace, ext).1.Err?
  {
    FinalizeAsWrittenThrowsOnLateModuleCall(w.tls.value, py, trace, ext, j);
  }

  /** With a state, the two disables differ only where the finalizations
      do, which needs the as-written merge to throw. */
  lemma DisableAgreesWithState(w: World, py: seq<PyTraceEvent>, trace: seq<Option<TraceActivity>>, ext: Externals)
    requires WellFormed(py) && (w.global.Some? || w.tls.Some?)
    ensures var s := TakeState(w).1.value;
            FinalizeTraceAsWritten(s, py, trace, ext) == FinalizeTrace(s, py, trace, ext) ==>
              DisableProfiler(w, py, trace, ext) == DisableProfilerAsWritten(w, py, trace, ext)
    ensures var s := TakeState(w).1.value;
            FinalizeTraceAsWritten(s, py, trace, ext).Ok? ==>
              DisableProfiler(w, py, trace, ext) == DisableProfilerAsWritten(w, py, trace, ext)
  {
  }

  /** Enabling a Kineto session on an idle thread and disabling it again
      empties the thread-local slot, unregisters exactly the callback the
      enable registered, and returns a full result starting at the
      session's start time. */
  lemma EnableDisableRoundTrip(w: World, config: Config, activities: set<ActivityKind>, t: int,
                               trace: seq<Option<TraceActivity>>, ext: Externals)
    requires FreshHandles(w) && w.tls.None? && w.global.None?
    requires IsKinetoState(config.state) && activities != {}
    ensures var w1 := EnableProfiler(w, config, activities, t).0;
            var r := DisableProfiler(w1, [], trace, ext);
            && r.0.tls.None? && r.0.global.None? && r.0.callbacks == w.callbacks
            && r.1.Ok? && r.1.value.Full? && r.1.value.traceStartUs == t
  {
    EnableKineto(w, config, activities, t);
    var w1 := EnableProfiler(w, config, activities, t).0;
    DisableEmptiesSlot(w1, [], trace, ext);
    DisableKinetoFull(w1, [], trace, ext);
    DisableUnregisters(w1, [], trace, ext);
    if CpuActivities in activities {
      assert w.nextHandle !in w.callbacks;
      assert w1.callbacks - {w.nextHandle} == w.callbacks;
    }
  }

  // ---------------------------------------------------------------------
  // CUDA timer

  /** cudaElapsedUs: -1 when either CUDA event is missing or the timer
      raises; otherwise what the timer measures. */
  function CudaElapsedUs(start: Option<int>, end: Option<int>, elapsed: (int, int) -> Option<int>): (r: int)
    ensures start.None? || end.None? ==> r == -1
    ensures start.Some? && end.Some? && elapsed(start.value, end.value).None? ==> r == -1
    ensures start.Some? && end.Some? && elapsed(start.value, end.value).Some? ==> r == elapsed(start.value, end.value).value
  {
    if start.None? || end.None? then -1
    else match elapsed(start.value, end.value)
      case None => -1
      case Some(us) => us
  }
}

=== FILE: python_stack_merge.dfy ===
/** Merging the Python tracer's frames into the profiler's CPU trace
    (addPythonEvents): replaying enter/exit entries against the sorted
    operator start times to find each operator's Python caller, giving
    module calls per-name ids, and appending the Python frames as
    activities of their own. */
module PythonStackMerge {
  import opened Wrappers
  import opened Strings
  import opened Sorting
  import opened ProfilerEvents

  datatype CallType = PyCall | PyModuleCall | PyCCall

  /** One frame reported by the Python tracer. `parent` indexes the same
      frame list; callIdx and returnIdx order all enters and exits. */
  datatype PyTraceEvent = PyTraceEvent(
    name: string, startTime: int, endTime: int, parent: Option<nat>,
    callIdx: nat, returnIdx: nat, threadId: int, callType: CallType, moduleId: int)

  /** Every parent is a frame of the list that was entered before its child. */
  predicate WellFormed(py: seq<PyTraceEvent>) {
    forall i :: 0 <= i < |py| && py[i].parent.Some? ==>
      py[i].parent.value < |py| && py[py[i].parent.value].callIdx < py[i].callIdx
  }

  predicate ValidFrame(py: seq<PyTraceEvent>, e: Option<nat>) {
    e.Some? ==> e.value < |py|
  }

  /** _push_reverse_order: the names from the outermost frame down to e. */
  function NameChain(py: seq<PyTraceEvent>, e: Option<nat>): seq<string>
    requires WellFormed(py) && ValidFrame(py, e)
    decreases if e.Some? then py[e.value].callIdx + 1 else 0
  {
    if e.None? then [] else NameChain(py, py[e.value].parent) + [py[e.value].name]
  }

  /** The frames met walking up the parent links from e: e first, the root last. */
  function Ancestors(py: seq<PyTraceEvent>, e: Option<nat>): (r: seq<nat>)
    requires WellFormed(py) && ValidFrame(py, e)
    ensures forall i :: 0 <= i < |r| ==> r[i] < |py|
    decreases if e.Some? then py[e.value].callIdx + 1 else 0
  {
    if e.None? then [] else [e.value] + Ancestors(py, py[e.value].parent)
  }

  function Names(py: seq<PyTraceEvent>, frames: seq<nat>): (r: seq<string>)
    requires forall i :: 0 <= i < |frames| ==> frames[i] < |py|
    ensures |r| == |frames|
  {
    seq(|frames|, i requires 0 <= i < |frames| => py[frames[i]].name)
  }

  function Reverse<T>(s: seq<T>): (r: seq<T>)
    ensures |r| == |s|
  {
    if |s| == 0 then [] else Reverse(s[1..]) + [s[0]]
  }

  /** The recursive push order is the upward walk read backwards: the chain
      starts at the root and ends at the caller itself. */
  lemma {:induction false} NameChainIsReversedAncestry(py: seq<PyTraceEvent>, e: Option<nat>)
    requires WellFormed(py) && ValidFrame(py, e)
    ensures NameChain(py, e) == Reverse(Names(py, Ancestors(py, e)))
    decreases if e.Some? then py[e.value].callIdx + 1 else 0
  {
    if e.Some? {
      var p := py[e.value].parent;
      NameChainIsReversedAncestry(py, p);
      var a := Ancestors(py, e);
      assert a[1..] == Ancestors(py, p);
      assert Names(py, a)[1..] == Names(py, Ancestors(py, p));
    }
  }

  /** The chain of a frame ends with that frame's name and begins with the
      name of a frame that has no parent. */
  lemma NameChainEnds(py: seq<PyTraceEvent>, i: nat)
    requires WellFormed(py) && i < |py|
    ensures var c := NameChain(py, Some(i));
            && |c| > 0 && c[|c| - 1] == py[i].name
            && exists r :: 0 <= r < |py| && py[r].parent.None? && c[0] == py[r].name
    decreases py[i].callIdx
  {
    var p := py[i].parent;
    if p.Some? {
      NameChainEnds(py, p.value);
    }
  }

  // ---------------------------------------------------------------------
  // Replay entries

  /** An enter (at the frame's start) or exit (at its end) of one frame. */
  datatype Replay = Replay(frame: nat, enter: bool)

  function ReplayTime(py: seq<PyTraceEvent>, r: Replay): int
    requires r.frame < |py|
  {
    if r.enter then py[r.frame].startTime else py[r.frame].endTime
  }

  function ReplayIdx(py: seq<PyTraceEvent>, r: Replay): int
    requires r.frame < |py|
  {
    if r.enter then py[r.frame].callIdx else py[r.frame].returnIdx
  }

  /** The entries in the order the frames are listed: enter, exit, enter, exit, ... */
  function ReplayEntries(n: nat): (r: seq<Replay>)
    ensures |r| == 2 * n
    ensures forall i :: 0 <= i < n ==> r[2 * i] == Replay(i, true) && r[2 * i + 1] == Replay(i, false)
    ensures forall i :: 0 <= i < |r| ==> r[i].frame < n
  {
    if n == 0 then [] else ReplayEntries(n - 1) + [Replay(n - 1, true), Replay(n - 1, false)]
  }

  predicate ValidReplay(py: seq<PyTraceEvent>, replay: seq<Replay>) {
    forall i :: 0 <= i < |replay| ==> replay[i].frame < |py|
  }

  /** The sort key of a replay entry: its call or return index. */
  function ReplayKey(py: seq<PyTraceEvent>): Replay -> int {
    (x: Replay) => if x.frame < |py| then ReplayIdx(py, x) else 0
  }

  /** The replay order: by call/return index only (Replay::operator<). */
  function SortedReplay(py: seq<PyTraceEvent>): (r: seq<Replay>)
    ensures ValidReplay(py, r)
    ensures forall i, j :: 0 <= i < j < |r| ==> ReplayIdx(py, r[i]) <= ReplayIdx(py, r[j])
    ensures multiset(r) == multiset(ReplayEntries(|py|))
  {
    SortByMembers(ReplayEntries(|py|), ReplayKey(py));
    SortBy(ReplayEntries(|py|), ReplayKey(py))
  }

  // ---------------------------------------------------------------------
  // Module ids

  /** module_counter_ (per name) and module_id_map_ (per module identity). */
  datatype ModuleIds = ModuleIds(counter: map<string, nat>, ids: map<int, string>)

  function CountOf(counter: map<string, nat>, name: string): nat {
    if name in counter then counter[name] else 0
  }

  /** record_module_id: a module call whose identity is new gets the decimal
      of its name's counter, and the counter moves on; identities seen
      before keep their first id. */
  function RecordModuleId(m: ModuleIds, e: PyTraceEvent): (r: ModuleIds)
    ensures e.callType == PyModuleCall ==> e.moduleId in r.ids
    ensures forall x :: x in m.ids ==> x in r.ids && r.ids[x] == m.ids[x]
    ensures e.callType == PyModuleCall && e.moduleId !in m.ids ==>
              && r.ids[e.moduleId] == IntToString(CountOf(m.counter, e.name))
              && CountOf(r.counter, e.name) == CountOf(m.counter, e.name) + 1
              && r.ids.Keys == m.ids.Keys + {e.moduleId}
    ensures forall n :: n != e.name ==> CountOf(r.counter, n) == CountOf(m.counter, n)
    ensures !(e.callType == PyModuleCall && e.moduleId !in m.ids) ==> r == m
  {
    if e.callType == PyModuleCall && e.moduleId !in m.ids then
      var c := CountOf(m.counter, e.name);
      ModuleIds(m.counter[e.name := c + 1], m.ids[e.moduleId := IntToString(c)])
    else m
  }

  /** Two module identities first seen under the same name get different ids. */
  lemma SameNameDistinctIds(m: ModuleIds, e1: PyTraceEvent, e2: PyTraceEvent)
    requires e1.callType == PyModuleCall && e2.callType == PyModuleCall
    requires e1.name == e2.name && e1.moduleId != e2.moduleId && e1.moduleId !in m.ids
    requires e2.moduleId !in m.ids
    ensures var m2 := RecordModuleId(RecordModuleId(m, e1), e2);
            m2.ids[e1.moduleId] != m2.ids[e2.moduleId]
  {
    var m1 := RecordModuleId(m, e1);
    var c := CountOf(m.counter, e1.name);
    IntToStringInjective(c, c + 1);
  }

  // ---------------------------------------------------------------------
  // Replay against operator start times

  datatype ReplayState = ReplayState(cursor: nat, stack: seq<nat>, modules: ModuleIds)

  /** Some module call with identity x starts no later than t. */
  predicate EnteredBy(py: seq<PyTraceEvent>, x: int, t: int) {
    exists j :: 0 <= j < |py| && py[j].callType == PyModuleCall && py[j].moduleId == x && py[j].startTime <= t
  }

  predicate ValidStack(py: seq<PyTraceEvent>, stack: seq<nat>) {
    forall i :: 0 <= i < |stack| ==> stack[i] < |py|
  }

  function Top(stack: seq<nat>): Option<nat> {
    if |stack| > 0 then Some(stack[|stack| - 1]) else None
  }

  /** Consumes every entry whose time is at most t: an enter pushes its frame
      (and records its module id), an exit must pop its own frame. */
  function AdvanceTo(py: seq<PyTraceEvent>, replay: seq<Replay>, t: int, st: ReplayState)
    : (r: Result<ReplayState>)
    requires ValidReplay(py, replay) && st.cursor <= |replay| && ValidStack(py, st.stack)
    ensures r.Ok? ==> st.cursor <= r.value.cursor <= |replay| && ValidStack(py, r.value.stack)
    ensures r.Ok? ==> r.value.cursor == |replay| || ReplayTime(py, replay[r.value.cursor]) > t
    ensures r.Ok? ==> forall i :: st.cursor <= i < r.value.cursor ==> ReplayTime(py, replay[i]) <= t
    ensures r.Err? ==> r.error.InternalAssert?
    ensures r.Ok? ==> forall x :: x in st.modules.ids ==>
              x in r.value.modules.ids && r.value.modules.ids[x] == st.modules.ids[x]
    ensures r.Ok? ==> forall x :: x in r.value.modules.ids ==> x in st.modules.ids || EnteredBy(py, x, t)
    decreases |replay| - st.cursor
  {
    if st.cursor == |replay| || ReplayTime(py, replay[st.cursor]) > t then Ok(st)
    else
      var entry := replay[st.cursor];
      if entry.enter then
        AdvanceTo(py, replay, t, ReplayState(st.cursor + 1, st.stack + [entry.frame],
                                             RecordModuleId(st.modules, py[entry.frame])))
      else if |st.stack| == 0 then Err(InternalAssert("py_stack.size()"))
      else if st.stack[|st.stack| - 1] != entry.frame then Err(InternalAssert("py_stack.back() == replay_it->frame_"))
      else AdvanceTo(py, replay, t, ReplayState(st.cursor + 1, st.stack[..|st.stack| - 1], st.modules))
  }

  /** An exit that does not close the innermost open frame is rejected. */
  lemma ExitMustMatchTop(py: seq<PyTraceEvent>, replay: seq<Replay>, t: int, st: ReplayState)
    requires ValidReplay(py, replay) && st.cursor < |replay| && ValidStack(py, st.stack)
    requires ReplayTime(py, replay[st.cursor]) <= t && !replay[st.cursor].enter
    requires Top(st.stack) != Some(replay[st.cursor].frame)
    ensures AdvanceTo(py, replay, t, st).Err?
  {
  }

  // ---------------------------------------------------------------------
  // The frames open at a point of the replay

  /** The frames entered in done[i..] and not exited anywhere in done, in
      the order they were entered. */
  function OpenFrom(py: seq<PyTraceEvent>, done: seq<Replay>, i: nat): (r: seq<nat>)
    requires ValidReplay(py, done) && i <= |done|
    ensures ValidStack(py, r)
    decreases |done| - i
  {
    if i == |done| then []
    else
      (if done[i].enter && Replay(done[i].frame, false) !in done then [done[i].frame] else [])
      + OpenFrom(py, done, i + 1)
  }

  /** The reference stack: the frames open once the entries of done have
      been replayed, outermost first. */
  function OpenFrames(py: seq<PyTraceEvent>, done: seq<Replay>): (r: seq<nat>)
    requires ValidReplay(py, done)
    ensures ValidStack(py, r)
  {
    OpenFrom(py, done, 0)
  }

  /** No entry occurs twice. */
  predicate DistinctEntries(replay: seq<Replay>) {
    forall i, j :: 0 <= i < j < |replay| ==> replay[i] != replay[j]
  }

  /** Every exit among the entries has its frame's enter among them too. */
  predicate ExitsFollowEnters(done: seq<Replay>) {
    forall i :: 0 <= i < |done| && !done[i].enter ==> Replay(done[i].frame, true) in done
  }

  /** The replay state agrees with the reference: its stack holds exactly
      the frames open after the entries it has consumed. */
  predicate Tracks(py: seq<PyTraceEvent>, replay: seq<Replay>, st: ReplayState) {
    && ValidReplay(py, replay) && st.cursor <= |replay|
    && ValidReplay(py, replay[..st.cursor])
    && st.stack == OpenFrames(py, replay[..st.cursor])
    && ExitsFollowEnters(replay[..st.cursor])
  }

  /** s without any occurrence of f. */
  function Without(s: seq<nat>, f: nat): (r: seq<nat>)
    ensures |r| <= |s|
  {
    if |s| == 0 then [] else (if s[0] == f then [] else [s[0]]) + Without(s[1..], f)
  }

  /** Removing the last element, when it occurs nowhere else, drops it. */
  lemma {:induction false} WithoutLast(a: seq<nat>, f: nat)
    requires f !in a
    ensures Without(a + [f], f) == a
  {
    if |a| > 0 {
      WithoutLast(a[1..], f);
      assert (a + [f])[1..] == a[1..] + [f];
    } else {
      assert Without([f], f) == [] + Without([], f);
    }
  }

  /** An open frame was entered at some position from i on and is not exited. */
  lemma {:induction false} OpenFromMember(py: seq<PyTraceEvent>, done: seq<Replay>, i: nat, x: nat)
    requires ValidReplay(py, done) && i <= |done| && x in OpenFrom(py, done, i)
    ensures exists p :: i <= p < |done| && done[p] == Replay(x, true)
    ensures Replay(x, false) !in done
    decreases |done| - i
  {
    if !(done[i].enter && Replay(done[i].frame, false) !in done && x == done[i].frame) {
      OpenFromMember(py, done, i + 1, x);
    }
  }

  predicate NoDuplicates(s: seq<nat>) {
    forall a, b :: 0 <= a < b < |s| ==> s[a] != s[b]
  }

  /** Adding a fresh element in front keeps a sequence free of duplicates. */
  lemma ConsNoDuplicates(x: nat, rest: seq<nat>)
    requires NoDuplicates(rest) && x !in rest
    ensures NoDuplicates([x] + rest)
  {
    var o := [x] + rest;
    forall a, b | 0 <= a < b < |o|
      ensures o[a] != o[b]
    {
      assert o[b] == rest[b - 1];
      if a > 0 {
        assert o[a] == rest[a - 1];
      }
    }
  }

  /** A frame is open from i on only if its enter lies at i or later. */
  lemma OpenFromEntered(py: seq<PyTraceEvent>, done: seq<Replay>, i: nat, x: nat)
    requires ValidReplay(py, done) && i <= |done|
    ensures x in OpenFrom(py, done, i) ==> exists p :: i <= p < |done| && done[p] == Replay(x, true)
  {
    if x in OpenFrom(py, done, i) {
      OpenFromMember(py, done, i, x);
    }
  }

  /** With distinct entries, a frame entered at i is not open again from
      i + 1 on. */
  lemma EnteredNotReopened(py: seq<PyTraceEvent>, done: seq<Replay>, i: nat)
    requires ValidReplay(py, done) && i < |done| && DistinctEntries(done) && done[i].enter
    ensures done[i].frame !in OpenFrom(py, done, i + 1)
  {
    forall p | i + 1 <= p < |done|
      ensures done[p] != Replay(done[i].frame, true)
    {
      assert done[i] != done[p];
    }
    OpenFromEntered(py, done, i + 1, done[i].frame);
  }

  /** No frame is open twice. */
  lemma {:induction false} OpenFromDistinct(py: seq<PyTraceEvent>, done: seq<Replay>, i: nat)
    requires ValidReplay(py, done) && i <= |done| && DistinctEntries(done)
    ensures NoDuplicates(OpenFrom(py, done, i))
    decreases |done| - i
  {
    if i < |done| {
      OpenFromDistinct(py, done, i + 1);
      var rest := OpenFrom(py, done, i + 1);
      if done[i].enter && Replay(done[i].frame, false) !in done {
        EnteredNotReopened(py, done, i);
        ConsNoDuplicates(done[i].frame, rest);
        assert OpenFrom(py, done, i) == [done[i].frame] + rest;
      } else {
        assert OpenFrom(py, done, i) == [] + rest;
        assert [] + rest == rest;
      }
    }
  }


  /** Replaying an enter of a frame not yet exited opens it innermost. */
  lemma {:induction false} OpenEnter(py: seq<PyTraceEvent>, done: seq<Replay>, f: nat, i: nat)
    requires ValidReplay(py, done) && f < |py| && i <= |done| && Replay(f, false) !in done
    ensures OpenFrom(py, done + [Replay(f, true)], i) == OpenFrom(py, done, i) + [f]
    decreases |done| - i
  {
    var done' := done + [Replay(f, true)];
    assert ValidReplay(py, done');
    if i == |done| {
      assert OpenFrom(py, done', i + 1) == [];
    } else {
      OpenEnter(py, done, f, i + 1);
      assert done'[i] == done[i];
      assert Replay(done[i].frame, false) in done' <==> Replay(done[i].frame, false) in done;
    }
  }

  /** Replaying an exit closes its frame and nothing else. */
  lemma {:induction false} OpenExit(py: seq<PyTraceEvent>, done: seq<Replay>, f: nat, i: nat)
    requires ValidReplay(py, done) && f < |py| && i <= |done|
    ensures OpenFrom(py, done + [Replay(f, false)], i) == Without(OpenFrom(py, done, i), f)
    decreases |done| - i
  {
    var done' := done + [Replay(f, false)];
    assert ValidReplay(py, done');
    if i == |done| {
      assert OpenFrom(py, done', i + 1) == [];
      assert OpenFrom(py, done', i) == [];
    } else {
      OpenExit(py, done, f, i + 1);
      var g := done[i].frame;
      var rest := OpenFrom(py, done, i + 1);
      var rest' := OpenFrom(py, done', i + 1);
      assert rest' == Without(rest, f);
      assert done'[i] == done[i];
      assert Replay(g, false) in done' <==> Replay(g, false) in done || g == f;
      if done[i].enter && Replay(g, false) !in done {
        var o := [g] + rest;
        assert OpenFrom(py, done, i) == o;
        assert o[0] == g && o[1..] == rest;
        assert Without(o, f) == (if g == f then [] else [g]) + Without(rest, f);
        assert OpenFrom(py, done', i) == (if g == f then [] else [g]) + rest';
      } else {
        assert OpenFrom(py, done, i) == rest;
        assert OpenFrom(py, done', i) == rest';
      }
    }
  }

  /** Replaying an enter keeps the state in step with the reference. */
  lemma TracksEnter(py: seq<PyTraceEvent>, replay: seq<Replay>, st: ReplayState, m: ModuleIds)
    requires DistinctEntries(replay) && Tracks(py, replay, st) && st.cursor < |replay|
    requires replay[st.cursor].enter
    ensures Tracks(py, replay, ReplayState(st.cursor + 1, st.stack + [replay[st.cursor].frame], m))
  {
    var c := st.cursor;
    var e := replay[c];
    var done := replay[..c];
    assert replay[..c + 1] == done + [e];
    assert e == Replay(e.frame, true);
    forall q | 0 <= q < |done|
      ensures done[q] != Replay(e.frame, true)
    {
      assert replay[q] != replay[c];
    }
    OpenEnter(py, done, e.frame, 0);
  }

  /** Replaying an exit of the innermost open frame keeps the state in step
      with the reference. */
  lemma TracksExit(py: seq<PyTraceEvent>, replay: seq<Replay>, st: ReplayState, m: ModuleIds)
    requires DistinctEntries(replay) && Tracks(py, replay, st) && st.cursor < |replay|
    requires !replay[st.cursor].enter && Top(st.stack) == Some(replay[st.cursor].frame)
    ensures Tracks(py, replay, ReplayState(st.cursor + 1, st.stack[..|st.stack| - 1], m))
  {
    var c := st.cursor;
    var e := replay[c];
    var done := replay[..c];
    assert replay[..c + 1] == done + [e];
    assert e == Replay(e.frame, false);
    assert DistinctEntries(done);
    ExitClosesTop(py, done, e.frame);
  }

  /** Closing the innermost open frame pops it off the reference stack;
      that frame was entered among the entries. */
  lemma ExitClosesTop(py: seq<PyTraceEvent>, done: seq<Replay>, f: nat)
    requires ValidReplay(py, done) && f < |py| && DistinctEntries(done)
    requires Top(OpenFrames(py, done)) == Some(f)
    ensures var stack := OpenFrames(py, done);
            OpenFrames(py, done + [Replay(f, false)]) == stack[..|stack| - 1]
    ensures Replay(f, true) in done
  {
    var stack := OpenFrames(py, done);
    var front := stack[..|stack| - 1];
    assert stack == front + [f];
    OpenExit(py, done, f, 0);
    OpenFromDistinct(py, done, 0);
    forall a | 0 <= a < |front|
      ensures front[a] != f
    {
      assert stack[a] != stack[|stack| - 1];
    }
    WithoutLast(front, f);
    OpenFromMember(py, done, 0, f);
  }

  /** The replay keeps the state in step with the reference however far it
      advances. */
  lemma {:induction false} AdvanceToTracks(py: seq<PyTraceEvent>, replay: seq<Replay>, t: int, st: ReplayState)
    requires DistinctEntries(replay) && Tracks(py, replay, st)
    ensures AdvanceTo(py, replay, t, st).Ok? ==> Tracks(py, replay, AdvanceTo(py, replay, t, st).value)
    decreases |replay| - st.cursor
  {
    if !(st.cursor == |replay| || ReplayTime(py, replay[st.cursor]) > t) {
      var entry := replay[st.cursor];
      if entry.enter {
        TracksEnter(py, replay, st, RecordModuleId(st.modules, py[entry.frame]));
        AdvanceToTracks(py, replay, t, ReplayState(st.cursor + 1, st.stack + [entry.frame],
                                                   RecordModuleId(st.modules, py[entry.frame])));
      } else if |st.stack| > 0 && st.stack[|st.stack| - 1] == entry.frame {
        TracksExit(py, replay, st, st.modules);
        AdvanceToTracks(py, replay, t, ReplayState(st.cursor + 1, st.stack[..|st.stack| - 1], st.modules));
      }
    }
  }

  /** The first position from i on whose entry happens after t: where the
      replay for an operator starting at t stops. */
  function FirstAfter(py: seq<PyTraceEvent>, replay: seq<Replay>, t: int, i: nat): (c: nat)
    requires ValidReplay(py, replay) && i <= |replay|
    ensures i <= c <= |replay|
    ensures c == |replay| || ReplayTime(py, replay[c]) > t
    ensures forall p :: i <= p < c ==> ReplayTime(py, replay[p]) <= t
    decreases |replay| - i
  {
    if i == |replay| || ReplayTime(py, replay[i]) > t then i else FirstAfter(py, replay, t, i + 1)
  }

  /** The caller of an operator starting at t: the innermost frame open
      when the replay stops for t. */
  function CallerIn(py: seq<PyTraceEvent>, replay: seq<Replay>, t: int): (r: Option<nat>)
    requires ValidReplay(py, replay)
    ensures ValidFrame(py, r)
  {
    Top(OpenFrames(py, replay[..FirstAfter(py, replay, t, 0)]))
  }

  /** The caller over the replay order of all the frames. */
  function CallerAt(py: seq<PyTraceEvent>, t: int): (r: Option<nat>)
    ensures ValidFrame(py, r)
  {
    CallerIn(py, SortedReplay(py), t)
  }

  lemma {:induction false} DistinctCountsAtMostOne(s: seq<Replay>)
    requires DistinctEntries(s)
    ensures forall x :: multiset(s)[x] <= 1
  {
    if |s| > 0 {
      var front := s[..|s| - 1];
      assert s == front + [s[|s| - 1]];
      DistinctCountsAtMostOne(front);
      assert s[|s| - 1] !in front by {
        forall a | 0 <= a < |front|
          ensures front[a] != s[|s| - 1]
        {
          assert s[a] != s[|s| - 1];
        }
      }
    }
  }

  lemma CountsAtMostOneDistinct(s: seq<Replay>)
    requires forall x :: multiset(s)[x] <= 1
    ensures DistinctEntries(s)
  {
    forall i, j | 0 <= i < j < |s|
      ensures s[i] != s[j]
    {
      assert s == s[..j] + s[j..];
      assert s[i] in s[..j];
      assert s[j..][0] == s[j];
      assert multiset(s)[s[j]] == multiset(s[..j])[s[j]] + multiset(s[j..])[s[j]];
      assert s[j] !in multiset(s[..j]);
    }
  }

  /** The enters and exits of the frames are all different, in any order. */
  lemma SortedReplayDistinct(py: seq<PyTraceEvent>)
    ensures DistinctEntries(SortedReplay(py))
  {
    var r := ReplayEntries(|py|);
    forall p, q | 0 <= p < q < |r|
      ensures r[p] != r[q]
    {
      var i, a := p / 2, p % 2;
      var j, b := q / 2, q % 2;
      assert p == 2 * i + a && q == 2 * j + b;
      assert r[p] == Replay(i, a == 0);
      assert r[q] == Replay(j, b == 0);
    }
    DistinctCountsAtMostOne(r);
    CountsAtMostOneDistinct(SortedReplay(py));
  }

  /** Replaying the sorted start times finds, for each, the caller the
      reference gives: the map sends every time to CallerIn. */
  lemma {:induction false} ReplayTimesFindsCallers(py: seq<PyTraceEvent>, replay: seq<Replay>, times: seq<int>,
                                                   st: ReplayState, opPyMap: map<int, Option<nat>>)
    requires DistinctEntries(replay) && Tracks(py, replay, st)
    requires forall i, j :: 0 <= i < j < |times| ==> times[i] <= times[j]
    requires |times| > 0 ==> forall p :: 0 <= p < st.cursor ==> ReplayTime(py, replay[p]) <= times[0]
    requires forall t :: t in opPyMap ==> opPyMap[t] == CallerIn(py, replay, t)
    requires ValidStack(py, st.stack) && forall t :: t in opPyMap ==> ValidFrame(py, opPyMap[t])
    ensures var r := ReplayTimes(py, replay, times, st, opPyMap);
            r.Ok? ==> forall t :: t in r.value.opPyMap ==> r.value.opPyMap[t] == CallerIn(py, replay, t)
    decreases |times|
  {
    if |times| > 0 {
      var a := AdvanceTo(py, replay, times[0], st);
      if a.Ok? {
        AdvanceToTracks(py, replay, times[0], st);
        var st' := a.value;
        var c := FirstAfter(py, replay, times[0], 0);
        assert forall p :: 0 <= p < st'.cursor ==> ReplayTime(py, replay[p]) <= times[0];
        assert st'.cursor == c;
        var m := if times[0] in opPyMap then opPyMap else opPyMap[times[0] := Top(st'.stack)];
        ReplayTimesFindsCallers(py, replay, times[1..], st', m);
      }
    }
  }

  /** The caller found for each operator start time (op_py_map) and the
      module ids recorded on the way. */
  datatype Callers = Callers(opPyMap: map<int, Option<nat>>, modules: ModuleIds)

  /** Walks the sorted start times once; the first caller found for a time is kept. */
  function ReplayTimes(py: seq<PyTraceEvent>, replay: seq<Replay>, times: seq<int>,
                       st: ReplayState, opPyMap: map<int, Option<nat>>): (r: Result<Callers>)
    requires ValidReplay(py, replay) && st.cursor <= |replay| && ValidStack(py, st.stack)
    requires forall t :: t in opPyMap ==> ValidFrame(py, opPyMap[t])
    ensures r.Ok? ==> forall t :: t in opPyMap ==> t in r.value.opPyMap && r.value.opPyMap[t] == opPyMap[t]
    ensures r.Ok? ==> forall i :: 0 <= i < |times| ==> times[i] in r.value.opPyMap
    ensures r.Ok? ==> forall t :: t in r.value.opPyMap ==> ValidFrame(py, r.value.opPyMap[t])
    ensures r.Err? ==> r.error.InternalAssert?
    ensures r.Ok? ==> forall x :: x in r.value.modules.ids ==>
              x in st.modules.ids || exists t :: t in times && EnteredBy(py, x, t)
    decreases |times|
  {
    if |times| == 0 then Ok(Callers(opPyMap, st.modules))
    else
      var st' :- AdvanceTo(py, replay, times[0], st);
      var m := if times[0] in opPyMap then opPyMap else opPyMap[times[0] := Top(st'.stack)];
      ReplayTimes(py, replay, times[1..], st', m)
  }

  function StartTimes(activities: seq<CpuActivity>): (r: seq<int>)
    ensures |r| == |activities|
    ensures forall i :: 0 <= i < |activities| ==> r[i] == activities[i].startTime
  {
    seq(|activities|, i requires 0 <= i < |activities| => activities[i].startTime)
  }

  /** The replay over all sorted operator start times. */
  function FindCallers(py: seq<PyTraceEvent>, activities: seq<CpuActivity>): (r: Result<Callers>)
    ensures r.Ok? ==> forall i :: 0 <= i < |activities| ==> activities[i].startTime in r.value.opPyMap
    ensures r.Ok? ==> forall t :: t in r.value.opPyMap ==> ValidFrame(py, r.value.opPyMap[t])
    ensures r.Ok? ==> forall i :: 0 <= i < |activities| ==>
              r.value.opPyMap[activities[i].startTime] == CallerAt(py, activities[i].startTime)
    ensures r.Err? ==> r.error.InternalAssert?
  {
    var times := SortInts(StartTimes(activities));
    var st := ReplayState(0, [], ModuleIds(map[], map[]));
    var r := ReplayTimes(py, SortedReplay(py), times, st, map[]);
    SortedReplayDistinct(py);
    assert SortedReplay(py)[..0] == [];
    ReplayTimesFindsCallers(py, SortedReplay(py), times, st, map[]);
    if r.Ok? then
      forall i | 0 <= i < |activities|
        ensures activities[i].startTime in r.value.opPyMap
      {
        assert activities[i].startTime in multiset(StartTimes(activities));
        assert activities[i].startTime in multiset(times);
        var j :| 0 <= j < |times| && times[j] == activities[i].startTime;
      }
      r
    else r
  }

  /** The replay only gives ids to module calls that start no later than
      some operator: a module call entered after every operator has none. */
  lemma ReplayedModulesStartBeforeAnOp(py: seq<PyTraceEvent>, activities: seq<CpuActivity>)
    requires FindCallers(py, activities).Ok?
    ensures forall x :: x in FindCallers(py, activities).value.modules.ids ==>
              exists i :: 0 <= i < |activities| && EnteredBy(py, x, activities[i].startTime)
  {
    var times := SortInts(StartTimes(activities));
    forall x | x in FindCallers(py, activities).value.modules.ids
      ensures exists i :: 0 <= i < |activities| && EnteredBy(py, x, activities[i].startTime)
    {
      var t :| t in times && EnteredBy(py, x, t);
      assert t in multiset(times);
      assert t in multiset(StartTimes(activities));
      var i :| 0 <= i < |activities| && StartTimes(activities)[i] == t;
    }
  }

  // ---------------------------------------------------------------------
  // Python activities

  /** py_event_indices_: a frame's position in decimal, "null" for no frame. */
  function PyIndex(e: Option<nat>): string {
    if e.Some? then IntToString(e.value) else "null"
  }

  /** The identity annotations every Python activity carries. */
  function PyMetadata(py: seq<PyTraceEvent>, j: nat): seq<Annotation>
    requires j < |py|
  {
    [(PythonId, IntToString(j)), (PythonParentId, PyIndex(py[j].parent)),
     (PythonThread, IntToString(py[j].threadId))]
  }

  /** a is the activity pushed for frame j; a module call's activity also
      carries its module id. */
  predicate IsPyActivityOf(a: CpuActivity, py: seq<PyTraceEvent>, j: nat)
    requires j < |py|
  {
    && a.name == py[j].name && a.activityType == PythonFunction
    && a.startTime == py[j].startTime && a.endTime == py[j].endTime
    && |a.metadata| == (if py[j].callType == PyModuleCall then 4 else 3)
    && a.metadata[..3] == PyMetadata(py, j)
    && (py[j].callType == PyModuleCall ==> a.metadata[3].0 == PythonModuleId)
  }

  /** The module id a module call's activity needs is at hand. */
  predicate HasIdFor(py: seq<PyTraceEvent>, j: nat, ids: map<int, string>)
    requires j < |py|
  {
    py[j].callType == PyModuleCall ==> py[j].moduleId in ids
  }

  /** push_py_event's activity for frame j, given the module ids known. */
  function PyActivity(py: seq<PyTraceEvent>, j: nat, ids: map<int, string>): (a: CpuActivity)
    requires j < |py| && HasIdFor(py, j, ids)
  {
    var e := py[j];
    var moduleMeta := if e.callType == PyModuleCall then [(PythonModuleId, ids[e.moduleId])] else [];
    CpuActivity(e.name, PythonFunction, 0, e.startTime, e.endTime, PyMetadata(py, j) + moduleMeta)
  }

  /** The activity pushed for a frame carries the frame's name, times and
      identity, and a module call's activity its module id. */
  lemma PyActivityShape(py: seq<PyTraceEvent>, j: nat, ids: map<int, string>)
    requires j < |py| && HasIdFor(py, j, ids)
    ensures IsPyActivityOf(PyActivity(py, j, ids), py, j)
    ensures py[j].callType == PyModuleCall ==>
              PyActivity(py, j, ids).metadata[3] == (PythonModuleId, ids[py[j].moduleId])
  {
  }

  /** Only the frame's own module id matters. */
  lemma PyActivitySameId(py: seq<PyTraceEvent>, j: nat, ids1: map<int, string>, ids2: map<int, string>)
    requires j < |py| && HasIdFor(py, j, ids1) && HasIdFor(py, j, ids2)
    requires py[j].callType == PyModuleCall ==> ids1[py[j].moduleId] == ids2[py[j].moduleId]
    ensures PyActivity(py, j, ids1) == PyActivity(py, j, ids2)
  {
  }

  /** m' keeps every module id m has given out. */
  predicate Extends(m: ModuleIds, m': ModuleIds) {
    forall x :: x in m.ids ==> x in m'.ids && m'.ids[x] == m.ids[x]
  }

  lemma ExtendsTrans(m1: ModuleIds, m2: ModuleIds, m3: ModuleIds)
    requires Extends(m1, m2) && Extends(m2, m3)
    ensures Extends(m1, m3)
  {
  }

  datatype Pushed = Pushed(next: nat, activities: seq<CpuActivity>, modules: ModuleIds)

  /** Pushes frames from `it` on while they end no later than `bound`
      (all remaining frames when there is no bound). As written
      (recordOnPush false), a module call whose identity the replay never
      entered has no id, and module_id_map_.at throws; the corrected form
      records it first. */
  function PushWhile(py: seq<PyTraceEvent>, it: nat, bound: Option<int>, m: ModuleIds,
                     recordOnPush: bool): (r: Result<Pushed>)
    requires it <= |py|
    ensures r.Ok? ==> it <= r.value.next <= |py| && |r.value.activities| == r.value.next - it
    ensures r.Ok? && bound.None? ==> r.value.next == |py|
    ensures !recordOnPush && r.Ok? ==> r.value.modules == m
    ensures recordOnPush ==> r.Ok?
    decreases |py| - it
  {
    if it == |py| || (bound.Some? && py[it].endTime > bound.value) then Ok(Pushed(it, [], m))
    else
      var e := py[it];
      var m' := if recordOnPush then RecordModuleId(m, e) else m;
      if e.callType == PyModuleCall && e.moduleId !in m'.ids then Err(OutOfRange("module_id_map_.at"))
      else
        var rest :- PushWhile(py, it + 1, bound, m', recordOnPush);
        Ok(Pushed(rest.next, [PyActivity(py, it, m'.ids)] + rest.activities, rest.modules))
  }

  /** One step of PushWhile: the frame's activity in front of the rest. */
  lemma PushWhileStep(py: seq<PyTraceEvent>, it: nat, bound: Option<int>, m: ModuleIds, recordOnPush: bool)
    requires it < |py| && !(bound.Some? && py[it].endTime > bound.value)
    requires PushWhile(py, it, bound, m, recordOnPush).Ok?
    ensures var m' := if recordOnPush then RecordModuleId(m, py[it]) else m;
            && HasIdFor(py, it, m'.ids)
            && PushWhile(py, it + 1, bound, m', recordOnPush).Ok?
            && var rest := PushWhile(py, it + 1, bound, m', recordOnPush).value;
               PushWhile(py, it, bound, m, recordOnPush).value
               == Pushed(rest.next, [PyActivity(py, it, m'.ids)] + rest.activities, rest.modules)
  {
  }

  /** Pushing only adds module ids. */
  lemma {:induction false} PushWhileExtends(py: seq<PyTraceEvent>, it: nat, bound: Option<int>, m: ModuleIds,
                                            recordOnPush: bool)
    requires it <= |py| && PushWhile(py, it, bound, m, recordOnPush).Ok?
    ensures Extends(m, PushWhile(py, it, bound, m, recordOnPush).value.modules)
    decreases |py| - it
  {
    if !(it == |py| || (bound.Some? && py[it].endTime > bound.value)) {
      var m' := if recordOnPush then RecordModuleId(m, py[it]) else m;
      PushWhileStep(py, it, bound, m, recordOnPush);
      PushWhileExtends(py, it + 1, bound, m', recordOnPush);
      ExtendsTrans(m, m', PushWhile(py, it + 1, bound, m', recordOnPush).value.modules);
    }
  }

  /** acts are the activities of frames it, it + 1, ... under ids, each of
      which has the module id it needs. */
  predicate ActivitiesOf(py: seq<PyTraceEvent>, it: nat, acts: seq<CpuActivity>, ids: map<int, string>) {
    && it + |acts| <= |py|
    && forall j :: it <= j < it + |acts| ==> HasIdFor(py, j, ids) && acts[j - it] == PyActivity(py, j, ids)
  }

  lemma ActivitiesOfCons(py: seq<PyTraceEvent>, it: nat, a: CpuActivity, acts: seq<CpuActivity>, ids: map<int, string>)
    requires it < |py| && HasIdFor(py, it, ids) && a == PyActivity(py, it, ids)
    requires ActivitiesOf(py, it + 1, acts, ids)
    ensures ActivitiesOf(py, it, [a] + acts, ids)
  {
    var all := [a] + acts;
    forall j | it <= j < it + |all|
      ensures HasIdFor(py, j, ids) && all[j - it] == PyActivity(py, j, ids)
    {
      if j > it {
        assert all[j - it] == acts[j - (it + 1)];
      }
    }
  }

  lemma ActivitiesOfAppend(py: seq<PyTraceEvent>, it: nat, a1: seq<CpuActivity>, a2: seq<CpuActivity>,
                           ids: map<int, string>)
    requires ActivitiesOf(py, it, a1, ids) && ActivitiesOf(py, it + |a1|, a2, ids)
    ensures ActivitiesOf(py, it, a1 + a2, ids)
  {
    var all := a1 + a2;
    forall j | it <= j < it + |all|
      ensures HasIdFor(py, j, ids) && all[j - it] == PyActivity(py, j, ids)
    {
      if j - it < |a1| {
        assert all[j - it] == a1[j - it];
      } else {
        assert all[j - it] == a2[j - (it + |a1|)];
      }
    }
  }

  /** Further module ids do not change the activities already described. */
  lemma ActivitiesOfExtends(py: seq<PyTraceEvent>, it: nat, acts: seq<CpuActivity>, m1: ModuleIds, m2: ModuleIds)
    requires ActivitiesOf(py, it, acts, m1.ids) && Extends(m1, m2)
    ensures ActivitiesOf(py, it, acts, m2.ids)
  {
    forall j | it <= j < it + |acts|
      ensures HasIdFor(py, j, m2.ids) && acts[j - it] == PyActivity(py, j, m2.ids)
    {
      assert HasIdFor(py, j, m1.ids) && acts[j - it] == PyActivity(py, j, m1.ids);
      PyActivitySameId(py, j, m1.ids, m2.ids);
    }
  }

  /** Each pushed activity is the one for its frame under the final ids. */
  lemma {:induction false} PushWhileActivities(py: seq<PyTraceEvent>, it: nat, bound: Option<int>, m: ModuleIds,
                                               recordOnPush: bool)
    requires it <= |py| && PushWhile(py, it, bound, m, recordOnPush).Ok?
    ensures var p := PushWhile(py, it, bound, m, recordOnPush).value;
            ActivitiesOf(py, it, p.activities, p.modules.ids)
    decreases |py| - it
  {
    if !(it == |py| || (bound.Some? && py[it].endTime > bound.value)) {
      var m' := if recordOnPush then RecordModuleId(m, py[it]) else m;
      PushWhileStep(py, it, bound, m, recordOnPush);
      PushWhileActivities(py, it + 1, bound, m', recordOnPush);
      PushWhileExtends(py, it + 1, bound, m', recordOnPush);
      var rest := PushWhile(py, it + 1, bound, m', recordOnPush).value;
      assert HasIdFor(py, it, rest.modules.ids) by {
        if py[it].callType == PyModuleCall {
          assert py[it].moduleId in m'.ids;
        }
      }
      PyActivitySameId(py, it, m'.ids, rest.modules.ids);
      ActivitiesOfCons(py, it, PyActivity(py, it, m'.ids), rest.activities, rest.modules.ids);
    }
  }

  /** Without recording on push, pushing succeeds exactly as far as every
      module call pushed already has an id. */
  lemma {:induction false} PushWhileNeedsIds(py: seq<PyTraceEvent>, it: nat, bound: Option<int>, m: ModuleIds)
    requires it <= |py|
    ensures var r := PushWhile(py, it, bound, m, false);
            && (r.Ok? ==> forall j :: it <= j < r.value.next && py[j].callType == PyModuleCall ==> py[j].moduleId in m.ids)
            && ((forall j :: it <= j < |py| && py[j].callType == PyModuleCall ==> py[j].moduleId in m.ids) ==> r.Ok?)
    decreases |py| - it
  {
    if !(it == |py| || (bound.Some? && py[it].endTime > bound.value)) {
      PushWhileNeedsIds(py, it + 1, bound, m);
    }
  }

  /** The caller annotation, and the Python stack for an event without one. */
  function Annotate(py: seq<PyTraceEvent>, ev: KinetoEvent, a: CpuActivity, caller: Option<nat>,
                    ext: Externals): (r: (KinetoEvent, CpuActivity))
    requires WellFormed(py) && ValidFrame(py, caller)
    ensures ev.HasStack() ==> r.0 == ev
    ensures !ev.HasStack() ==> r.0 == ev.(stack := Some(NameChain(py, caller)))
    ensures r.1.name == a.name && r.1.startTime == a.startTime && r.1.endTime == a.endTime
    ensures |r.1.metadata| > |a.metadata| && r.1.metadata[..|a.metadata|] == a.metadata
    ensures r.1.metadata[|a.metadata|] == (PythonCallerId, PyIndex(caller))
  {
    var a1 := a.(metadata := a.metadata + [(PythonCallerId, PyIndex(caller))]);
    if ev.HasStack() then (ev, a1)
    else
      var names := NameChain(py, caller);
      (ev.(stack := Some(names)), a1.(metadata := a1.metadata + [(CallStack, ext.stacksToStr(names, ";"))]))
  }

  datatype Merged = Merged(events: seq<KinetoEvent>, activities: seq<CpuActivity>)

  /** The pushes of the loop over the CPU activities from k on: before each
      activity, the frames that end no later than it; after the last one,
      all remaining frames. */
  function PushAlong(py: seq<PyTraceEvent>, acts: seq<CpuActivity>, k: nat, it: nat, m: ModuleIds,
                     recordOnPush: bool): (r: Result<Pushed>)
    requires k <= |acts| && it <= |py|
    ensures r.Ok? ==> r.value.next == |py| && |r.value.activities| == |py| - it
    ensures recordOnPush ==> r.Ok?
    ensures !recordOnPush && r.Ok? ==> r.value.modules == m
    decreases |acts| - k
  {
    if k == |acts| then PushWhile(py, it, None, m, recordOnPush)
    else
      var p :- PushWhile(py, it, Some(acts[k].endTime), m, recordOnPush);
      var rest :- PushAlong(py, acts, k + 1, p.next, p.modules, recordOnPush);
      Ok(Pushed(rest.next, p.activities + rest.activities, rest.modules))
  }

  /** The whole loop only adds module ids. */
  lemma {:induction false} PushAlongExtends(py: seq<PyTraceEvent>, acts: seq<CpuActivity>, k: nat, it: nat,
                                            m: ModuleIds, recordOnPush: bool)
    requires k <= |acts| && it <= |py| && PushAlong(py, acts, k, it, m, recordOnPush).Ok?
    ensures Extends(m, PushAlong(py, acts, k, it, m, recordOnPush).value.modules)
    decreases |acts| - k
  {
    if k == |acts| {
      PushWhileExtends(py, it, None, m, recordOnPush);
    } else {
      var first := PushWhile(py, it, Some(acts[k].endTime), m, recordOnPush).value;
      PushWhileExtends(py, it, Some(acts[k].endTime), m, recordOnPush);
      PushAlongExtends(py, acts, k + 1, first.next, first.modules, recordOnPush);
      ExtendsTrans(m, first.modules, PushAlong(py, acts, k + 1, first.next, first.modules, recordOnPush).value.modules);
    }
  }

  /** Every activity the loop pushes is the one for its frame, in frame
      order, and every frame from `it` on has the module id it needs. */
  lemma {:induction false} PushAlongActivities(py: seq<PyTraceEvent>, acts: seq<CpuActivity>, k: nat, it: nat,
                                               m: ModuleIds, recordOnPush: bool)
    requires k <= |acts| && it <= |py| && PushAlong(py, acts, k, it, m, recordOnPush).Ok?
    ensures var p := PushAlong(py, acts, k, it, m, recordOnPush).value;
            ActivitiesOf(py, it, p.activities, p.modules.ids)
    decreases |acts| - k
  {
    if k == |acts| {
      PushWhileActivities(py, it, None, m, recordOnPush);
    } else {
      var first := PushWhile(py, it, Some(acts[k].endTime), m, recordOnPush).value;
      PushWhileActivities(py, it, Some(acts[k].endTime), m, recordOnPush);
      PushAlongActivities(py, acts, k + 1, first.next, first.modules, recordOnPush);
      PushAlongExtends(py, acts, k + 1, first.next, first.modules, recordOnPush);
      var rest := PushAlong(py, acts, k + 1, first.next, first.modules, recordOnPush).value;
      ActivitiesOfExtends(py, it, first.activities, first.modules, rest.modules);
      ActivitiesOfAppend(py, it, first.activities, rest.activities, rest.modules.ids);
    }
  }

  /** Without recording on push, the whole loop succeeds exactly when every
      module call from `it` on already has an id. */
  lemma {:induction false} PushAlongNeedsIds(py: seq<PyTraceEvent>, acts: seq<CpuActivity>, k: nat, it: nat,
                                             m: ModuleIds)
    requires k <= |acts| && it <= |py|
    ensures PushAlong(py, acts, k, it, m, false).Ok? <==>
              forall j :: it <= j < |py| && py[j].callType == PyModuleCall ==> py[j].moduleId in m.ids
    decreases |acts| - k
  {
    if k == |acts| {
      PushWhileNeedsIds(py, it, None, m);
    } else {
      PushWhileNeedsIds(py, it, Some(acts[k].endTime), m);
      var p := PushWhile(py, it, Some(acts[k].endTime), m, false);
      if p.Ok? {
        PushAlongNeedsIds(py, acts, k + 1, p.value.next, m);
      }
    }
  }

  /** Every CPU activity with its caller annotation (op_py_map.at cannot
      miss: the replay put every start time in the map). */
  function AnnotateAll(py: seq<PyTraceEvent>, events: seq<KinetoEvent>, acts: seq<CpuActivity>,
                       callers: map<int, Option<nat>>, ext: Externals): (r: Merged)
    requires WellFormed(py) && |events| == |acts|
    requires forall t :: t in callers ==> ValidFrame(py, callers[t])
    requires forall i :: 0 <= i < |acts| ==> acts[i].startTime in callers
    ensures |r.events| == |r.activities| == |acts|
    ensures forall i :: 0 <= i < |acts| ==>
              (r.events[i], r.activities[i]) == Annotate(py, events[i], acts[i], callers[acts[i].startTime], ext)
  {
    Merged(seq(|acts|, i requires 0 <= i < |acts| => Annotate(py, events[i], acts[i], callers[acts[i].startTime], ext).0),
           seq(|acts|, i requires 0 <= i < |acts| => Annotate(py, events[i], acts[i], callers[acts[i].startTime], ext).1))
  }

  predicate SingleThreaded(py: seq<PyTraceEvent>) {
    forall i :: 0 <= i < |py| ==> py[i].threadId == 0
  }

  /** addPythonEvents, parameterised by whether a push records a module id
      that the replay never reached. */
  function MergePythonEvents(tracePython: bool, py: seq<PyTraceEvent>, events: seq<KinetoEvent>,
                             acts: seq<CpuActivity>, recordOnPush: bool, ext: Externals)
    : (r: Result<Merged>)
    requires WellFormed(py)
    ensures !tracePython ==> r == Ok(Merged(events, acts))
    ensures tracePython && !SingleThreaded(py) ==> r.Err?
    ensures tracePython && SingleThreaded(py) && |py| == 0 ==> r == Ok(Merged(events, acts))
    ensures tracePython && SingleThreaded(py) && |py| > 0 && FindCallers(py, acts).Err? ==> r.Err?
    ensures r.Ok? && tracePython && |py| > 0 ==>
              && FindCallers(py, acts).Ok? && |events| == |acts|
              && PushAlong(py, acts, 0, 0, FindCallers(py, acts).value.modules, recordOnPush).Ok?
              && r.value.events == AnnotateAll(py, events, acts, FindCallers(py, acts).value.opPyMap, ext).events
              && r.value.activities
                 == AnnotateAll(py, events, acts, FindCallers(py, acts).value.opPyMap, ext).activities
                    + PushAlong(py, acts, 0, 0, FindCallers(py, acts).value.modules, recordOnPush).value.activities
    ensures tracePython && SingleThreaded(py) && |py| > 0 && FindCallers(py, acts).Ok? && |events| == |acts| ==>
              (r.Ok? <==> PushAlong(py, acts, 0, 0, FindCallers(py, acts).value.modules, recordOnPush).Ok?)
  {
    if !tracePython then Ok(Merged(events, acts))
    else if !SingleThreaded(py) then Err(InternalAssert("Profiler expects only single threaded Python tracing."))
    else if |py| == 0 then Ok(Merged(events, acts))
    else
      var callers :- FindCallers(py, acts);
      if |acts| != |events| then Err(InternalAssert("cpu_trace->activities.size() == kineto_events_.size()"))
      else
        var pushed :- PushAlong(py, acts, 0, 0, callers.modules, recordOnPush);
        var annotated := AnnotateAll(py, events, acts, callers.opPyMap, ext);
        Ok(Merged(annotated.events, annotated.activities + pushed.activities))
  }

  /** What a successful merge holds: every event keeps its JIT stack or
      gets its Python caller's chain, and the Python frames follow the CPU
      activities in frame order. */
  lemma MergeLayout(tracePython: bool, py: seq<PyTraceEvent>, events: seq<KinetoEvent>,
                    acts: seq<CpuActivity>, recordOnPush: bool, ext: Externals)
    requires WellFormed(py)
    ensures var r := MergePythonEvents(tracePython, py, events, acts, recordOnPush, ext);
            r.Ok? && tracePython && |py| > 0 ==>
              && |r.value.events| == |events|
              && |r.value.activities| == |acts| + |py|
              && (forall i :: 0 <= i < |events| && events[i].HasStack() ==> r.value.events[i] == events[i])
              && (forall i :: 0 <= i < |events| && !events[i].HasStack() ==>
                    exists c :: ValidFrame(py, c) && r.value.events[i] == events[i].(stack := Some(NameChain(py, c))))
              && (forall i :: 0 <= i < |events| && !events[i].HasStack() ==>
                    r.value.events[i] == events[i].(stack := Some(NameChain(py, CallerAt(py, acts[i].startTime)))))
              && (forall i :: 0 <= i < |acts| ==> CallerAnnotated(r.value.activities[i], acts[i], py))
              && FramesFollow(r.value.activities, |acts|, py)
  {
    var r := MergePythonEvents(tracePython, py, events, acts, recordOnPush, ext);
    if r.Ok? && tracePython && |py| > 0 {
      MergeStacks(py, events, acts, recordOnPush, ext);
      MergeCallerIds(py, events, acts, recordOnPush, ext);
      MergePyActivities(py, events, acts, recordOnPush, ext);
    }
  }

  /** An event without a stack gets the name chain of the frame on top of
      the replayed stack when its operator starts. */
  lemma MergeStacks(py: seq<PyTraceEvent>, events: seq<KinetoEvent>, acts: seq<CpuActivity>, recordOnPush: bool,
                    ext: Externals)
    requires WellFormed(py) && MergePythonEvents(true, py, events, acts, recordOnPush, ext).Ok? && |py| > 0
    ensures var r := MergePythonEvents(true, py, events, acts, recordOnPush, ext).value;
            forall i :: 0 <= i < |events| && !events[i].HasStack() ==>
              exists c :: ValidFrame(py, c) && r.events[i] == events[i].(stack := Some(NameChain(py, c)))
    ensures var r := MergePythonEvents(true, py, events, acts, recordOnPush, ext).value;
            forall i :: 0 <= i < |events| && !events[i].HasStack() ==>
              r.events[i] == events[i].(stack := Some(NameChain(py, CallerAt(py, acts[i].startTime))))
  {
    var r := MergePythonEvents(true, py, events, acts, recordOnPush, ext).value;
    var callers := FindCallers(py, acts).value;
    forall i | 0 <= i < |events| && !events[i].HasStack()
      ensures r.events[i] == events[i].(stack := Some(NameChain(py, CallerAt(py, acts[i].startTime))))
    {
      var c := callers.opPyMap[acts[i].startTime];
      assert c == CallerAt(py, acts[i].startTime);
      assert ValidFrame(py, c) && r.events[i] == events[i].(stack := Some(NameChain(py, c)));
    }
  }

  /** a is the CPU activity `original` with the python_caller_id annotation
      of its operator's caller appended to its metadata. */
  predicate CallerAnnotated(a: CpuActivity, original: CpuActivity, py: seq<PyTraceEvent>) {
    && |a.metadata| > |original.metadata|
    && a.metadata[..|original.metadata|] == original.metadata
    && a.metadata[|original.metadata|] == (PythonCallerId, PyIndex(CallerAt(py, original.startTime)))
  }

  /** Every CPU activity carries its caller's index after its own annotations. */
  lemma MergeCallerIds(py: seq<PyTraceEvent>, events: seq<KinetoEvent>, acts: seq<CpuActivity>, recordOnPush: bool,
                       ext: Externals)
    requires WellFormed(py) && MergePythonEvents(true, py, events, acts, recordOnPush, ext).Ok? && |py| > 0
    ensures var r := MergePythonEvents(true, py, events, acts, recordOnPush, ext).value;
            forall i :: 0 <= i < |acts| ==> CallerAnnotated(r.activities[i], acts[i], py)
  {
    var r := MergePythonEvents(true, py, events, acts, recordOnPush, ext).value;
    var callers := FindCallers(py, acts).value;
    var annotated := AnnotateAll(py, events, acts, callers.opPyMap, ext);
    forall i | 0 <= i < |acts|
      ensures CallerAnnotated(r.activities[i], acts[i], py)
    {
      assert r.activities[i] == annotated.activities[i];
      assert callers.opPyMap[acts[i].startTime] == CallerAt(py, acts[i].startTime);
    }
  }

  lemma MergePyActivities(py: seq<PyTraceEvent>, events: seq<KinetoEvent>, acts: seq<CpuActivity>,
                          recordOnPush: bool, ext: Externals)
    requires WellFormed(py) && MergePythonEvents(true, py, events, acts, recordOnPush, ext).Ok? && |py| > 0
    ensures var r := MergePythonEvents(true, py, events, acts, recordOnPush, ext).value;
            FramesFollow(r.activities, |acts|, py)
  {
    var r := MergePythonEvents(true, py, events, acts, recordOnPush, ext).value;
    var callers := FindCallers(py, acts).value;
    var annotated := AnnotateAll(py, events, acts, callers.opPyMap, ext).activities;
    var pushed := PushAlong(py, acts, 0, 0, callers.modules, recordOnPush).value;
    PushAlongActivities(py, acts, 0, 0, callers.modules, recordOnPush);
    PushedAreFrames(py, pushed);
    assert r.activities == annotated + pushed.activities && |annotated| == |acts|;
    SuffixArePyActivities(r.activities, annotated, pushed.activities, py, |acts|);
  }

  /** The frames pushed from the first one on are the activities of the
      frames, in order. */
  lemma PushedAreFrames(py: seq<PyTraceEvent>, pushed: Pushed)
    requires |pushed.activities| == |py| && ActivitiesOf(py, 0, pushed.activities, pushed.modules.ids)
    ensures forall j :: 0 <= j < |py| ==> IsPyActivityOf(pushed.activities[j], py, j)
  {
    forall j | 0 <= j < |py|
      ensures IsPyActivityOf(pushed.activities[j], py, j)
    {
      assert pushed.activities[j - 0] == PyActivity(py, j, pushed.modules.ids);
      PyActivityShape(py, j, pushed.modules.ids);
    }
  }

  /** From position n on, all holds the activity of every frame, in frame order. */
  predicate FramesFollow(all: seq<CpuActivity>, n: nat, py: seq<PyTraceEvent>) {
    && n + |py| <= |all|
    && forall j :: n <= j < n + |py| ==> IsPyActivityOf(all[j], py, j - n)
  }

  /** Appending the frames' activities after a prefix shifts them by the
      prefix's length. */
  lemma SuffixArePyActivities(all: seq<CpuActivity>, prefix: seq<CpuActivity>, tail: seq<CpuActivity>,
                              py: seq<PyTraceEvent>, n: nat)
    requires all == prefix + tail && |prefix| == n && |tail| == |py|
    requires forall j :: 0 <= j < |py| ==> IsPyActivityOf(tail[j], py, j)
    ensures FramesFollow(all, n, py)
  {
    forall j | n <= j < n + |py|
      ensures IsPyActivityOf(all[j], py, j - n)
    {
      assert all[j] == tail[j - n];
    }
  }

  /** addPythonEvents exactly as the source writes it: it succeeds only if
      every module call was entered during the replay. */
  function AddPythonEventsAsWritten(tracePython: bool, py: seq<PyTraceEvent>, events: seq<KinetoEvent>,
                                    acts: seq<CpuActivity>, ext: Externals): (r: Result<Merged>)
    requires WellFormed(py)
    ensures tracePython && SingleThreaded(py) && |py| > 0 && |events| == |acts| && FindCallers(py, acts).Ok? ==>
              (r.Ok? <==> forall j :: 0 <= j < |py| && py[j].callType == PyModuleCall ==>
                                       py[j].moduleId in FindCallers(py, acts).value.modules.ids)
  {
    if FindCallers(py, acts).Ok? then
      PushAlongNeedsIds(py, acts, 0, 0, FindCallers(py, acts).value.modules);
      MergePythonEvents(tracePython, py, events, acts, false, ext)
    else MergePythonEvents(tracePython, py, events, acts, false, ext)
  }

  /** addPythonEvents as intended: module ids missing at push time are
      recorded then, so the merge fails only where the replay does. */
  function AddPythonEvents(tracePython: bool, py: seq<PyTraceEvent>, events: seq<KinetoEvent>,
                           acts: seq<CpuActivity>, ext: Externals): (r: Result<Merged>)
    requires WellFormed(py)
    ensures !tracePython ==> r == Ok(Merged(events, acts))
    ensures tracePython && !SingleThreaded(py) ==> r.Err?
    ensures tracePython && SingleThreaded(py) && |py| == 0 ==> r == Ok(Merged(events, acts))
    ensures tracePython && SingleThreaded(py) && |py| > 0 && |events| == |acts| ==>
              (r.Ok? <==> FindCallers(py, acts).Ok?)
    ensures r.Err? ==> r.error.InternalAssert?
    ensures r.Ok? && tracePython && |py| > 0 ==>
              && |r.value.events| == |events|
              && |r.value.activities| == |acts| + |py|
              && |events| == |acts|
              && (forall i :: 0 <= i < |events| && events[i].HasStack() ==> r.value.events[i] == events[i])
              && (forall i :: 0 <= i < |events| && !events[i].HasStack() ==>
                    exists c :: ValidFrame(py, c) && r.value.events[i] == events[i].(stack := Some(NameChain(py, c))))
              && (forall i :: 0 <= i < |events| && !events[i].HasStack() ==>
                    r.value.events[i] == events[i].(stack := Some(NameChain(py, CallerAt(py, acts[i].startTime)))))
              && (forall i :: 0 <= i < |acts| ==> CallerAnnotated(r.value.activities[i], acts[i], py))
              && FramesFollow(r.value.activities, |acts|, py)
  {
    MergeLayout(tracePython, py, events, acts, true, ext);
    MergePythonEvents(tracePython, py, events, acts, true, ext)
  }

  /** When a push needs no new module id, recording on push changes nothing. */
  lemma {:induction false} PushWhileAgrees(py: seq<PyTraceEvent>, it: nat, bound: Option<int>, m: ModuleIds)
    requires it <= |py| && PushWhile(py, it, bound, m, false).Ok?
    ensures PushWhile(py, it, bound, m, true) == PushWhile(py, it, bound, m, false)
    decreases |py| - it
  {
    if !(it == |py| || (bound.Some? && py[it].endTime > bound.value)) {
      assert RecordModuleId(m, py[it]) == m;
      PushWhileAgrees(py, it + 1, bound, m);
    }
  }

  lemma {:induction false} PushAlongAgrees(py: seq<PyTraceEvent>, acts: seq<CpuActivity>, k: nat, it: nat,
                                           m: ModuleIds)
    requires k <= |acts| && it <= |py| && PushAlong(py, acts, k, it, m, false).Ok?
    ensures PushAlong(py, acts, k, it, m, true) == PushAlong(py, acts, k, it, m, false)
    decreases |acts| - k
  {
    if k == |acts| {
      PushWhileAgrees(py, it, None, m);
    } else {
      PushWhileAgrees(py, it, Some(acts[k].endTime), m);
      var p := PushWhile(py, it, Some(acts[k].endTime), m, false);
      PushAlongAgrees(py, acts, k + 1, p.value.next, p.value.modules);
    }
  }

  /** Wherever the merge as written succeeds, the corrected merge gives the
      same events and activities. */
  lemma AsWrittenAgreesWhenItSucceeds(tracePython: bool, py: seq<PyTraceEvent>, events: seq<KinetoEvent>,
                                      acts: seq<CpuActivity>, ext: Externals)
    requires WellFormed(py) && AddPythonEventsAsWritten(tracePython, py, events, acts, ext).Ok?
    ensures AddPythonEvents(tracePython, py, events, acts, ext) == AddPythonEventsAsWritten(tracePython, py, events, acts, ext)
  {
    if tracePython && SingleThreaded(py) && |py| > 0 && |acts| == |events| {
      var callers := FindCallers(py, acts).value;
      PushAlongAgrees(py, acts, 0, 0, callers.modules);
    }
  }

  /** py[j] is a module call, and every call of its module starts after
      every operator. */
  predicate LateModuleCall(py: seq<PyTraceEvent>, acts: seq<CpuActivity>, j: nat) {
    && j < |py| && py[j].callType == PyModuleCall
    && forall k, i :: (0 <= k < |py| && 0 <= i < |acts| && py[k].callType == PyModuleCall
                       && py[k].moduleId == py[j].moduleId) ==> py[k].startTime > acts[i].startTime
  }

  /** A module call whose identity is first entered after every operator
      has started gets no id from the replay, and the merge as written
      throws when it pushes that frame. */
  lemma AsWrittenThrowsOnLateModuleCall(py: seq<PyTraceEvent>, events: seq<KinetoEvent>,
                                        acts: seq<CpuActivity>, ext: Externals, j: nat)
    requires WellFormed(py) && SingleThreaded(py) && |events| == |acts|
    requires LateModuleCall(py, acts, j)
    ensures AddPythonEventsAsWritten(true, py, events, acts, ext).Err?
  {
    var c := FindCallers(py, acts);
    if c.Ok? {
      ReplayedModulesStartBeforeAnOp(py, acts);
      assert py[j].moduleId !in c.value.modules.ids;
    }
  }

  /** The smallest instance: one operator over [10, 20] and one module call
      over [30, 40]. */
  lemma AsWrittenLateModuleCallExample(ext: Externals)
    ensures AddPythonEventsAsWritten(true,
              [PyTraceEvent("nn.Module: Identity", 30, 40, None, 0, 1, 0, PyModuleCall, 7)],
              [EmptyEvent("aten::add")], [CpuActivity("aten::add", CpuOp, 1, 10, 20, [])], ext).Err?
  {
    AsWrittenThrowsOnLateModuleCall(
      [PyTraceEvent("nn.Module: Identity", 30, 40, None, 0, 1, 0, PyModuleCall, 7)],
      [EmptyEvent("aten::add")], [CpuActivity("aten::add", CpuOp, 1, 10, 20, [])], ext, 0);
  }

  /** The corrected merge never throws for that reason: whenever the replay
      succeeds, so does the merge, and every module-call frame's activity
      carries its module id. */
  lemma CorrectedHandlesLateModuleCall(py: seq<PyTraceEvent>, events: seq<KinetoEvent>,
                                       acts: seq<CpuActivity>, ext: Externals)
    requires WellFormed(py) && SingleThreaded(py) && |py| > 0 && |events| == |acts|
    requires FindCallers(py, acts).Ok?
    ensures AddPythonEvents(true, py, events, acts, ext).Ok?
    ensures forall j :: 0 <= j < |py| && py[j].callType == PyModuleCall ==>
              AddPythonEvents(true, py, events, acts, ext).value.activities[|acts| + j].metadata[3].0 == PythonModuleId
  {
    var r := AddPythonEvents(true, py, events, acts, ext);
    forall j | 0 <= j < |py| && py[j].callType == PyModuleCall
      ensures r.value.activities[|acts| + j].metadata[3].0 == PythonModuleId
    {
      assert FramesFollow(r.value.activities, |acts|, py);
      assert IsPyActivityOf(r.value.activities[|acts| + j], py, |acts| + j - |acts|);
    }
  }
}

=== FILE: sorting.dfy ===
/** A stable sort by an integer key, standing in for std::sort over
    Replay entries (by call/return index) and over operator start times. */
module Sorting {

  predicate SortedBy<T>(s: seq<T>, key: T -> int) {
    forall i, j :: 0 <= i < j < |s| ==> key(s[i]) <= key(s[j])
  }

  /** Inserts x after every element whose key is not larger than its own. */
  function Insert<T>(x: T, s: seq<T>, key: T -> int): (r: seq<T>)
    requires SortedBy(s, key)
    ensures |r| == |s| + 1
    ensures r[0] == x || (|s| > 0 && r[0] == s[0])
    ensures SortedBy(r, key)
    ensures multiset(r) == multiset(s) + multiset{x}
  {
    if |s| == 0 then [x]
    else if key(x) < key(s[0]) then [x] + s
    else
      var rest := Insert(x, s[1..], key);
      assert s == [s[0]] + s[1..];
      assert key(s[0]) <= key(rest[0]);
      [s[0]] + rest
  }

  /** Insertion sort: the input reordered so that keys ascend. */
  function SortBy<T>(s: seq<T>, key: T -> int): (r: seq<T>)
    ensures SortedBy(r, key)
    ensures multiset(r) == multiset(s)
    ensures |r| == |s|
  {
    if |s| == 0 then []
    else
      assert s == s[..|s| - 1] + [s[|s| - 1]];
      Insert(s[|s| - 1], SortBy(s[..|s| - 1], key), key)
  }

  /** Sorting only reorders: every element of the result is an input element. */
  lemma SortByMembers<T>(s: seq<T>, key: T -> int)
    ensures forall i :: 0 <= i < |SortBy(s, key)| ==> SortBy(s, key)[i] in s
  {
    var r := SortBy(s, key);
    forall i | 0 <= i < |r|
      ensures r[i] in s
    {
      assert r[i] in multiset(r);
    }
  }

  /** Sorting integers by their own value. */
  function SortInts(s: seq<int>): (r: seq<int>)
    ensures forall i, j :: 0 <= i < j < |r| ==> r[i] <= r[j]
    ensures multiset(r) == multiset(s)
  {
    SortBy(s, (x: int) => x)
  }
}

=== FILE: strings.dfy ===
/** Decimal rendering (what std::to_string and Python's str() print for an
    integer) and separator joining (Python's str.join, the profiler's
    stacksToStr-style joins), with their inverses. */
module Strings {
  import opened Wrappers

  predicate IsDigit(c: char) { '0' <= c <= '9' }

  predicate AllDigits(s: string) {
    forall i :: 0 <= i < |s| ==> IsDigit(s[i])
  }

  /** The character of decimal digit d. */
  function DigitChar(d: nat): (c: char)
    requires d < 10
    ensures IsDigit(c)
  {
    (48 + d) as char
  }

  function DigitValue(c: char): (d: nat)
    requires IsDigit(c)
    ensures d < 10
  {
    c as int - 48
  }

  /** Decimal digits of n, most significant first. */
  function NatToString(n: nat): (s: string)
    ensures |s| > 0 && AllDigits(s)
    ensures |s| > 1 ==> s[0] != '0'
  {
    if n < 10 then [DigitChar(n)] else NatToString(n / 10) + [DigitChar(n % 10)]
  }

  /** std::to_string of a signed integer: a leading '-' for negatives. */
  function IntToString(i: int): (s: string)
    ensures |s| > 0
    ensures s[0] == '-' <==> i < 0
  {
    if i < 0 then "-" + NatToString(-i) else NatToString(i)
  }

  /** The value of a run of decimal digits, most significant first. */
  function DigitsValue(s: string): nat
    requires AllDigits(s)
  {
    if |s| == 0 then 0 else DigitsValue(s[..|s| - 1]) * 10 + DigitValue(s[|s| - 1])
  }

  /** Reads back a decimal integer, optionally preceded by '-'. */
  function ParseInt(s: string): Option<int> {
    if |s| > 1 && s[0] == '-' && AllDigits(s[1..]) then
      var v: int := DigitsValue(s[1..]); Some(-v)
    else if |s| > 0 && AllDigits(s) then
      var v: int := DigitsValue(s); Some(v)
    else None
  }

  lemma {:induction false} NatToStringValue(n: nat)
    ensures DigitsValue(NatToString(n)) == n
    decreases n
  {
    if n >= 10 {
      var prefix := NatToString(n / 10);
      var s := prefix + [DigitChar(n % 10)];
      assert s[..|s| - 1] == prefix;
      NatToStringValue(n / 10);
    }
  }

  /** Decimal rendering is undone by parsing: the rendering loses nothing. */
  lemma IntToStringRoundTrip(i: int)
    ensures ParseInt(IntToString(i)) == Some(i)
  {
    if i < 0 {
      var s := IntToString(i);
      assert s[1..] == NatToString(-i);
      NatToStringValue(-i);
    } else {
      NatToStringValue(i);
    }
  }

  /** Two different integers never print the same. */
  lemma IntToStringInjective(i: int, j: int)
    ensures IntToString(i) == IntToString(j) ==> i == j
  {
    IntToStringRoundTrip(i);
    IntToStringRoundTrip(j);
  }

  /** items[0] + sep + items[1] + ... + sep + items[n-1], and "" for no items. */
  function Join(items: seq<string>, sep: string): string {
    if |items| == 0 then ""
    else if |items| == 1 then items[0]
    else items[0] + sep + Join(items[1..], sep)
  }

  function TotalLength(items: seq<string>): nat {
    if |items| == 0 then 0 else |items[0]| + TotalLength(items[1..])
  }

  /** Joining adds exactly one separator between neighbouring items. */
  lemma {:induction false} JoinLength(items: seq<string>, sep: string)
    requires |items| > 0
    ensures |Join(items, sep)| == TotalLength(items) + (|items| - 1) * |sep|
  {
    if |items| > 1 {
      JoinLength(items[1..], sep);
    }
  }

  /** Appending one item to a join appends one separator and the item. */
  lemma {:induction false} JoinSnoc(items: seq<string>, x: string, sep: string)
    requires |items| > 0
    ensures Join(items + [x], sep) == Join(items, sep) + sep + x
  {
    if |items| == 1 {
      assert (items + [x])[1..] == [x];
    } else {
      assert (items + [x])[1..] == items[1..] + [x];
      JoinSnoc(items[1..], x, sep);
    }
  }

  /** Concatenation regroups freely. */
  lemma AppendAssoc(a: string, b: string, c: string)
    ensures (a + b) + c == a + (b + c)
  {
  }

  /** Every item followed by sep: what a stream holds after writing
      `item << sep` for each item in turn. */
  function Terminated(items: seq<string>, sep: string): string {
    if |items| == 0 then "" else Terminated(items[..|items| - 1], sep) + items[|items| - 1] + sep
  }

  /** Writing all but the last item with a separator, then the last item
      bare, produces the join. */
  lemma {:induction false} TerminatedJoin(items: seq<string>, sep: string)
    requires |items| > 0
    ensures Terminated(items[..|items| - 1], sep) + items[|items| - 1] == Join(items, sep)
  {
    var n := |items|;
    if n > 1 {
      var init := items[..n - 1];
      assert init[..|init| - 1] == items[..n - 2];
      TerminatedJoin(init, sep);
      assert init + [items[n - 1]] == items;
      JoinSnoc(init, items[n - 1], sep);
    }
  }

  /** Writing every item with a separator is the join followed by one more
      separator. */
  lemma TerminatedAll(items: seq<string>, sep: string)
    requires |items| > 0
    ensures Terminated(items, sep) == Join(items, sep) + sep
  {
    TerminatedJoin(items, sep);
  }

  /** The decimal rendering of every element of xs. */
  function IntsToStrings(xs: seq<int>): (r: seq<string>)
    ensures |r| == |xs|
    ensures forall i :: 0 <= i < |xs| ==> r[i] == IntToString(xs[i])
  {
    if |xs| == 0 then [] else [IntToString(xs[0])] + IntsToStrings(xs[1..])
  }
}

=== FILE: wrappers.dfy ===
/** Failure-carrying datatypes shared by every module of the model. */
module Wrappers {

  /** A value that may be absent (a null pointer, an empty std::optional, Python's None). */
  datatype Option<+T> = None | Some(value: T)

  /** The kinds of exception the modelled code raises. */
  datatype TorchError =
    | RuntimeError(msg: string)   // TORCH_CHECK
    | Exception(msg: string)      // a bare Python `Exception`
    | IndexError(msg: string)     // TORCH_CHECK_INDEX
    | InternalAssert(msg: string) // TORCH_INTERNAL_ASSERT (always checked)
    | AttributeError(msg: string) // Python AttributeError
    | OutOfRange(msg: string)     // std::out_of_range from a map's at()
    | NullDereference(msg: string) // a member access through a null pointer (undefined behaviour)
    | NotImplementedError(msg: string) // Python NotImplementedError

  /** The outcome of an operation that returns a value or raises. */
  datatype Result<+T> = Ok(value: T) | Err(error: TorchError) {
    predicate IsFailure() { Err? }

    function PropagateFailure<U>(): Result<U>
      requires Err?
    {
      Err(error)
    }

    function Extract(): T
      requires Ok?
    {
      value
    }
  }

  /** The outcome of an operation that only checks and returns nothing. */
  datatype Outcome = Pass | Fail(error: TorchError) {
    predicate IsFailure() { Fail? }

    function PropagateFailure(): Outcome
      requires Fail?
    {
      this
    }
  }
}
